=== FILE: README.md ===
# BreadAndWine in Dafny

A Dafny model of the notification and devotional-data core of the BreadAndWine devotional apps. It covers the two Android code trees and the iOS services that decide what the user is reminded of, and when.

The model covers:

- **Devotional data (Android).** The repository (`getDevotionals`, `refreshDevotionals`, `getTodaysNugget`), the SharedPreferences cache, and the devotional record's helpers. The devotional list view model and the older repository, which looks up today's nugget by `Instant`, are included too.
- **Reminders (Android).** The AlarmManager scheduler and its receiver, the WorkManager `NotificationWorker` and `DevotionalWorker`, and the settings view models (current and older). Start-up and boot rescheduling are included.
- **Text (Android).** The share text and the text-to-speech text built on the detail screen, with their HTML stripping and entity decoding.
- **iOS.** `NotificationManager`, `BackgroundFetchManager`, `NetworkManager` with `NetworkError`, and `stripHTMLTags`.

## How it is modelled

The operating system's registries are maps in `Platform.Os`:

- alarms by request code;
- tray notifications by id;
- unique work by name.

Every Android operation is a pure function from one `Os` value to the next. A `try` block that swallows exceptions becomes `RunSteps(os, steps, throwsAt)`: the calls up to the one that throws take effect, and the rest do not. The SharedPreferences store is a `map<string, string>`, and the JSON codec is a parameter.

Time is whole milliseconds on the device's wall clock: `Clock` reads the hour of an instant in the device's own zone, with every day 24 hours long. Where the code compares an instant from the server with today's date, the zone's offset from UTC is a parameter. `Clock.NextOccurrence` is the one "today at h:m, or tomorrow" rule, with both roll rules the code uses:

- `<` in the scheduler, `DevotionalWorker` and `BackgroundFetchManager`;
- `<=` in `calculateDelayUntil`.

`Calendar.getInstance()` keeps the current millisecond when only the hour, minute and second are set. The model keeps it too.

Everything the code receives from outside is an input to the model:

- network answers;
- "this call throws";
- permissions and the SDK level;
- today's date.

iOS callbacks are modelled as straight-line code, and the `NSCache` is a map.

### Choices where the code leaves room

- The older and current Android repositories have identical `getDevotionals` and `refreshDevotionals` bodies, so `Repository` models both. `LegacyRepository` models only the older `getTodaysNugget`, which differs.
- In `decodeHtmlEntities` the `&#8220;` and `&#8221;` rows each write their replacement as `"""`. Kotlin reads that as one raw string running from line 411 to line 412, so the chain as the file holds it has one row for `&#8220;`, replaced by the source text in between, and no row for `&#8221;` (see Findings). `Entities.EntityTable` is the chain with the curly quotes U+201C and U+201D the unit test expects, and the rest of the model uses it; `Entities.AsWrittenTable` is the chain as written.
- Lengths (`getPreviewText`, `take`) count characters, not UTF-16 code units.
- String `compareTo`, used by `sortedByDescending { date }`, is lexicographic on characters.
- Years have four digits.
- `NotificationWorker` holds its morning body as mis-decoded text (`â€”` where the receiver has an em dash). The model keeps it as written.
- iOS `BackgroundFetchManager` has a comment that says "before 2 PM", but its code asks for 09:45. The code is followed.
- The iOS `Devotional` Codable types are not part of this model. Today's devotional reaches the notification manager as the same record the Android code uses: `id`, `date` and the `acf` nugget.

## Model

| member | source | states |
|---|---|---|
| Cache.SaveDevotionals | BreadAndWineAndroid/app/src/main/java/breadandwineandroid/breadandwineandroid/data/cache/DevotionalCache.kt:48-53 | the list replaces the stored JSON and every other key keeps its value |
| Cache.CachedDevotionals | BreadAndWineAndroid/app/src/main/java/breadandwineandroid/breadandwineandroid/data/cache/DevotionalCache.kt:58-66 | an absent key or JSON that fails to decode gives the empty list |
| Cache.SaveThenReadDevotionals | BreadAndWineAndroid/app/src/main/java/breadandwineandroid/breadandwineandroid/data/cache/DevotionalCache.kt:48-66 | with a JSON codec that reads back what it writes, the saved list is the list read back |
| Cache.Flag | BreadAndWineAndroid/app/src/main/java/breadandwineandroid/breadandwineandroid/data/cache/DevotionalCache.kt:88-96 | a switch with no stored value reads as on |
| Cache.SaveNotificationSettings | BreadAndWineAndroid/app/src/main/java/breadandwineandroid/breadandwineandroid/data/cache/DevotionalCache.kt:73-83 | the three switches are written under their keys and no other key changes |
| Cache.GetNotificationSettings | BreadAndWineAndroid/app/src/main/java/breadandwineandroid/breadandwineandroid/data/cache/DevotionalCache.kt:88-96 | each switch defaults to on while its key is absent |
| Cache.SaveThenReadSettings | BreadAndWineAndroid/app/src/main/java/breadandwineandroid/breadandwineandroid/data/cache/DevotionalCache.kt:73-96 | saving (e, m, n) and then reading gives back exactly (e, m, n) |
| Cache.SavesAreIndependent | BreadAndWineAndroid/app/src/main/java/breadandwineandroid/breadandwineandroid/data/cache/DevotionalCache.kt:39-53 | saving the switches leaves the cached list unchanged, and saving the list leaves the switches unchanged |
| DateOrder.LexLeTotal | BreadAndWineAndroid/app/src/main/java/breadandwineandroid/breadandwineandroid/data/repository/DevotionalRepository.kt:81 | the `date` string order used for sorting is total |
| DateOrder.LexLeTransitive | BreadAndWineAndroid/app/src/main/java/breadandwineandroid/breadandwineandroid/data/repository/DevotionalRepository.kt:81 | the `date` string order is transitive |
| DateOrder.LexLeAntisymmetric | BreadAndWineAndroid/app/src/main/java/breadandwineandroid/breadandwineandroid/data/repository/DevotionalRepository.kt:81 | the `date` string order is antisymmetric |
| DateOrder.InsertDescSorted | BreadAndWineAndroid/app/src/main/java/breadandwineandroid/breadandwineandroid/data/repository/DevotionalRepository.kt:81 | inserting into a newest-first list keeps it sorted and adds exactly one element |
| DateOrder.InsertDescStable | BreadAndWineAndroid/app/src/main/java/breadandwineandroid/breadandwineandroid/data/repository/DevotionalRepository.kt:81 | inserting keeps the relative order of entries that share a date |
| DateOrder.SortByDateDesc | BreadAndWineAndroid/app/src/main/java/breadandwineandroid/breadandwineandroid/data/repository/DevotionalRepository.kt:81 | `sortedByDescending { date }` gives a sorted permutation of its input that keeps same-date entries in their input order |
| DateOrder.SortSortedIsIdentity | BreadAndWineAndroid/app/src/main/java/breadandwineandroid/breadandwineandroid/data/repository/DevotionalRepository.kt:81 | sorting a list that is already newest-first changes nothing |
| Repository.EmitCachedOrError | BreadAndWineAndroid/app/src/main/java/breadandwineandroid/breadandwineandroid/data/repository/DevotionalRepository.kt:56-64 | the cached list when it is non-empty, otherwise an error with the given message |
| Repository.GetDevotionals | BreadAndWineAndroid/app/src/main/java/breadandwineandroid/breadandwineandroid/data/repository/DevotionalRepository.kt:24-50 | `Loading` comes first; a delivered response is saved and then emitted newest-first; on failure nothing follows `Loading` and the cache is untouched |
| Repository.GetDevotionalsCorrected | BreadAndWineAndroid/app/src/main/java/breadandwineandroid/breadandwineandroid/data/repository/DevotionalRepository.kt:43-64 | on failure `Loading` is followed by the cached list or the error |
| Repository.FailedFetchNeverSettles | BreadAndWineAndroid/app/src/main/java/breadandwineandroid/breadandwineandroid/data/repository/DevotionalRepository.kt:43-50 | a failed request leaves the flow on `Loading` even though the cache holds a list, while the corrected flow delivers that list |
| Repository.OfflineServesLastSavedList | BreadAndWineAndroid/app/src/main/java/breadandwineandroid/breadandwineandroid/data/repository/DevotionalRepository.kt:24-64 | after a successful run, an offline run of the corrected flow shows the saved list; the as-written flow shows only `Loading` |
| Repository.RefreshDevotionals | BreadAndWineAndroid/app/src/main/java/breadandwineandroid/breadandwineandroid/data/repository/DevotionalRepository.kt:76-89 | it succeeds iff the response is 2xx with a body; on success it returns the list newest-first and saves it; on failure nothing is written and the message is the API error or the exception's |
| Repository.RefreshSavesWhatItReturns | BreadAndWineAndroid/app/src/main/java/breadandwineandroid/breadandwineandroid/data/repository/DevotionalRepository.kt:80-83 | after a successful refresh the cache holds exactly the returned list |
| Repository.RefreshAgreesWithGetDevotionals | BreadAndWineAndroid/app/src/main/java/breadandwineandroid/breadandwineandroid/data/repository/DevotionalRepository.kt:24-42 | a successful refresh and a successful `getDevotionals` produce the same list and the same cache |
| Repository.FirstDatedTodayFrom | BreadAndWineAndroid/app/src/main/java/breadandwineandroid/breadandwineandroid/data/repository/DevotionalRepository.kt:98-110 | the first index from `i` whose date parses as a local date-time on today, and none before it |
| Repository.FirstDatedToday | BreadAndWineAndroid/app/src/main/java/breadandwineandroid/breadandwineandroid/data/repository/DevotionalRepository.kt:98-110 | the first entry dated today, or none when no entry is |
| Repository.FindTodaysNugget | BreadAndWineAndroid/app/src/main/java/breadandwineandroid/breadandwineandroid/data/repository/DevotionalRepository.kt:98-110 | the nugget of an entry dated today; none when no entry is dated today |
| Repository.FirstTodayDecides | BreadAndWineAndroid/app/src/main/java/breadandwineandroid/breadandwineandroid/data/repository/DevotionalRepository.kt:98-110 | the first entry dated today decides, even when its nugget is null |
| Repository.WordPressDateIsToday | BreadAndWineAndroid/app/src/main/java/breadandwineandroid/breadandwineandroid/data/repository/DevotionalRepository.kt:101-108 | a WordPress `yyyy-MM-ddTHH:mm:ss` date matches its own day |
| Repository.OffsetDatesNeverToday | BreadAndWineAndroid/app/src/main/java/breadandwineandroid/breadandwineandroid/data/repository/DevotionalRepository.kt:101-108 | a date ending in a zone designator or an offset never matches |
| Repository.GetTodaysNugget | BreadAndWineAndroid/app/src/main/java/breadandwineandroid/breadandwineandroid/data/repository/DevotionalRepository.kt:96-133 | a cached nugget for today is returned with no request; otherwise exactly one request is made, and a delivered body is searched in server order and never saved; every failure yields none |
| Repository.CacheMissUsesServerOrder | BreadAndWineAndroid/app/src/main/java/breadandwineandroid/breadandwineandroid/data/repository/DevotionalRepository.kt:124-129 | on a cache miss the nugget is that of the body's first entry dated today, whatever later entries hold, without sorting |
| LegacyRepository.FirstInstantTodayFrom | BreadAndWineAndroid/app/src/main/java/com/firstloveassembly/breadandwine/data/repository/DevotionalRepository.kt:98-109 | the first index from `i` whose date parses as an instant on today's date in the device zone |
| LegacyRepository.FindTodaysNuggetByInstant | BreadAndWineAndroid/app/src/main/java/com/firstloveassembly/breadandwine/data/repository/DevotionalRepository.kt:98-109 | the nugget of an entry whose instant falls on today; none when no entry does |
| LegacyRepository.GetTodaysNugget | BreadAndWineAndroid/app/src/main/java/com/firstloveassembly/breadandwine/data/repository/DevotionalRepository.kt:94-115 | exactly one request and no cache; a failed response gives none |
| LegacyRepository.LocalDatesNeverMatch | BreadAndWineAndroid/app/src/main/java/com/firstloveassembly/breadandwine/data/repository/DevotionalRepository.kt:98-109 | when every date is an ISO local date-time with no offset, the lookup finds nothing |
| LegacyRepository.InstantLookupMissesToday | BreadAndWineAndroid/app/src/main/java/com/firstloveassembly/breadandwine/data/repository/DevotionalRepository.kt:98-109 | for today's WordPress entry with a nugget, the instant lookup gives none while the current lookup gives that nugget |
| LegacyRepository.UtcNoonIsToday | BreadAndWineAndroid/app/src/main/java/com/firstloveassembly/breadandwine/data/repository/DevotionalRepository.kt:98-109 | an instant at UTC noon today matches in any zone within 12 hours of UTC |
| LegacyRepository.RefreshFailsOnNotFoundAndThrow | BreadAndWineAndroid/app/src/test/java/com/firstloveassembly/breadandwine/DevotionalRepositoryTest.kt:148-173 | a 404 fails with "API Error: 404" and a thrown exception fails with its message, the cache untouched |
| Clock.NextOccurrence | BreadAndWineAndroid/app/src/main/java/breadandwineandroid/breadandwineandroid/service/NotificationScheduler.kt:122-131 | the result has the requested time of day and lies in [now, now+DAY) with the `<` rule, or in (now, now+DAY] with the `<=` rule |
| Clock.NextOccurrenceUnique | BreadAndWineAndroid/app/src/main/java/breadandwineandroid/breadandwineandroid/service/NotificationScheduler.kt:122-131 | no other instant with that time of day lies in the window |
| Clock.RollRulesDifferOnlyAtNow | BreadAndWineAndroid/app/src/main/java/breadandwineandroid/breadandwineandroid/service/NotificationWorker.kt:111-126 | the `<` and `<=` rules disagree iff the target is exactly now |
| Clock.DelayUntil | BreadAndWineAndroid/app/src/main/java/breadandwineandroid/breadandwineandroid/service/NotificationWorker.kt:111-126 | `calculateDelayUntil` is in (0, DAY] and lands on h:m:00.000 |
| Platform.SetAlarm | BreadAndWineAndroid/app/src/main/java/breadandwineandroid/breadandwineandroid/service/NotificationScheduler.kt:114-159 | the alarm replaces any alarm with the same request code; nothing else changes |
| Platform.CancelAlarm | BreadAndWineAndroid/app/src/main/java/breadandwineandroid/breadandwineandroid/service/NotificationScheduler.kt:237-282 | only the alarm with that request code goes |
| Platform.EnqueueUniqueKeep | BreadAndWineAndroid/app/src/main/java/breadandwineandroid/breadandwineandroid/service/NotificationWorker.kt:56-60 | KEEP policy: an existing work name wins, otherwise the work is added |
| Platform.CancelUniqueWork | BreadAndWineAndroid/app/src/main/java/breadandwineandroid/breadandwineandroid/service/NotificationWorker.kt:95-106 | only the named work goes |
| Platform.Notify | BreadAndWineAndroid/app/src/main/java/breadandwineandroid/breadandwineandroid/service/NotificationScheduler.kt:334-358 | the notification replaces any with the same id |
| Platform.CancelNotification | BreadAndWineAndroid/app/src/main/java/breadandwineandroid/breadandwineandroid/service/NotificationScheduler.kt:237-282 | only the notification with that id goes |
| Platform.EnqueueKeepIdempotent | BreadAndWineAndroid/app/src/main/java/breadandwineandroid/breadandwineandroid/service/NotificationWorker.kt:56-60 | enqueueing twice under one name is the same as enqueueing once |
| Platform.SetAlarmReplaces | BreadAndWineAndroid/app/src/main/java/breadandwineandroid/breadandwineandroid/service/NotificationScheduler.kt:186-191 | re-setting an alarm code replaces the earlier alarm rather than adding one |
| Platform.RunStepsAppend | BreadAndWineAndroid/app/src/main/java/breadandwineandroid/breadandwineandroid/viewmodel/SettingsViewModel.kt:65-93 | running calls in two batches is the same as running them together |
| Platform.RunStepsKeeps | BreadAndWineAndroid/app/src/main/java/breadandwineandroid/breadandwineandroid/viewmodel/SettingsViewModel.kt:85-89 | calls that each keep a view keep it however far the run gets before a throw |
| Platform.RunStepsThrowingFirst | BreadAndWineAndroid/app/src/main/java/breadandwineandroid/breadandwineandroid/viewmodel/SettingsViewModel.kt:85-89 | a throw at the first call changes nothing |
| NotificationScheduler.AlarmKindFor | BreadAndWineAndroid/app/src/main/java/breadandwineandroid/breadandwineandroid/service/NotificationScheduler.kt:134-159 | exact on SDK 31 and up with the exact-alarm permission, inexact without it, daily repeating below 31 |
| NotificationScheduler.DailyFireTime | BreadAndWineAndroid/app/src/main/java/breadandwineandroid/breadandwineandroid/service/NotificationScheduler.kt:122-131 | today at h:00:00 with the current millisecond, or a day later when strictly before now, so now <= t < now+DAY |
| NotificationScheduler.ScheduleMorning | BreadAndWineAndroid/app/src/main/java/breadandwineandroid/breadandwineandroid/service/NotificationScheduler.kt:99-160 | without notification permission nothing changes; otherwise alarm 1000 is placed for the next 06:00 with the fixed title and body and nothing else changes |
| NotificationScheduler.ScheduleNugget | BreadAndWineAndroid/app/src/main/java/breadandwineandroid/breadandwineandroid/service/NotificationScheduler.kt:169-233 | as the morning alarm under code 1001 at 10:00; the message is the content or "Your spiritual insight for today is ready!" |
| NotificationScheduler.CancelMorning | BreadAndWineAndroid/app/src/main/java/breadandwineandroid/breadandwineandroid/service/NotificationScheduler.kt:237-260 | alarm 1000 and tray id 100 go and nothing else does |
| NotificationScheduler.CancelNugget | BreadAndWineAndroid/app/src/main/java/breadandwineandroid/breadandwineandroid/service/NotificationScheduler.kt:262-282 | alarm 1001 and tray id 101 go and nothing else does |
| NotificationScheduler.KindsAreIndependent | BreadAndWineAndroid/app/src/main/java/breadandwineandroid/breadandwineandroid/service/NotificationScheduler.kt:237-282 | scheduling one kind and cancelling the other commute |
| NotificationScheduler.ScheduleMorningIdempotent | BreadAndWineAndroid/app/src/main/java/breadandwineandroid/breadandwineandroid/service/NotificationScheduler.kt:114-119 | scheduling the morning alarm twice is the same as once |
| NotificationScheduler.CancelUndoesScheduleMorning | BreadAndWineAndroid/app/src/main/java/breadandwineandroid/breadandwineandroid/service/NotificationScheduler.kt:237-260 | with no morning registration beforehand, cancel undoes schedule |
| NotificationScheduler.OnReceive | BreadAndWineAndroid/app/src/main/java/breadandwineandroid/breadandwineandroid/service/NotificationScheduler.kt:311-332 | the morning action posts tray id 100 with the fixed title and body and re-arms the morning alarm; the nugget action and any other action change nothing |
| NotificationScheduler.RearmWithinFiringSecond | BreadAndWineAndroid/app/src/main/java/breadandwineandroid/breadandwineandroid/service/NotificationScheduler.kt:122-131 | a receiver run within the first second after 06:00 re-arms the alarm for the very instant it runs |
| NotificationWorker.DailyWork | BreadAndWineAndroid/app/src/main/java/breadandwineandroid/breadandwineandroid/service/NotificationWorker.kt:111-126 | the initial delay is in (0, DAY] and lands on h:00, with a 24-hour period |
| NotificationWorker.ScheduleMorningWork | BreadAndWineAndroid/app/src/main/java/breadandwineandroid/breadandwineandroid/service/NotificationWorker.kt:41-64 | the 06:00 morning work is enqueued under its unique name, and existing work is kept |
| NotificationWorker.ScheduleNuggetWork | BreadAndWineAndroid/app/src/main/java/breadandwineandroid/breadandwineandroid/service/NotificationWorker.kt:68-91 | the 04:00 nugget work is enqueued under its unique name, and existing work is kept |
| NotificationWorker.CancelMorningWork | BreadAndWineAndroid/app/src/main/java/breadandwineandroid/breadandwineandroid/service/NotificationWorker.kt:95-98 | only the morning work goes |
| NotificationWorker.CancelNuggetWork | BreadAndWineAndroid/app/src/main/java/breadandwineandroid/breadandwineandroid/service/NotificationWorker.kt:103-106 | only the nugget work goes |
| NotificationWorker.ScheduleWorkIdempotent | BreadAndWineAndroid/app/src/main/java/breadandwineandroid/breadandwineandroid/service/NotificationWorker.kt:56-60 | scheduling again, at any later time, keeps the first request |
| NotificationWorker.WorkKindsAreIndependent | BreadAndWineAndroid/app/src/main/java/breadandwineandroid/breadandwineandroid/service/NotificationWorker.kt:95-106 | cancelling one kind of work and scheduling the other commute |
| NotificationWorker.NuggetNotification | BreadAndWineAndroid/app/src/main/java/breadandwineandroid/breadandwineandroid/service/NotificationWorker.kt:177-191 | the body is the repository's nugget, or "Your spiritual insight for today is ready!" |
| NotificationWorker.DoWork | BreadAndWineAndroid/app/src/main/java/breadandwineandroid/breadandwineandroid/service/NotificationWorker.kt:129-165 | a throw yields failure; master off posts nothing; morning and nugget post their ids only when their switch is on; an unknown type posts nothing; retry is never returned |
| NotificationWorker.FreshInstallPostsBoth | BreadAndWineAndroid/app/src/main/java/breadandwineandroid/breadandwineandroid/data/cache/DevotionalCache.kt:88-96 | with no saved switches both kinds post |
| NotificationWorker.CachedNuggetIsPosted | BreadAndWineAndroid/app/src/main/java/breadandwineandroid/breadandwineandroid/service/NotificationWorker.kt:177-191 | today's cached nugget is posted as it is |
| NotificationWorker.MorningBodiesDiffer | BreadAndWineAndroid/app/src/main/java/breadandwineandroid/breadandwineandroid/service/NotificationWorker.kt:167-175 | the worker's morning body differs from the receiver's |
| DevotionalWorker.FetchDelay | BreadAndWineAndroid/app/src/main/java/breadandwineandroid/breadandwineandroid/service/DevotionalWorker.kt:36-48 | 0 <= delay < DAY, landing on 09:45:00 plus the current millisecond |
| DevotionalWorker.Schedule | BreadAndWineAndroid/app/src/main/java/breadandwineandroid/breadandwineandroid/service/DevotionalWorker.kt:30-62 | unique work "devotional_fetch_work" with KEEP, a 24-hour period and a network constraint |
| DevotionalWorker.Cancel | BreadAndWineAndroid/app/src/main/java/breadandwineandroid/breadandwineandroid/service/DevotionalWorker.kt:70-73 | only that work goes |
| DevotionalWorker.DoWork | BreadAndWineAndroid/app/src/main/java/breadandwineandroid/breadandwineandroid/service/DevotionalWorker.kt:79-112 | a throw gives failure; a failed refresh gives retry and changes nothing; a successful refresh saves the list and sets the nugget alarm only when there is a nugget |
| DevotionalWorker.RefreshedNuggetScheduled | BreadAndWineAndroid/app/src/main/java/breadandwineandroid/breadandwineandroid/service/DevotionalWorker.kt:90-104 | after a successful refresh the alarm carries the nugget from the list just saved, with no second request |
| DevotionalWorker.FailedRefreshSchedulesNothing | BreadAndWineAndroid/app/src/main/java/breadandwineandroid/breadandwineandroid/service/DevotionalWorker.kt:105-108 | a failed refresh returns retry and leaves registries and cache as they were |
| Registrations.KindsAreDisjoint | BreadAndWineAndroid/app/src/main/java/breadandwineandroid/breadandwineandroid/service/NotificationScheduler.kt:45-49 | the two kinds use different request codes, notification ids and work names |
| Registrations.RunStepsKeepsView | BreadAndWineAndroid/app/src/main/java/breadandwineandroid/breadandwineandroid/viewmodel/SettingsViewModel.kt:95-134 | calls that each leave one kind alone leave it alone whatever throws |
| Settings.Initial | BreadAndWineAndroid/app/src/main/java/breadandwineandroid/breadandwineandroid/viewmodel/SettingsViewModel.kt:30-37 | all three switches start on |
| Settings.LoadSettings | BreadAndWineAndroid/app/src/main/java/breadandwineandroid/breadandwineandroid/viewmodel/SettingsViewModel.kt:46-63 | the saved switches replace the initial ones unless reading throws |
| Settings.Save | BreadAndWineAndroid/app/src/main/java/breadandwineandroid/breadandwineandroid/viewmodel/SettingsViewModel.kt:136-148 | the switches read back afterwards are the current ones |
| Settings.MasterOnEffect | BreadAndWineAndroid/app/src/main/java/breadandwineandroid/breadandwineandroid/viewmodel/SettingsViewModel.kt:69-77 | master on schedules the morning alarm and work when morning is on, and the nugget work (never an alarm) when nugget is on |
| Settings.MasterOffEffect | BreadAndWineAndroid/app/src/main/java/breadandwineandroid/breadandwineandroid/viewmodel/SettingsViewModel.kt:78-84 | master off cancels both kinds' alarms, notifications and work |
| Settings.ToggleNotifications | BreadAndWineAndroid/app/src/main/java/breadandwineandroid/breadandwineandroid/viewmodel/SettingsViewModel.kt:65-93 | the master switch is set and saved whatever throws; its registrations are as the two effect lemmas say |
| Settings.ToggleMorning | BreadAndWineAndroid/app/src/main/java/breadandwineandroid/breadandwineandroid/viewmodel/SettingsViewModel.kt:95-114 | both morning registrations are made iff it and the master switch are on, else removed; nugget registrations are untouched; the switches are saved |
| Settings.ToggleNugget | BreadAndWineAndroid/app/src/main/java/breadandwineandroid/breadandwineandroid/viewmodel/SettingsViewModel.kt:116-134 | the nugget work is made iff it and the master switch are on, else the nugget alarm and work go; morning registrations are untouched; the switches are saved |
| Settings.MasterOffOnRestores | BreadAndWineAndroid/app/src/main/java/breadandwineandroid/breadandwineandroid/viewmodel/SettingsViewModel.kt:65-93 | master off, then on, restores the morning alarm and work and the nugget work, with no nugget alarm |
| LegacySettings.MasterStepsEffect | BreadAndWineAndroid/app/src/main/java/com/firstloveassembly/breadandwine/viewmodel/SettingsViewModel.kt:64-94 | master on sets the morning alarm and the nugget alarm with the fetched nugget; off cancels both alarms |
| LegacySettings.ToggleNotifications | BreadAndWineAndroid/app/src/main/java/com/firstloveassembly/breadandwine/viewmodel/SettingsViewModel.kt:64-94 | the master switch is saved; work is never touched; off removes both alarms; on sets the nugget alarm with the fetched nugget or the fallback |
| LegacySettings.ToggleMorning | BreadAndWineAndroid/app/src/main/java/com/firstloveassembly/breadandwine/viewmodel/SettingsViewModel.kt:96-114 | the morning alarm is set iff it and the master switch are on, else cancelled; the nugget kind and work are untouched |
| LegacySettings.ToggleNugget | BreadAndWineAndroid/app/src/main/java/com/firstloveassembly/breadandwine/viewmodel/SettingsViewModel.kt:116-137 | fetch-then-schedule iff it and the master switch are on, else cancel; the morning kind and work are untouched |
| LegacySettings.NuggetAlarmFallsBackOnLocalDates | BreadAndWineAndroid/app/src/main/java/com/firstloveassembly/breadandwine/viewmodel/SettingsViewModel.kt:116-134 | with WordPress local dates the nugget alarm always carries the fallback text |
| LegacySettings.MasterOffKeepsWork | BreadAndWineAndroid/app/src/main/java/com/firstloveassembly/breadandwine/viewmodel/SettingsViewModel.kt:80-84 | the older master-off leaves the morning work in place; the current one removes it |
| Startup.RescheduleStepsEffect | BreadAndWineAndroid/app/src/main/java/breadandwineandroid/breadandwineandroid/service/BootReceiver.kt:37-55 | the calls the reschedule makes have the combined effect stated by `Reschedule` |
| Startup.Reschedule | BreadAndWineAndroid/app/src/main/java/breadandwineandroid/breadandwineandroid/BreadAndWineApp.kt:65-93 | the nugget alarm is cancelled first; master and morning on give the morning alarm and work; master and nugget on give the nugget work only; master off schedules nothing; DevotionalWorker is never scheduled; throws are swallowed |
| Startup.OnBoot | BreadAndWineAndroid/app/src/main/java/breadandwineandroid/breadandwineandroid/service/BootReceiver.kt:25-62 | only `ACTION_BOOT_COMPLETED` acts, and then as the reschedule |
| Startup.InitializeNotifications | BreadAndWineAndroid/app/src/main/java/breadandwineandroid/breadandwineandroid/BreadAndWineApp.kt:65-93 | the start-up reschedule; master off only cancels the nugget alarm |
| Startup.FreshInstallSchedulesBoth | BreadAndWineAndroid/app/src/main/java/breadandwineandroid/breadandwineandroid/service/BootReceiver.kt:35 | with no stored switches both kinds are scheduled |
| Startup.BootAndStartAgree | BreadAndWineAndroid/app/src/main/java/breadandwineandroid/breadandwineandroid/BreadAndWineApp.kt:65-93 | boot and start-up leave the same registries |
| Startup.RescheduleIdempotent | BreadAndWineAndroid/app/src/main/java/breadandwineandroid/breadandwineandroid/service/BootReceiver.kt:37-55 | rescheduling twice is the same as once |
| Startup.LegacyOnBoot | BreadAndWineAndroid/app/src/main/java/com/firstloveassembly/breadandwine/service/BootReceiver.kt:18-30 | on boot the older receiver sets both alarms (the nugget one with the fallback text) and schedules DevotionalWorker, with no preference read |
| Startup.LegacyBootIgnoresSwitches | BreadAndWineAndroid/app/src/main/java/com/firstloveassembly/breadandwine/service/BootReceiver.kt:18-30 | with the master switch off the current boot sets no morning alarm, while the older boot sets both alarms |
| Devotionals.BannerImageUrl | BreadAndWineAndroid/app/src/main/java/com/firstloveassembly/breadandwine/model/Devotional.kt:26-28 | the first og-image URL; none when the yoast data or its image list is absent |
| Devotionals.PlainTitle | BreadAndWineAndroid/app/src/main/java/com/firstloveassembly/breadandwine/model/Devotional.kt:33-35 | the title with `<...>` tags removed; the result holds no tag; a title without `<` is unchanged |
| Devotionals.PlainTitleOfSample | BreadAndWineAndroid/app/src/test/java/com/firstloveassembly/breadandwine/DevotionalModelTest.kt:15-31 | the test's title `<strong>Test</strong> Title` becomes `Test Title` |
| Devotionals.FormattedDate | BreadAndWineAndroid/app/src/main/java/com/firstloveassembly/breadandwine/model/Devotional.kt:40-62 | a result other than the input has the `d MMMM yyyy` space at index 1 or 2; with FormattedDateShape it is the input or a real day's display form, FormattedWordPressDate and FormattedOffsetDate give the day each parser reads, and FormattedDateFallsBack keeps a string neither parser reads |
| Devotionals.FormattedWordPressDate | BreadAndWineAndroid/app/src/main/java/com/firstloveassembly/breadandwine/model/Devotional.kt:40-52 | a WordPress date is shown as its own day in `d MMMM yyyy` |
| Devotionals.FormattedEndOfDay | BreadAndWineAndroid/app/src/main/java/com/firstloveassembly/breadandwine/model/Devotional.kt:40-52 | a WordPress date at `T24:00:00` is shown as the next day |
| Devotionals.FormattedOffsetDate | BreadAndWineAndroid/app/src/main/java/com/firstloveassembly/breadandwine/model/Devotional.kt:53-57 | a date the pattern rejects and `OffsetDateTime.parse` accepts is shown as that date-time's own day |
| Devotionals.FormattedZonedWordPressDate | BreadAndWineAndroid/app/src/test/java/com/firstloveassembly/breadandwine/DevotionalModelTest.kt:33-49 | `2024-01-15T00:00:00Z` and any WordPress date with `Z` or an offset is shown as its own day, in the zone it was written in |
| Devotionals.FormattedDateFallsBack | BreadAndWineAndroid/app/src/main/java/com/firstloveassembly/breadandwine/model/Devotional.kt:58-61 | a date neither parser accepts is returned unchanged |
| Devotionals.FormattedInvalidDate | BreadAndWineAndroid/app/src/test/java/com/firstloveassembly/breadandwine/DevotionalModelTest.kt:51-68 | `invalid-date` is returned unchanged |
| Devotionals.FormattedDateShape | BreadAndWineAndroid/app/src/main/java/com/firstloveassembly/breadandwine/model/Devotional.kt:40-62 | the result is the input itself or some valid date in `d MMMM yyyy` |
| Devotionals.PreviewText | BreadAndWineAndroid/app/src/main/java/com/firstloveassembly/breadandwine/model/Devotional.kt:68-77 | at most 153 characters: the cleaned text when it has at most 150, else its first 150 plus "..." |
| DevotionalList.Initial | BreadAndWineAndroid/app/src/main/java/com/firstloveassembly/breadandwine/viewmodel/DevotionalViewModel.kt:28-38 | an empty list, no error, not loading |
| DevotionalList.AdoptCached | BreadAndWineAndroid/app/src/main/java/com/firstloveassembly/breadandwine/viewmodel/DevotionalViewModel.kt:50-58 | the cached list is adopted only when the current list is empty and the cache is not |
| DevotionalList.Collect | BreadAndWineAndroid/app/src/main/java/com/firstloveassembly/breadandwine/viewmodel/DevotionalViewModel.kt:63-85 | `Loading` sets loading; `Success` replaces the list and clears the error; `Error` keeps the list and sets the error; only the last two end loading |
| DevotionalList.CollectAll | BreadAndWineAndroid/app/src/main/java/com/firstloveassembly/breadandwine/viewmodel/DevotionalViewModel.kt:63-85 | after a run of emissions, loading is what the last one says; a run of `Loading` changes only the loading flag |
| DevotionalList.Fetch | BreadAndWineAndroid/app/src/main/java/com/firstloveassembly/breadandwine/viewmodel/DevotionalViewModel.kt:63-85 | a failed request leaves the screen loading with the list unchanged and no error |
| DevotionalList.FetchCorrected | BreadAndWineAndroid/app/src/main/java/com/firstloveassembly/breadandwine/viewmodel/DevotionalViewModel.kt:63-85 | with the corrected flow the screen always stops loading and shows the cached list or the error |
| DevotionalList.FailedFetchKeepsSpinning | BreadAndWineAndroid/app/src/main/java/com/firstloveassembly/breadandwine/viewmodel/DevotionalViewModel.kt:63-85 | with a cached list and a failed request, the as-written screen keeps loading while the corrected one shows the cache |
| DevotionalList.Refresh | BreadAndWineAndroid/app/src/main/java/com/firstloveassembly/breadandwine/viewmodel/DevotionalViewModel.kt:90-105 | success replaces the list and clears the error; failure keeps the list and sets the message or "Failed to refresh"; refreshing ends false |
| DevotionalList.DevotionalById | BreadAndWineAndroid/app/src/main/java/com/firstloveassembly/breadandwine/viewmodel/DevotionalViewModel.kt:110-112 | the first entry with that id; none iff no entry has it |
| DevotionalList.Nuggets | BreadAndWineAndroid/app/src/main/java/com/firstloveassembly/breadandwine/viewmodel/DevotionalViewModel.kt:117-119 | exactly the entries with a nugget, never more than the list |
| DevotionalList.NuggetsOfConcat | BreadAndWineAndroid/app/src/main/java/com/firstloveassembly/breadandwine/viewmodel/DevotionalViewModel.kt:117-119 | the filter distributes over concatenation, so it keeps order |
| DevotionalList.NuggetsIdempotent | BreadAndWineAndroid/app/src/main/java/com/firstloveassembly/breadandwine/viewmodel/DevotionalViewModel.kt:117-119 | filtering twice is filtering once |
| DevotionalList.ClearError | BreadAndWineAndroid/app/src/main/java/com/firstloveassembly/breadandwine/viewmodel/DevotionalViewModel.kt:124-126 | the error is cleared and nothing else changes |
| Html.FindClose | BreadAndWineAndroid/app/src/main/java/breadandwineandroid/breadandwineandroid/ui/devotional/DevotionalDetailScreen.kt:448 | the first `>` before any line terminator (or anywhere, for the Swift pattern) |
| Html.TagEnd | BreadAndWineAndroid/app/src/main/java/breadandwineandroid/breadandwineandroid/ui/devotional/DevotionalDetailScreen.kt:448 | the end of the shortest match at the start of the text, and none iff there is no match |
| Html.StripTags | BreadAndWineAndroid/app/src/main/java/breadandwineandroid/breadandwineandroid/ui/devotional/DevotionalDetailScreen.kt:448 | deleting the matches never lengthens the text; with StripTagsIsTagFree nothing left matches, with StripTagsOfTagFree text without a match is unchanged, and with StripTagsIdempotent stripping twice is stripping once |
| Html.StripTagsKeepsCharacters | BreadAndWineAndroid/app/src/main/java/breadandwineandroid/breadandwineandroid/ui/devotional/DevotionalDetailScreen.kt:448 | stripping only deletes characters |
| Html.StripTagsWithoutOpen | BreadAndWine/Services/ShareSheet.swift:25-31 | text without `<` is unchanged |
| Html.StripTagsIsTagFree | BreadAndWineAndroid/app/src/main/java/breadandwineandroid/breadandwineandroid/ui/devotional/DevotionalDetailScreen.kt:286 | the result holds no further match |
| Html.StripTagsOfTagFree | BreadAndWineAndroid/app/src/main/java/breadandwineandroid/breadandwineandroid/ui/devotional/DevotionalDetailScreen.kt:286 | text with no match is unchanged |
| Html.StripTagsIdempotent | BreadAndWine/Services/ShareSheet.swift:25-31 | stripping twice is stripping once |
| Html.PatternsDiffer | BreadAndWine/Services/ShareSheet.swift:27 | `<>` is removed by the Android `<.*?>` but kept by the Swift `<[^>]+>` |
| Html.PatternsDifferAcrossLines | BreadAndWine/Services/ShareSheet.swift:27 | a tag broken by a newline is kept by `<.*?>`, whose `.` stops at line ends, and removed by `<[^>]+>` |
| Html.LeadingTagDropped | BreadAndWineAndroid/app/src/main/java/breadandwineandroid/breadandwineandroid/ui/devotional/DevotionalDetailScreen.kt:448 | a tag with no `<`, `>` or line break inside is matched whole at the start of the text and removed, and stripping goes on after it |
| Html.PlainTextKeptBefore | BreadAndWineAndroid/app/src/main/java/breadandwineandroid/breadandwineandroid/ui/devotional/DevotionalDetailScreen.kt:448 | text without `<` before anything is kept as it is in front of what stripping makes of the rest |
| Html.StripSampleTitle | BreadAndWineAndroid/app/src/main/java/com/firstloveassembly/breadandwine/model/Devotional.kt:33-35 | `<strong>Test</strong> Title` strips to `Test Title` |
| Html.ReplaceEachSplit | BreadAndWineAndroid/app/src/main/java/breadandwineandroid/breadandwineandroid/ui/devotional/DevotionalDetailScreen.kt:401-420 | text that splits where the second part cannot continue an entity is decoded part by part |
| Html.ReplaceEachShortens | BreadAndWineAndroid/app/src/main/java/breadandwineandroid/breadandwineandroid/ui/devotional/DevotionalDetailScreen.kt:401-420 | with rows whose replacement is never longer than their code, decoding never lengthens the text |
| Html.StripHtmlTags | BreadAndWine/Services/ShareSheet.swift:25-31 | `stripHTMLTags` leaves no match, is idempotent, and keeps text without `<` |
| Html.ReplaceEachWithoutAmpersand | BreadAndWineAndroid/app/src/main/java/breadandwineandroid/breadandwineandroid/ui/devotional/DevotionalDetailScreen.kt:401-421 | the replacement chain leaves text without `&` unchanged |
| Html.BareAmpersandKept | BreadAndWineAndroid/app/src/main/java/breadandwineandroid/breadandwineandroid/ui/devotional/DevotionalDetailScreen.kt:401-420 | an `&` that starts no entity passes every row unchanged |
| Entities.DecodeEntities | BreadAndWineAndroid/app/src/main/java/breadandwineandroid/breadandwineandroid/ui/devotional/DevotionalDetailScreen.kt:401-420 | decoding never lengthens the text, and text without `&` is only trimmed |
| Entities.DecodeEntitiesAsWritten | BreadAndWineAndroid/app/src/main/java/breadandwineandroid/breadandwineandroid/ui/devotional/DevotionalDetailScreen.kt:401-420 | the chain as the file holds it also leaves text without `&` only trimmed |
| Entities.EllipsisDecoded | BreadAndWineAndroid/app/src/main/java/breadandwineandroid/breadandwineandroid/ui/devotional/DevotionalDetailScreen.kt:408 | `&#8230;` before text without `&` becomes U+2026 and the text is kept |
| Entities.LeftQuoteDecoded | BreadAndWineAndroid/app/src/main/java/breadandwineandroid/breadandwineandroid/ui/devotional/DevotionalDetailScreen.kt:409 | `&#8220;` before text without `&` becomes U+201C, the quote the unit test expects |
| Entities.RightQuoteDecoded | BreadAndWineAndroid/app/src/main/java/breadandwineandroid/breadandwineandroid/ui/devotional/DevotionalDetailScreen.kt:410 | `&#8221;` before text without `&` becomes U+201D, the quote the unit test expects |
| Entities.EscapedAmpersandDecoded | BreadAndWineAndroid/app/src/main/java/breadandwineandroid/breadandwineandroid/ui/devotional/DevotionalDetailScreen.kt:402-404 | `&amp;` before text that starts no entity becomes a plain `&` |
| Entities.EscapedLessThanDecoded | BreadAndWineAndroid/app/src/main/java/breadandwineandroid/breadandwineandroid/ui/devotional/DevotionalDetailScreen.kt:403-405 | `&amp;lt;` becomes `<`: the `&` that `&amp;` leaves is read again by the later `&lt;` row |
| Entities.EscapedSpaceDecoded | BreadAndWineAndroid/app/src/main/java/breadandwineandroid/breadandwineandroid/ui/devotional/DevotionalDetailScreen.kt:402-404 | `&amp;nbsp;` becomes `&nbsp;`: the `&nbsp;` row has already run when `&amp;` is replaced |
| Entities.DecodeTwiceEscaped | BreadAndWineAndroid/app/src/main/java/breadandwineandroid/breadandwineandroid/ui/devotional/DevotionalDetailScreen.kt:401-420 | `decodeHtmlEntities("&amp;lt;")` is `<` while `decodeHtmlEntities("&amp;nbsp;")` is `&nbsp;` |
| Entities.DecodeSampleShape | BreadAndWineAndroid/app/src/test/java/breadandwineandroid/breadandwineandroid/ShareDevotionalTest.kt:43-54 | plain text, then an ellipsis, an escaped ampersand and both curly quotes, each before text without `&`, decode entity by entity |
| Entities.DecodeTestSample | BreadAndWineAndroid/app/src/test/java/breadandwineandroid/breadandwineandroid/ShareDevotionalTest.kt:43-54 | the unit test's sample decodes to `Here… some text & quotes “hello”`, as the test asserts |
| Entities.RightQuoteKeptAsWritten | BreadAndWineAndroid/app/src/main/java/breadandwineandroid/breadandwineandroid/ui/devotional/DevotionalDetailScreen.kt:411-412 | with the chain as the file holds it, `&#8221;` passes unchanged, while the intended chain gives U+201D |
| Dates.PrevDayUndoesNextDay | BreadAndWineAndroid/app/src/main/java/breadandwineandroid/breadandwineandroid/service/NotificationScheduler.kt:122-131 | the day after, then the day before, is the same day |
| Dates.ParseIsoLocal | BreadAndWineAndroid/app/src/main/java/breadandwineandroid/breadandwineandroid/data/repository/DevotionalRepository.kt:104 | an accepted string gives a valid date-time |
| Dates.LocalDateTimeIsNotInstant | BreadAndWineAndroid/app/src/main/java/com/firstloveassembly/breadandwine/data/repository/DevotionalRepository.kt:98-109 | a local date-time with no offset never parses as an instant |
| Dates.FormatDisplay | BreadAndWine/Utils/Constants.swift:47 | `d MMMM yyyy` has a space at index 1 or 2 |
| Dates.YearOfEra | BreadAndWineAndroid/app/src/main/java/com/firstloveassembly/breadandwine/model/Devotional.kt:47 | the year `yyyy` prints is the year itself from year 1 on, and at least 1 for year 0 and before |
| Dates.FormatDisplayReadBack | BreadAndWineAndroid/app/src/main/java/com/firstloveassembly/breadandwine/model/Devotional.kt:47-57 | the display date reads back field by field: the leading one or two digits are the day, the word between the spaces is the month's name, and the last four digits are the year of era |
| Dates.DisplayNeverPrefixesIso | BreadAndWine/Services/NotificationManager.swift:132-139 | a display date never prefixes a string that opens with four digits |
| Dates.WordPressDateRoundTrip | BreadAndWineAndroid/app/src/main/java/com/firstloveassembly/breadandwine/model/Devotional.kt:43-51 | both Android parsers read back a WordPress date exactly |
| Dates.ParsePattern | BreadAndWineAndroid/app/src/main/java/com/firstloveassembly/breadandwine/model/Devotional.kt:43-51 | an accepted string has 19 characters and gives a valid date-time |
| Dates.ParsePatternClampsDay | BreadAndWineAndroid/app/src/main/java/com/firstloveassembly/breadandwine/model/Devotional.kt:43-51 | a day past the month's end (up to 31) is clamped to the last day by the `yyyy-MM-dd'T'HH:mm:ss` pattern, which the strict ISO parser rejects |
| Dates.ParsePatternEndOfDay | BreadAndWineAndroid/app/src/main/java/com/firstloveassembly/breadandwine/model/Devotional.kt:43-51 | `T24:00:00` is read by the pattern as midnight of the next day, and rejected by the strict ISO parser |
| Dates.ParsePatternLastEndOfDay | BreadAndWineAndroid/app/src/main/java/com/firstloveassembly/breadandwine/model/Devotional.kt:43-51 | `9999-12-31T24:00:00` is rejected by the model, which keeps years to four digits |
| Dates.ParseOffsetDateTime | BreadAndWineAndroid/app/src/main/java/com/firstloveassembly/breadandwine/model/Devotional.kt:56 | an accepted string gives a valid date-time |
| Dates.OffsetWordPressDate | BreadAndWineAndroid/app/src/main/java/com/firstloveassembly/breadandwine/model/Devotional.kt:53-57 | a WordPress date followed by `Z` or `+hh:mm` is rejected by the pattern and read back exactly by `OffsetDateTime.parse` |
| ShareText.DropRepeated | BreadAndWineAndroid/app/src/main/java/breadandwineandroid/breadandwineandroid/ui/devotional/DevotionalDetailScreen.kt:460-479 | with an empty nugget or at most one occurrence, the main content is kept as it was |
| ShareText.RepeatedNuggetLosesLastCopy | BreadAndWineAndroid/app/src/main/java/breadandwineandroid/breadandwineandroid/ui/devotional/DevotionalDetailScreen.kt:465-475 | with more than one occurrence, the last copy is cut out, "..." becomes the ellipsis and the result is trimmed; an earlier copy stays |
| ShareText.EarlierCopyBeforeLast | BreadAndWineAndroid/app/src/main/java/breadandwineandroid/breadandwineandroid/ui/devotional/DevotionalDetailScreen.kt:465-469 | a nugget counted more than once still occurs before its last occurrence |
| ShareText.FieldsOf | BreadAndWineAndroid/app/src/main/java/breadandwineandroid/breadandwineandroid/ui/devotional/DevotionalDetailScreen.kt:438-514 | each optional section is present iff its field is non-null; the main content is the cleaned and de-duplicated body |
| ShareText.Sections | BreadAndWineAndroid/app/src/main/java/breadandwineandroid/breadandwineandroid/ui/devotional/DevotionalDetailScreen.kt:428-514 | eight sections in the order header, title and date, verse, main, study, prayer, plan, nugget; each is empty iff its field is absent |
| ShareText.MainContent | BreadAndWineAndroid/app/src/main/java/breadandwineandroid/breadandwineandroid/ui/devotional/DevotionalDetailScreen.kt:446-481 | the main content is trimmed; with no nugget it is the cleaned body, trimmed |
| ShareText.Render | BreadAndWineAndroid/app/src/main/java/breadandwineandroid/breadandwineandroid/ui/devotional/DevotionalDetailScreen.kt:428-514 | the text opens with "::Firstlove Assembly::", equals its own `trim()`, is the sections joined in order with only whitespace cut from the end, and contains every section trimmed |
| ShareText.TrimmedPartsKept | BreadAndWineAndroid/app/src/main/java/breadandwineandroid/breadandwineandroid/ui/devotional/DevotionalDetailScreen.kt:514 | cutting only whitespace from the end of joined parts keeps each part, trimmed |
| ShareText.ShareTextOf | BreadAndWineAndroid/app/src/main/java/breadandwineandroid/breadandwineandroid/ui/devotional/DevotionalDetailScreen.kt:427-514 | the share text opens with the header, is already trimmed, and contains the main content |
| ShareText.MainContentKept | BreadAndWineAndroid/app/src/main/java/breadandwineandroid/breadandwineandroid/ui/devotional/DevotionalDetailScreen.kt:483-486 | the main content, followed by its blank line, survives the final `trim()` |
| ShareText.ConcatContainsPart | BreadAndWineAndroid/app/src/main/java/breadandwineandroid/breadandwineandroid/ui/devotional/DevotionalDetailScreen.kt:60-84 | every part appears in the joined text |
| ShareText.ConcatEndsWithLast | BreadAndWineAndroid/app/src/main/java/breadandwineandroid/breadandwineandroid/ui/devotional/DevotionalDetailScreen.kt:60-84 | the joined text ends with its last part |
| ShareText.Spoken | BreadAndWineAndroid/app/src/main/java/breadandwineandroid/breadandwineandroid/ui/devotional/DevotionalDetailScreen.kt:67-79 | a null field adds nothing; a present one adds its lead-in, the field and ". " |
| ShareText.Speak | BreadAndWineAndroid/app/src/main/java/breadandwineandroid/breadandwineandroid/ui/devotional/DevotionalDetailScreen.kt:60-84 | the TTS text starts with the welcome and ends with "Thank you for listening.", and contains the content and each present field raw |
| ShareText.TtsText | BreadAndWineAndroid/app/src/main/java/breadandwineandroid/breadandwineandroid/ui/devotional/DevotionalDetailScreen.kt:59-84 | empty iff there is no devotional; otherwise it has the fixed opening and closing and contains the raw verse and the tag-stripped content |
| ShareText.SpokenContentIsTagFree | BreadAndWineAndroid/app/src/main/java/breadandwineandroid/breadandwineandroid/ui/devotional/DevotionalDetailScreen.kt:71 | the spoken body holds no tag but ACF fields go in raw |
| IosNotifications.CheckNotificationSettings | BreadAndWine/Services/NotificationManager.swift:39-56 | the master switch follows authorisation; each kind's switch is set to on only when absent; no pending request changes |
| IosNotifications.ScheduleMorningReminder | BreadAndWine/Services/NotificationManager.swift:60-81 | the request under the morning identifier repeats at 06:00 with the fixed title and body and type "morning", replacing one with the same identifier |
| IosNotifications.ScheduleDailyNugget | BreadAndWine/Services/NotificationManager.swift:85-122 | with no devotional nothing changes; otherwise the 10:00 request carries the nugget or "Reflect on today's devotional message" and no type |
| IosNotifications.ScheduleNotifications | BreadAndWine/Services/NotificationManager.swift:24-37 | unauthorised, nothing is scheduled; otherwise each kind whose switch is on (on by default) is scheduled |
| IosNotifications.FirstLaunchSchedulesBoth | BreadAndWine/Services/NotificationManager.swift:24-56 | a first authorised launch schedules both kinds |
| IosNotifications.RemovePending | BreadAndWine/Services/NotificationManager.swift:213 | only that identifier's request goes |
| IosNotifications.ToggleMorning | BreadAndWine/Services/NotificationManager.swift:206-215 | the switch is stored; the morning request is present iff enabled; other requests are unchanged |
| IosNotifications.ToggleNugget | BreadAndWine/Services/NotificationManager.swift:217-226 | the switch is stored; disabled removes the nugget request; enabled adds it when there is a devotional; other requests are unchanged |
| IosNotifications.ToggleAll | BreadAndWine/Services/NotificationManager.swift:228-231 | both switches take the value; off removes both requests |
| IosNotifications.ToggleAllOffOn | BreadAndWine/Services/NotificationManager.swift:228-231 | off then on restores both requests, the morning one exactly |
| IosNotifications.NuggetContent | BreadAndWine/Services/NotificationManager.swift:148-156 | body is the nugget or "", type "nugget", devotionalId an Int, 0 with no entry |
| IosNotifications.NuggetContentCorrected | BreadAndWine/Services/NotificationManager.swift:148-156 | the devotionalId is stored as text so the tap handler can read it |
| IosNotifications.UpdateNuggetNotification | BreadAndWine/Services/NotificationManager.swift:148-174 | the nugget request is replaced, keeping 10:00 daily |
| IosNotifications.FirstMatching | BreadAndWine/Services/NotificationManager.swift:137-139 | the first entry satisfying the test, none iff no entry does |
| IosNotifications.RefreshNuggetContent | BreadAndWine/Services/NotificationManager.swift:127-146 | on fetch failure nothing changes; otherwise the request is rebuilt from the first entry whose date starts with today as `d MMMM yyyy` |
| IosNotifications.RefreshNeverFindsWordPressDates | BreadAndWine/Services/NotificationManager.swift:132-139 | with WordPress dates the rebuilt request has an empty body and id 0 |
| IosNotifications.IsoLocalStartsWithYear | BreadAndWine/Services/NotificationManager.swift:137-139 | an ISO local date-time opens with four digits |
| IosNotifications.RefreshNuggetContentCorrected | BreadAndWine/Services/NotificationManager.swift:127-146 | with the local-date match, the rebuilt request uses the first entry dated today |
| IosNotifications.CorrectedRefreshFindsToday | BreadAndWine/Services/NotificationManager.swift:127-146 | today's WordPress entry reaches the request with its nugget and id |
| IosNotifications.HandleResponse | BreadAndWine/Services/NotificationManager.swift:178-202 | "morning" opens the devotional; "nugget" opens the nuggets list with the id only when it is text; a missing or unknown type does nothing |
| IosNotifications.TapOnNuggetLosesId | BreadAndWine/Services/NotificationManager.swift:155 | a tap on the refreshed nugget request always opens the plain list |
| IosNotifications.TapOnCorrectedNuggetKeepsId | BreadAndWine/Services/NotificationManager.swift:191-193 | with the id stored as text the tap carries it |
| IosNotifications.ScheduledRequestsRoute | BreadAndWine/Services/NotificationManager.swift:178-202 | the morning request routes to the devotional; the scheduled nugget request, with no type, routes nowhere |
| BackgroundFetch.EarliestBeginDate | BreadAndWine/Services/BackgroundFetchManager.swift:28-41 | now <= t < now+DAY and t is at 09:45:00.000 |
| BackgroundFetch.EarliestBeginDateIsNext | BreadAndWine/Services/BackgroundFetchManager.swift:33-38 | no other 09:45 instant lies in that window |
| BackgroundFetch.AtTargetBeginsNow | BreadAndWine/Services/BackgroundFetchManager.swift:36 | at exactly 09:45:00.000 background refresh may begin at once (strict `<`) |
| BackgroundFetch.FetchPrecedesNugget | BreadAndWine/Services/BackgroundFetchManager.swift:28-41 | before 09:45 the fetch may begin 15 minutes before the same day's 10:00 nugget |
| BackgroundFetch.RegisterBackgroundTasks | BreadAndWine/Services/BackgroundFetchManager.swift:16-21 | the handler is registered for "com.devotionalapp.nuggetFetch" |
| BackgroundFetch.ScheduleBackgroundFetch | BreadAndWine/Services/BackgroundFetchManager.swift:23-48 | the request under the same identifier carries the earliest begin date; a failed submit changes nothing |
| BackgroundFetch.SubmittedTaskHasHandler | BreadAndWine/Services/BackgroundFetchManager.swift:17-24 | registration and request use the same identifier, so every submitted request has a handler |
| BackgroundFetch.HandleAppRefresh | BreadAndWine/Services/BackgroundFetchManager.swift:50-60 | re-requests, refreshes the nugget request exactly as the foreground refresh does, and reports success unconditionally |
| BackgroundFetch.BackgroundRefreshNeverFindsWordPressDates | BreadAndWine/Services/BackgroundFetchManager.swift:50-60 | the background refresh inherits the defect: with WordPress dates the rebuilt request has an empty body and id 0 |
| BackgroundFetch.FailedFetchReportsSuccess | BreadAndWine/Services/BackgroundFetchManager.swift:50-60 | a failed fetch still reports success and leaves a next request |
| Network.Description | BreadAndWine/Services/NetworkError.swift:21-40 | each error's message; only `unknown` starts with "U" |
| Network.StatusCodeReadBack | BreadAndWine/Services/NetworkError.swift:25-26 | the status code reads back from the `requestFailed` message |
| Network.UrlString | BreadAndWine/Services/NetworkManager.swift:69 | an endpoint starting with "http" is used as is, else base + "/" + endpoint |
| Network.UrlStringIdempotent | BreadAndWine/Services/NetworkManager.swift:69 | with an http base, building a built URL changes nothing |
| Network.Decode | BreadAndWine/Services/NetworkManager.swift:241-257 | the decoded value, or `decodingError` |
| Network.FallBack | BreadAndWine/Services/NetworkManager.swift:141-151 | the cached data, decoded, when allowed and present; else the given error |
| Network.EarlyDelivery | BreadAndWine/Services/NetworkManager.swift:93-111 | a GET with decodable cached data answers at once with it |
| Network.Received | BreadAndWine/Services/NetworkManager.swift:213-234 | no data gives `noData`; data is cached under the key before it is decoded |
| Network.Fetch | BreadAndWine/Services/NetworkManager.swift:44-238 | at most maxRetryCount - retryCount + 1 requests; only the last completion can be a failure; only the request's key can change in the cache; with enough answers it completes |
| Network.OfflineMakesNoRequest | BreadAndWine/Services/NetworkManager.swift:54-66 | offline: no request, and the cache answers if allowed and present, else `noInternet` |
| Network.ClientErrorIsNotRetried | BreadAndWine/Services/NetworkManager.swift:203-209 | a non-2xx status below 500 fails at once with that status |
| Network.PersistentTimeoutGivesUp | BreadAndWine/Services/NetworkManager.swift:118-151 | when every attempt times out, exactly the budgeted requests are made, then the cache or `timeout` |
| Network.UndecodableAnswerIsStillCached | BreadAndWine/Services/NetworkManager.swift:227-234 | a 2xx body the decoder rejects is cached and reported as `decodingError` |
| Network.CachedGetCompletesTwice | BreadAndWine/Services/NetworkManager.swift:94-111 | a GET with decodable cached data completes twice: cached value, then network value |
| Network.FetchDevotionals | BreadAndWine/Services/NetworkManager.swift:261-263 | the "devotional" GET cached under "recent_devotionals"; at most maxRetryCount + 1 requests |
| Network.DevotionalsUrl | BreadAndWine/Services/NetworkManager.swift:23 | with the default base, the devotionals URL is "https://jsonplaceholder.typicode.com/devotional" |
| Settings.ToggleSurvivesReload | BreadAndWineAndroid/app/src/main/java/breadandwineandroid/breadandwineandroid/viewmodel/SettingsViewModel.kt:136-148 | a view model opened after a toggle loads the switches as toggled |
| Dates.ParseInstant | BreadAndWineAndroid/app/src/main/java/com/firstloveassembly/breadandwine/data/repository/DevotionalRepository.kt:98-109 | an accepted string ends in a zone designator and gives a valid date-time |
| Strings.LastIndexOf | BreadAndWineAndroid/app/src/main/java/breadandwineandroid/breadandwineandroid/ui/devotional/DevotionalDetailScreen.kt:469 | the last index where the pattern occurs; none iff it does not occur |
| Strings.Trim | BreadAndWineAndroid/app/src/main/java/breadandwineandroid/breadandwineandroid/ui/devotional/DevotionalDetailScreen.kt:420 | `trim()` cuts whitespace runs from both ends only: the result is a slice of the input between whitespace, and neither starts nor ends with whitespace |
| Strings.TrimOfTrimmed | BreadAndWineAndroid/app/src/main/java/breadandwineandroid/breadandwineandroid/ui/devotional/DevotionalDetailScreen.kt:450 | trimming text that neither starts nor ends with whitespace changes nothing |
| Strings.TrimDropsAppendedWhitespace | BreadAndWineAndroid/app/src/main/java/breadandwineandroid/breadandwineandroid/ui/devotional/DevotionalDetailScreen.kt:514 | trimming trimmed text followed by whitespace gives the text back |
| Strings.ContainsTrimmed | BreadAndWineAndroid/app/src/main/java/breadandwineandroid/breadandwineandroid/ui/devotional/DevotionalDetailScreen.kt:514 | text that contains a part also contains the part trimmed |
| Strings.ContainsBeforeWhitespaceTail | BreadAndWineAndroid/app/src/main/java/breadandwineandroid/breadandwineandroid/ui/devotional/DevotionalDetailScreen.kt:514 | a part that does not end in whitespace survives cutting a whitespace tail |

## Left out

- Compose UI, navigation, text-to-speech engines, push plumbing and the news feed are not modelled. Only the text handed to TTS and the share sheet is.
- Retrofit, Gson and `JSONDecoder` are not modelled. Decoding is a parameter that either gives a value or fails.
- `URL(string:)` is not modelled. Whether the URL is valid is the parameter `validUrl`.
- `NetworkMonitor` is reduced to a per-attempt `connected` flag.
- Retry delays and timeouts are reduced to the answer they produce (`timedOut`).
- The request's headers and body are left out, since they do not change any outcome the model states.
- Concurrency is left out. The model does not cover other fetches writing the same `NSCache` entry, or the launched coroutine in the older settings view model running after `saveSettings`. Each is taken to run to completion in program order.
- The OS dropping a notification posted without permission is not modelled. `Notify` always posts.
- `BGTaskScheduler` is assumed to replace a pending request that has the same identifier.
- Settings.Save: a `saveSettings` that throws is not modelled. The write always succeeds.
- DevotionalWorker.DoWork: a throw is modelled only before any effect, as when building the cache.
- DevotionalWorker.DoWork: `DevotionalCache` has a private constructor (DevotionalCache.kt:25), so the call `DevotionalCache(applicationContext)` at DevotionalWorker.kt:83 does not compile as written; the model takes the cache to be the one `DevotionalCache.getInstance(applicationContext)` gives.
- LegacySettings.ToggleNugget: exceptions are a single boolean per call, not a position in the step list.
- Network.Fetch: the URL session's answers are a finite list. A call that runs out of answers is still waiting and has delivered nothing.
- IosNotifications.CheckNotificationSettings: the authorisation prompt is its boolean answer.
- IosNotifications.ScheduleDailyNugget, IosNotifications.NuggetContent and IosNotifications.RefreshNuggetContent: the iOS sources do not compile as shown. NotificationManager.swift:88 calls `DevotionalViewModel.shared.fetchTodayDevotional()`, and the iOS `DevotionalViewModel` (ViewModel/DevotionalViewModel.swift:11-33) has neither `shared` nor `fetchTodayDevotional`. Lines 94 and 151 read `.acf?.nugget`, and the iOS `Devotional` (Model/Devotional.swift:13-25) has only `id`, `title`, `content` and `date`. The model assumes a record with an `acf` nugget, and takes today's devotional as an input.
- Dates.ParsePattern: `9999-12-31T24:00:00` is rejected, where `java.time` reads it as midnight of 10000-01-01, because the model's years have four digits.
- Devotionals.FormattedDateFallsBack: for the same input the model returns the string unchanged, where the code formats a five-digit year.
- Dates.FormatDisplay: month names are English. The code formats with `Locale.getDefault()` (Devotional.kt:47-48), so other locales give other month names.
- Entities.DecodeEntities: models the chain the unit test expects. The chain as the file holds it (the raw string at DevotionalDetailScreen.kt:411-412) is `Entities.DecodeEntitiesAsWritten`, whose `&#8220;` row replaces seven characters with the longer source text in between, so "never lengthens" holds only of the intended chain.
- Clock.NextOccurrence: days are 24 hours of the device's wall clock. Converting to UTC across a daylight-saving change, when a day has 23 or 25 hours, is not modelled.
- LegacySettings.ToggleNotifications, LegacySettings.ToggleMorning, LegacySettings.ToggleNugget and Startup.LegacyOnBoot call the older tree's `NotificationScheduler` and `DevotionalWorker`. Those files are not part of this model, so the current ones stand in for them.
- ShareText.FieldsOf: the current tree's devotional model file is not part of this model. Its `getPlainTitle` and `getFormattedDate` are taken to be the older tree's (Devotional.kt:33-62). The share text decodes entities with the intended chain `Entities.DecodeEntities`, while `shareDevotional` calls `decodeHtmlEntities` as written (DevotionalDetailScreen.kt:401-421), whose chain is `Entities.DecodeEntitiesAsWritten`.
- LegacyRepository.IsTodayInstant: instants in years 0 and 9999 are treated as not today, since moving them by the zone offset can leave four-digit years.

## Findings

Nothing here was executed. Each row is an input for which the code as written does something its own comments or tests say it should not.

| source | as written | input that shows it | evidently intended | confidence | as-written member | corrected member |
|---|---|---|---|---|---|---|
| BreadAndWineAndroid/app/src/main/java/breadandwineandroid/breadandwineandroid/data/repository/DevotionalRepository.kt:43-50 | a failed request is caught but nothing is emitted: `emitCachedOrError` (56-64) is called at lines 45 and 49, but the flow it returns is never collected | any cached non-empty list together with a request that throws or answers 500 | after `Loading`, the cached list (or an error when the cache is empty), as that helper's flow would emit | high, not executed | Repository.FailedFetchNeverSettles | Repository.GetDevotionalsCorrected |
| BreadAndWineAndroid/app/src/main/java/com/firstloveassembly/breadandwine/viewmodel/DevotionalViewModel.kt:63-85 | the screen collects that flow, so it keeps `isLoading` true for ever on a failed fetch | a cached list and a failed request | loading ends, showing the cached list or the error | high, not executed | DevotionalList.FailedFetchKeepsSpinning | DevotionalList.FetchCorrected |
| BreadAndWineAndroid/app/src/main/java/com/firstloveassembly/breadandwine/data/repository/DevotionalRepository.kt:98-109 | today's entry is found with `Instant.parse(date)`, which rejects WordPress dates with no offset | `date = "2026-01-05T00:05:38"` with today 2026-01-05 and a nugget set | the nugget of today's entry, as the current tree's `LocalDateTime.parse` gives | high, not executed | LegacyRepository.InstantLookupMissesToday | Repository.GetTodaysNugget |
| BreadAndWine/Services/NotificationManager.swift:132-139 | today is matched by `date.starts(with:)` the `d MMMM yyyy` display string, which never prefixes an ISO date | any fetched list whose dates are `yyyy-MM-ddTHH:mm:ss` | the entry whose date falls on today | high, not executed | IosNotifications.RefreshNeverFindsWordPressDates | IosNotifications.CorrectedRefreshFindsToday |
| BreadAndWine/Services/NotificationManager.swift:155 | `devotionalId` is stored as an `Int`, but the tap handler (191) reads it `as? String` | any refreshed nugget notification, tapped | the tap opens the nuggets list at that devotional | high, not executed | IosNotifications.TapOnNuggetLosesId | IosNotifications.TapOnCorrectedNuggetKeepsId |
| BreadAndWineAndroid/app/src/main/java/breadandwineandroid/breadandwineandroid/ui/devotional/DevotionalDetailScreen.kt:411-412 | both quote rows write their replacement as `"""`, which opens a Kotlin raw string that ends on the next line: `&#8220;` is replaced by the source text between, and `&#8221;` has no row | `hello&#8221;` | `hello\u201D`, as ShareDevotionalTest.kt:52 expects, with `&#8220;` giving U+201C | medium (the file may have lost its curly quotes when saved), not executed | Entities.RightQuoteKeptAsWritten | Entities.DecodeTestSample |

=== FILE: background_fetch.dfy ===
/**
 * The iOS `BackgroundFetchManager`: one app-refresh task, registered and
 * requested under the same identifier, asked to begin no earlier than the next
 * 09:45, and the handler that re-requests it, refreshes the pending nugget
 * request and reports success.
 */
module BackgroundFetch {
  import opened Wrappers
  import opened Clock
  import opened Dates
  import opened Devotionals
  import IosNotifications

  const FetchIdentifier := "com.devotionalapp.nuggetFetch"

  /**
   * The task scheduler: identifiers with a registered launch handler, and the
   * submitted requests by identifier with their earliest begin date (ms).
   */
  datatype TaskScheduler = TaskScheduler(registered: set<string>, requests: map<string, nat>)

  /**
   * `scheduleBackgroundFetch`'s date: today's year, month and day at 09:45 with
   * seconds and nanoseconds zero, a day later when strictly before now.
   */
  function EarliestBeginDate(now: nat): (t: nat)
    ensures now <= t < now + DAY_MS
    ensures t % DAY_MS == 9 * HOUR_MS + 45 * MINUTE_MS
  {
    NextOccurrence(now, TargetTimeOfDay(now, 9, 45, false), RollIfBefore)
  }

  /** No other instant at 09:45:00.000 lies in `[now, now + DAY)`: the date is neither a day early nor late. */
  lemma EarliestBeginDateIsNext(now: nat, t: nat)
    requires t % DAY_MS == 9 * HOUR_MS + 45 * MINUTE_MS && now <= t < now + DAY_MS
    ensures t == EarliestBeginDate(now)
  {
    NextOccurrenceUnique(now, TargetTimeOfDay(now, 9, 45, false), RollIfBefore, t);
  }

  /** At 09:45:00.000 exactly the date is now: the refresh may begin at once. */
  lemma AtTargetBeginsNow(now: nat)
    requires now % DAY_MS == 9 * HOUR_MS + 45 * MINUTE_MS
    ensures EarliestBeginDate(now) == now
  {
    EarliestBeginDateIsNext(now, now);
  }

  /**
   * Fifteen minutes before the nugget request fires: before 09:45 the fetch
   * may begin exactly a quarter of an hour ahead of the same day's 10:00.
   */
  lemma FetchPrecedesNugget(now: nat)
    requires now % DAY_MS < 9 * HOUR_MS + 45 * MINUTE_MS
    ensures EarliestBeginDate(now) + 15 * MINUTE_MS == NextOccurrence(now, TargetTimeOfDay(now, 10, 0, false), RollIfBefore)
  {
    var t := EarliestBeginDate(now) + 15 * MINUTE_MS;
    var sod := StartOfDay(now);
    assert t == sod + 10 * HOUR_MS;
    NextOccurrenceUnique(now, TargetTimeOfDay(now, 10, 0, false), RollIfBefore, t);
  }

  /** `registerBackgroundTasks`: the handler is registered for the fetch identifier. */
  function RegisterBackgroundTasks(s: TaskScheduler): (r: TaskScheduler)
    ensures r.requests == s.requests
    ensures r.registered == s.registered + {FetchIdentifier}
  {
    s.(registered := s.registered + {FetchIdentifier})
  }

  /**
   * `scheduleBackgroundFetch`: the request replaces any earlier one with its
   * identifier; a submission that throws is only logged.
   */
  function ScheduleBackgroundFetch(s: TaskScheduler, now: nat, submitThrows: bool): (r: TaskScheduler)
    ensures r.registered == s.registered
    ensures submitThrows ==> r == s
    ensures !submitThrows ==>
              && r.requests.Keys == s.requests.Keys + {FetchIdentifier}
              && r.requests[FetchIdentifier] == EarliestBeginDate(now)
              && forall id :: id in s.requests && id != FetchIdentifier ==> r.requests[id] == s.requests[id]
  {
    if submitThrows then s else s.(requests := s.requests[FetchIdentifier := EarliestBeginDate(now)])
  }

  /** Once registered, every request this manager submits has a handler to launch. */
  lemma SubmittedTaskHasHandler(s: TaskScheduler, now: nat, submitThrows: bool)
    requires forall id :: id in s.requests ==> id in s.registered
    ensures var r := ScheduleBackgroundFetch(RegisterBackgroundTasks(s), now, submitThrows);
            forall id :: id in r.requests ==> id in r.registered
  {
  }

  datatype Refreshed = Refreshed(scheduler: TaskScheduler, center: IosNotifications.Center, success: bool)

  /**
   * `handleAppRefresh`: the next run is requested first, then the nugget
   * content is refreshed from `fetched` (none when the fetch fails), and the
   * task is reported a success whatever the fetch gave.
   */
  function HandleAppRefresh(s: TaskScheduler, c: IosNotifications.Center, now: nat, submitThrows: bool,
                            today: Date, fetched: Option<seq<Devotional>>): (r: Refreshed)
    requires ValidDate(today)
    ensures r.success
    ensures r.scheduler == ScheduleBackgroundFetch(s, now, submitThrows)
    ensures fetched.None? ==> r.center == c
    ensures fetched.Some? ==> r.center.pending.Keys == c.pending.Keys + {IosNotifications.NuggetIdentifier}
    ensures r.center.defaults == c.defaults
    ensures forall id :: id in c.pending && id != IosNotifications.NuggetIdentifier ==> r.center.pending[id] == c.pending[id]
    ensures r.center == IosNotifications.RefreshNuggetContent(c, today, fetched)
  {
    var next := ScheduleBackgroundFetch(s, now, submitThrows);
    var center := IosNotifications.RefreshNuggetContent(c, today, fetched);
    Refreshed(next, center, true)
  }

  /** A failed fetch still reports success, and the next run is still requested. */
  lemma FailedFetchReportsSuccess(s: TaskScheduler, c: IosNotifications.Center, now: nat, today: Date)
    requires ValidDate(today)
    ensures var r := HandleAppRefresh(s, c, now, false, today, None);
            r.success && r.center == c && FetchIdentifier in r.scheduler.requests
  {
  }

  /**
   * The background path inherits the foreground refresh's defect: when every
   * fetched date is a WordPress date, the refreshed nugget request has an empty
   * body and devotional id 0, whatever the list holds.
   */
  lemma BackgroundRefreshNeverFindsWordPressDates(s: TaskScheduler, c: IosNotifications.Center, now: nat,
                                                  submitThrows: bool, today: Date, l: seq<Devotional>)
    requires ValidDate(today)
    requires forall i :: 0 <= i < |l| ==> ParseIsoLocal(l[i].date).Some?
    ensures var q := HandleAppRefresh(s, c, now, submitThrows, today, Some(l)).center.pending[IosNotifications.NuggetIdentifier];
            q.content.body == "" && q.content.userInfo[IosNotifications.DevotionalIdKey] == IosNotifications.IntPayload(0)
  {
    IosNotifications.RefreshNeverFindsWordPressDates(c, today, l);
  }
}

=== FILE: cache.dfy ===
/**
 * `DevotionalCache`: one DataStore of string preferences holding the last list
 * of devotionals as JSON and the three notification switches as `"true"` /
 * `"false"`.
 */
module Cache {
  import opened Wrappers
  import opened Devotionals

  const CachedDevotionalsKey := "cachedDevotionals"
  const NotificationsEnabledKey := "notificationsEnabled"
  const MorningNotificationsKey := "morningNotificationsEnabled"
  const NuggetNotificationsKey := "nuggetNotificationsEnabled"

  /** The preferences file: string keys to string values. */
  type Store = map<string, string>

  /**
   * Gson as seen by the cache: `toJson` of a list, and `fromJson`, which fails
   * (`None`) when it throws.
   */
  datatype Json = Json(toJson: seq<Devotional> -> string, fromJson: string -> Option<seq<Devotional>>)

  /** Gson reads back what it wrote. */
  ghost predicate Faithful(json: Json) {
    forall l :: json.fromJson(json.toJson(l)) == Some(l)
  }

  datatype NotificationSettings = NotificationSettings(enabled: bool, morningEnabled: bool, nuggetEnabled: bool)

  /** `saveDevotionals`: the list replaces the stored JSON; nothing else changes. */
  function SaveDevotionals(json: Json, store: Store, devotionals: seq<Devotional>): (r: Store)
    ensures r.Keys == store.Keys + {CachedDevotionalsKey}
    ensures forall k :: k in store && k != CachedDevotionalsKey ==> r[k] == store[k]
  {
    store[CachedDevotionalsKey := json.toJson(devotionals)]
  }

  /** `getCachedDevotionals`: the stored list, or empty when absent or unreadable. */
  function CachedDevotionals(json: Json, store: Store): (r: seq<Devotional>)
    ensures CachedDevotionalsKey !in store ==> r == []
    ensures CachedDevotionalsKey in store && json.fromJson(store[CachedDevotionalsKey]).None? ==> r == []
  {
    if CachedDevotionalsKey !in store then []
    else json.fromJson(store[CachedDevotionalsKey]).GetOr([])
  }

  /** What was saved is what is read back. */
  lemma SaveThenReadDevotionals(json: Json, store: Store, devotionals: seq<Devotional>)
    requires Faithful(json)
    ensures CachedDevotionals(json, SaveDevotionals(json, store, devotionals)) == devotionals
  {
    assert json.fromJson(json.toJson(devotionals)) == Some(devotionals);
  }

  /** Kotlin `Boolean.toString()`. */
  function BoolToString(b: bool): string {
    if b then "true" else "false"
  }

  /** Kotlin `String.toBoolean()`: `"true"` in any letter case. */
  predicate ToBoolean(s: string) {
    && |s| == 4
    && (s[0] == 't' || s[0] == 'T')
    && (s[1] == 'r' || s[1] == 'R')
    && (s[2] == 'u' || s[2] == 'U')
    && (s[3] == 'e' || s[3] == 'E')
  }

  /** `preferences[key]?.toBoolean() ?: true`. */
  function Flag(store: Store, key: string): (r: bool)
    ensures key !in store ==> r
  {
    if key in store then ToBoolean(store[key]) else true
  }

  /** `saveNotificationSettings`: the three switches as strings; nothing else changes. */
  function SaveNotificationSettings(store: Store, s: NotificationSettings): (r: Store)
    ensures r.Keys == store.Keys + {NotificationsEnabledKey, MorningNotificationsKey, NuggetNotificationsKey}
    ensures forall k :: k in store && k !in {NotificationsEnabledKey, MorningNotificationsKey, NuggetNotificationsKey}
                        ==> r[k] == store[k]
  {
    store[NotificationsEnabledKey := BoolToString(s.enabled)]
         [MorningNotificationsKey := BoolToString(s.morningEnabled)]
         [NuggetNotificationsKey := BoolToString(s.nuggetEnabled)]
  }

  /** `getNotificationSettings`: each switch defaults to on until saved. */
  function GetNotificationSettings(store: Store): (r: NotificationSettings)
    ensures NotificationsEnabledKey !in store ==> r.enabled
    ensures MorningNotificationsKey !in store ==> r.morningEnabled
    ensures NuggetNotificationsKey !in store ==> r.nuggetEnabled
  {
    NotificationSettings(
      Flag(store, NotificationsEnabledKey),
      Flag(store, MorningNotificationsKey),
      Flag(store, NuggetNotificationsKey))
  }

  /** Saved switches read back as saved. */
  lemma SaveThenReadSettings(store: Store, s: NotificationSettings)
    ensures GetNotificationSettings(SaveNotificationSettings(store, s)) == s
  {
  }

  /** Saving the switches leaves the cached devotionals alone, and the other way round. */
  lemma SavesAreIndependent(json: Json, store: Store, s: NotificationSettings, l: seq<Devotional>)
    ensures CachedDevotionals(json, SaveNotificationSettings(store, s)) == CachedDevotionals(json, store)
    ensures GetNotificationSettings(SaveDevotionals(json, store, l)) == GetNotificationSettings(store)
  {
  }
}

=== FILE: clock.dfy ===
/**
 * Daily trigger times. A `Calendar` (or `DateComponents`) set to a wall-clock
 * time today, moved one day on when that time is already past, is the app's only
 * way of choosing when something next runs. Time is local wall-clock
 * milliseconds since the epoch; days are 24 hours long.
 */
module Clock {

  const SECOND_MS := 1000
  const MINUTE_MS := 60 * SECOND_MS
  const HOUR_MS := 60 * MINUTE_MS
  const DAY_MS := 24 * HOUR_MS

  /** When "already past" means strictly earlier (`<`) or not later (`<=`). */
  datatype Roll = RollIfBefore | RollIfNotAfter

  /** Local midnight at the start of the day holding `now`. */
  function StartOfDay(now: nat): (r: nat)
    ensures r <= now < r + DAY_MS && r % DAY_MS == 0
  {
    now - now % DAY_MS
  }

  /**
   * The millisecond of the day a calendar is set to: `hour:minute:00`, plus the
   * current millisecond of the second when the calendar's MILLISECOND field is
   * left as `Calendar.getInstance()` filled it.
   */
  function TargetTimeOfDay(now: nat, hour: nat, minute: nat, keepMillis: bool): (r: nat)
    requires hour < 24 && minute < 60
    ensures r < DAY_MS
  {
    hour * HOUR_MS + minute * MINUTE_MS + (if keepMillis then now % SECOND_MS else 0)
  }

  /**
   * The instant today at `timeOfDay`, or tomorrow when that is already past.
   * It lies within one day after `now` and has the requested time of day.
   */
  function NextOccurrence(now: nat, timeOfDay: nat, roll: Roll): (r: nat)
    requires timeOfDay < DAY_MS
    ensures r % DAY_MS == timeOfDay
    ensures roll == RollIfBefore ==> now <= r < now + DAY_MS
    ensures roll == RollIfNotAfter ==> now < r <= now + DAY_MS
  {
    var today := StartOfDay(now) + timeOfDay;
    var past := if roll == RollIfBefore then today < now else today <= now;
    if past then today + DAY_MS else today
  }

  lemma SameResidueClose(a: int, b: int)
    requires a % DAY_MS == b % DAY_MS
    requires -DAY_MS < a - b < DAY_MS
    ensures a == b
  {
    var qa := a / DAY_MS;
    var qb := b / DAY_MS;
    assert a == qa * DAY_MS + a % DAY_MS;
    assert b == qb * DAY_MS + b % DAY_MS;
    assert a - b == (qa - qb) * DAY_MS;
  }

  /**
   * The next occurrence is the only instant with that time of day in its
   * window: the alarm can be neither a day early nor a day late.
   */
  lemma NextOccurrenceUnique(now: nat, timeOfDay: nat, roll: Roll, t: nat)
    requires timeOfDay < DAY_MS && t % DAY_MS == timeOfDay
    requires roll == RollIfBefore ==> now <= t < now + DAY_MS
    requires roll == RollIfNotAfter ==> now < t <= now + DAY_MS
    ensures t == NextOccurrence(now, timeOfDay, roll)
  {
    SameResidueClose(t, NextOccurrence(now, timeOfDay, roll));
  }

  /**
   * The two rules differ only when the target is exactly now: `<` fires
   * immediately, `<=` waits a full day.
   */
  lemma RollRulesDifferOnlyAtNow(now: nat, timeOfDay: nat)
    requires timeOfDay < DAY_MS
    ensures NextOccurrence(now, timeOfDay, RollIfBefore) != NextOccurrence(now, timeOfDay, RollIfNotAfter)
            <==> now % DAY_MS == timeOfDay
  {
  }

  /**
   * `calculateDelayUntil(hour, minute)` in NotificationWorker.kt: milliseconds
   * from now to the next `hour:minute:00.000`, a full day when that is now.
   */
  function DelayUntil(now: nat, hour: nat, minute: nat): (r: nat)
    requires hour < 24 && minute < 60
    ensures 0 < r <= DAY_MS
    ensures (now + r) % DAY_MS == hour * HOUR_MS + minute * MINUTE_MS
  {
    NextOccurrence(now, TargetTimeOfDay(now, hour, minute, false), RollIfNotAfter) - now
  }
}

=== FILE: dates.dfy ===
/**
 * Calendar dates and the date strings the app reads and writes.
 *
 * WordPress publishes `date` as a local date-time without offset
 * (`2026-01-05T00:05:38`). The app reads such strings in four ways:
 * java.time's ISO local date-time parser, a `yyyy-MM-dd'T'HH:mm:ss` pattern,
 * the ISO offset date-time parser and the ISO instant parser; it displays dates
 * as `d MMMM yyyy`. Years are limited to four digits throughout.
 */
module Dates {
  import opened Wrappers
  import opened Strings

  datatype Date = Date(year: int, month: int, day: int)

  predicate IsLeapYear(y: int) {
    y % 4 == 0 && (y % 100 != 0 || y % 400 == 0)
  }

  function DaysInMonth(y: int, m: int): int
    requires 1 <= m <= 12
  {
    if m == 2 then (if IsLeapYear(y) then 29 else 28)
    else if m == 4 || m == 6 || m == 9 || m == 11 then 30
    else 31
  }

  /** A proleptic Gregorian date with a four-digit year. */
  predicate ValidDate(d: Date) {
    0 <= d.year <= 9999 && 1 <= d.month <= 12 && 1 <= d.day <= DaysInMonth(d.year, d.month)
  }

  function NextDay(d: Date): (r: Date)
    requires ValidDate(d)
    ensures d != Date(9999, 12, 31) ==> ValidDate(r)
  {
    if d.day < DaysInMonth(d.year, d.month) then Date(d.year, d.month, d.day + 1)
    else if d.month < 12 then Date(d.year, d.month + 1, 1)
    else Date(d.year + 1, 1, 1)
  }

  function PrevDay(d: Date): (r: Date)
    requires ValidDate(d)
    ensures d.year > 0 ==> ValidDate(r)
  {
    if d.day > 1 then Date(d.year, d.month, d.day - 1)
    else if d.month > 1 then Date(d.year, d.month - 1, DaysInMonth(d.year, d.month - 1))
    else Date(d.year - 1, 12, 31)
  }

  /** Stepping a day back undoes stepping a day forward. */
  lemma PrevDayUndoesNextDay(d: Date)
    requires ValidDate(d) && d.year < 9999
    ensures PrevDay(NextDay(d)) == d
  {
  }

  datatype TimeOfDay = TimeOfDay(hour: nat, minute: nat, second: nat, nano: nat)

  predicate ValidTime(t: TimeOfDay) {
    t.hour < 24 && t.minute < 60 && t.second < 60 && t.nano < 1_000_000_000
  }

  datatype DateTime = DateTime(date: Date, time: TimeOfDay)

  predicate ValidDateTime(dt: DateTime) {
    ValidDate(dt.date) && ValidTime(dt.time)
  }

  function Pow10(n: nat): (r: nat)
    ensures r >= 1
  {
    if n == 0 then 1 else 10 * Pow10(n - 1)
  }

  /** The value of the `n` characters at `i` when they are all digits. */
  function Field(s: string, i: nat, n: nat): (r: Option<nat>)
    ensures r.Some? ==> i + n <= |s| && r.value < Pow10(n)
  {
    if i + n <= |s| && AllDigits(s[i..i + n]) then
      DecimalValueBound(s[i..i + n]);
      Some(DecimalValue(s[i..i + n]))
    else None
  }

  lemma {:induction false} DecimalValueBound(s: string)
    requires AllDigits(s)
    ensures DecimalValue(s) < Pow10(|s|)
    decreases |s|
  {
    if s != [] {
      DecimalValueBound(s[..|s| - 1]);
    }
  }

  /** The `w` low decimal digits of `n`, zero padded: `yyyy`, `MM`, `HH`. */
  function PadDigits(n: nat, w: nat): (r: string)
    ensures |r| == w && AllDigits(r)
  {
    if w == 0 then [] else PadDigits(n / 10, w - 1) + [DigitChar(n % 10)]
  }

  /** Reading back a zero-padded field gives the number that was written. */
  lemma {:induction false} PadDigitsRoundTrip(n: nat, w: nat)
    requires n < Pow10(w)
    ensures DecimalValue(PadDigits(n, w)) == n
  {
    if w > 0 {
      PadDigitsRoundTrip(n / 10, w - 1);
      var s := PadDigits(n, w);
      assert s[..|s| - 1] == PadDigits(n / 10, w - 1);
    }
  }

  /** `yyyy-MM-dd` read field by field, not yet checked against the calendar. */
  function DateFields(s: string): Option<Date>
  {
    if |s| == 10 && s[4] == '-' && s[7] == '-'
       && Field(s, 0, 4).Some? && Field(s, 5, 2).Some? && Field(s, 8, 2).Some?
    then Some(Date(Field(s, 0, 4).value, Field(s, 5, 2).value, Field(s, 8, 2).value))
    else None
  }

  /**
   * `HH:mm`, `HH:mm:ss` or `HH:mm:ss.f` with one to nine fraction digits, read
   * field by field and not yet range checked.
   */
  function TimeFields(t: string): (r: Option<TimeOfDay>)
    ensures r.Some? ==> r.value.hour < 100 && r.value.minute < 100 && r.value.second < 100
                        && r.value.nano < 1_000_000_000
  {
    if |t| < 5 || t[2] != ':' || Field(t, 0, 2).None? || Field(t, 3, 2).None? then None
    else
      var h := Field(t, 0, 2).value;
      var m := Field(t, 3, 2).value;
      if |t| == 5 then Some(TimeOfDay(h, m, 0, 0))
      else if |t| < 8 || t[5] != ':' || Field(t, 6, 2).None? then None
      else
        var sec := Field(t, 6, 2).value;
        if |t| == 8 then Some(TimeOfDay(h, m, sec, 0))
        else if t[8] == '.' && 10 <= |t| <= 18 && Field(t, 9, |t| - 9).Some? then
          FractionBound(Field(t, 9, |t| - 9).value, |t| - 9);
          Some(TimeOfDay(h, m, sec, Field(t, 9, |t| - 9).value * Pow10(18 - |t|)))
        else None
  }

  /** An accepted time of day holds only digits, `:` and `.`: never a sign. */
  lemma TimeFieldsUnsigned(t: string, k: nat)
    requires k < |t|
    ensures TimeFields(t).Some? ==> t[k] != '+' && t[k] != '-'
  {
    if TimeFields(t).Some? {
      if k < 2 {
        assert t[0..2][k] == t[k];
      } else if 3 <= k < 5 {
        assert t[3..5][k - 3] == t[k];
      } else if 6 <= k < 8 {
        assert t[6..8][k - 6] == t[k];
      } else if 9 <= k {
        assert t[9..9 + (|t| - 9)][k - 9] == t[k];
      }
    }
  }

  /** `f` read from `n <= 9` fraction digits, scaled to nanoseconds, is below one second. */
  lemma {:induction false} FractionBound(f: nat, n: nat)
    requires 1 <= n <= 9 && f < Pow10(n)
    ensures f * Pow10(9 - n) < 1_000_000_000
    decreases 9 - n
  {
    if n < 9 {
      FractionBound(10 * f + 9, n + 1);
      assert Pow10(9 - n) == 10 * Pow10(9 - (n + 1));
    }
  }

  predicate IsDateTimeSeparator(c: char) {
    c == 'T' || c == 't'
  }

  /**
   * `LocalDateTime.parse(s)`: ISO local date-time, case-insensitive separator,
   * seconds and fraction optional, calendar checked strictly.
   */
  function ParseIsoLocal(s: string): (r: Option<DateTime>)
    ensures r.Some? ==> ValidDateTime(r.value) && |s| >= 16 && IsDigit(s[|s| - 1])
  {
    if |s| < 16 || !IsDateTimeSeparator(s[10]) then None
    else
      var d := DateFields(s[..10]);
      var t := TimeFields(s[11..]);
      if d.Some? && t.Some? && ValidDate(d.value) && ValidTime(t.value) then
        assert s[11..][|s| - 12] == s[|s| - 1];
        Some(DateTime(d.value, t.value))
      else None
  }

  /**
   * `LocalDateTime.parse(s, ofPattern("yyyy-MM-dd'T'HH:mm:ss"))` with the smart
   * resolver: exactly that layout, year of era from 1, and a day of month up to
   * 31 moved back to the last day of a shorter month. `24:00:00` is accepted as
   * the midnight that ends the (already clamped) day, that is the start of the
   * next one; no other hour from 24 up passes.
   */
  function ParsePattern(s: string): (r: Option<DateTime>)
    ensures r.Some? ==> ValidDateTime(r.value) && |s| == 19
  {
    if |s| != 19 || s[10] != 'T' then None
    else
      var d := DateFields(s[..10]);
      var t := TimeFields(s[11..]);
      if d.Some? && t.Some? && 1 <= d.value.year && 1 <= d.value.month <= 12
         && 1 <= d.value.day <= 31 then
        var last := DaysInMonth(d.value.year, d.value.month);
        var date := Date(d.value.year, d.value.month, if d.value.day > last then last else d.value.day);
        if ValidTime(t.value) then Some(DateTime(date, t.value))
        else if t.value == EndOfDay && date != Date(9999, 12, 31) then
          Some(DateTime(NextDay(date), Midnight))
        else None
      else None
  }

  /** `24:00:00` as the pattern reads it, and the midnight it resolves to. */
  const EndOfDay := TimeOfDay(24, 0, 0, 0)
  const Midnight := TimeOfDay(0, 0, 0, 0)

  predicate IsZoneZ(c: char) {
    c == 'Z' || c == 'z'
  }

  /** `+HH:MM` or `+HH:MM:SS` (either sign) within eighteen hours. */
  predicate ValidOffset(o: string) {
    && (|o| == 6 || |o| == 9)
    && (o[0] == '+' || o[0] == '-')
    && o[3] == ':'
    && Field(o, 1, 2).Some? && Field(o, 4, 2).Some?
    && (|o| == 9 ==> o[6] == ':' && Field(o, 7, 2).Some?)
    && var secs := Field(o, 1, 2).value * 3600 + Field(o, 4, 2).value * 60
                   + (if |o| == 9 then Field(o, 7, 2).value else 0);
       Field(o, 4, 2).value < 60 && (|o| == 9 ==> Field(o, 7, 2).value < 60) && secs <= 64800
  }

  /**
   * `OffsetDateTime.parse(s).toLocalDateTime()`: an ISO local date-time
   * followed by `Z` or a numeric offset; the local fields are kept as written.
   */
  function ParseOffsetDateTime(s: string): (r: Option<DateTime>)
    ensures r.Some? ==> ValidDateTime(r.value)
  {
    if |s| > 0 && IsZoneZ(s[|s| - 1]) then ParseIsoLocal(s[..|s| - 1])
    else if |s| >= 6 && ValidOffset(s[|s| - 6..]) then ParseIsoLocal(s[..|s| - 6])
    else if |s| >= 9 && ValidOffset(s[|s| - 9..]) then ParseIsoLocal(s[..|s| - 9])
    else None
  }

  /**
   * `Instant.parse(s)` as UTC fields: ISO local date-time with seconds, then
   * `Z`. `24:00:00` is the start of the next day and a leap second `23:59:60`
   * reads as `23:59:59`.
   */
  function ParseInstant(s: string): (r: Option<DateTime>)
    ensures r.Some? ==> |s| > 0 && IsZoneZ(s[|s| - 1]) && ValidDateTime(r.value)
  {
    if |s| < 20 || !IsZoneZ(s[|s| - 1]) || !IsDateTimeSeparator(s[10]) then None
    else
      var d := DateFields(s[..10]);
      var t := TimeFields(s[11..|s| - 1]);
      if d.None? || t.None? || !ValidDate(d.value) || t.value.minute >= 60 then None
      else
        var tv := t.value;
        if tv == EndOfDay && d.value.year < 9999 then
          Some(DateTime(NextDay(d.value), Midnight))
        else if tv.hour == 23 && tv.minute == 59 && tv.second == 60 then
          Some(DateTime(d.value, TimeOfDay(23, 59, 59, tv.nano)))
        else if tv.hour < 24 && tv.second < 60 then Some(DateTime(d.value, tv))
        else None
  }

  /** A string the ISO local parser accepts carries no zone, so the instant parser refuses it. */
  lemma LocalDateTimeIsNotInstant(s: string)
    requires ParseIsoLocal(s).Some?
    ensures ParseInstant(s).None?
  {
  }

  /**
   * `instant.atZone(zone).toLocalDate()` for a zone whose offset from UTC is
   * `offsetSeconds` at that instant.
   */
  function LocalDateAt(utc: DateTime, offsetSeconds: int): (r: Date)
    requires ValidDateTime(utc) && 0 < utc.date.year < 9999
    requires -64800 <= offsetSeconds <= 64800
    ensures ValidDate(r)
  {
    var secs := utc.time.hour * 3600 + utc.time.minute * 60 + utc.time.second + offsetSeconds;
    if secs < 0 then PrevDay(utc.date)
    else if secs >= 86400 then NextDay(utc.date)
    else utc.date
  }

  const MonthNames: seq<string> := [
    "January", "February", "March", "April", "May", "June",
    "July", "August", "September", "October", "November", "December"
  ]

  /**
   * The year of era that the `yyyy` pattern prints: proleptic year 0 is
   * 1 BC, so it prints as year 1.
   */
  function YearOfEra(y: int): (r: nat)
    ensures r >= 1
    ensures y >= 1 ==> r == y
  {
    if y >= 1 then y else 1 - y
  }

  /** `d MMMM yyyy` with English month names. */
  function FormatDisplay(d: Date): (r: string)
    requires ValidDate(d)
    ensures |r| > 2 && (r[1] == ' ' || r[2] == ' ')
  {
    var day := NatToString(d.day);
    DayDigits(d.day);
    day + " " + MonthNames[d.month - 1] + " " + PadDigits(YearOfEra(d.year), 4)
  }

  /**
   * A display date reads back field by field: the digits before the first
   * space are the day, the word between the spaces is the month's name and
   * the last four digits are the year of era.
   */
  lemma FormatDisplayReadBack(d: Date)
    requires ValidDate(d)
    ensures var r := FormatDisplay(d);
            var n := if d.day < 10 then 1 else 2;
            var m := MonthNames[d.month - 1];
            && |r| == n + |m| + 6
            && Field(r, 0, n) == Some(d.day as nat) && r[n] == ' '
            && r[n + 1..n + 1 + |m|] == m && r[n + 1 + |m|] == ' '
            && Field(r, |r| - 4, 4) == Some(YearOfEra(d.year))
  {
    DayDigits(d.day);
    NatToStringRoundTrip(d.day);
    assert Pow10(4) == 10000;
    PadDigitsRoundTrip(YearOfEra(d.year), 4);
    DisplayLayout(NatToString(d.day), MonthNames[d.month - 1], PadDigits(YearOfEra(d.year), 4));
  }

  /** The three fields of `day + " " + m + " " + year` read back where they were put. */
  lemma DisplayLayout(day: string, m: string, year: string)
    requires AllDigits(day) && AllDigits(year) && |year| == 4
    ensures var r := day + " " + m + " " + year;
            && |r| == |day| + |m| + 6
            && Field(r, 0, |day|) == Some(DecimalValue(day)) && r[|day|] == ' '
            && r[|day| + 1..|day| + 1 + |m|] == m && r[|day| + 1 + |m|] == ' '
            && Field(r, |r| - 4, 4) == Some(DecimalValue(year))
  {
    var r := day + " " + m + " " + year;
    assert r[0..|day|] == day;
    assert r[|day| + 1..|day| + 1 + |m|] == m;
    assert r[|r| - 4..|r| - 4 + 4] == year;
  }

  /** A day of the month is written with one digit below ten and two from ten. */
  lemma DayDigits(n: nat)
    requires n < 100
    ensures |NatToString(n)| == if n < 10 then 1 else 2
  {
    if n >= 10 {
      assert NatToString(n / 10) == [DigitChar(n / 10)];
    }
  }

  /**
   * A display date is never the prefix of a string that opens with a four-digit
   * year, whatever the date.
   */
  lemma DisplayNeverPrefixesIso(s: string, d: Date)
    requires ValidDate(d)
    requires |s| >= 4 && AllDigits(s[..4])
    ensures !StartsWith(s, FormatDisplay(d))
  {
  }

  /**
   * The WordPress `date` field: `yyyy-MM-ddTHH:mm:ss`, each field written
   * as it is, even where the calendar would refuse it.
   */
  function WordPressDate(dt: DateTime): (r: string)
    requires 0 <= dt.date.year && 0 <= dt.date.month && 0 <= dt.date.day
    ensures |r| == 19
  {
    PadDigits(dt.date.year, 4) + "-" + PadDigits(dt.date.month, 2) + "-" + PadDigits(dt.date.day, 2)
    + "T" + PadDigits(dt.time.hour, 2) + ":" + PadDigits(dt.time.minute, 2) + ":" + PadDigits(dt.time.second, 2)
  }

  lemma FieldOfPadded(s: string, i: nat, n: nat, w: nat)
    requires n < Pow10(w) && i + w <= |s| && s[i..i + w] == PadDigits(n, w)
    ensures Field(s, i, w) == Some(n)
  {
    PadDigitsRoundTrip(n, w);
  }

  /** The date and the time fields of a WordPress date read back as written. */
  lemma WordPressDateFields(dt: DateTime)
    requires 0 <= dt.date.year < 10000 && 0 <= dt.date.month < 100 && 0 <= dt.date.day < 100
    requires dt.time.hour < 100 && dt.time.minute < 100 && dt.time.second < 100
    ensures var s := WordPressDate(dt);
            && s[10] == 'T' && DateFields(s[..10]) == Some(dt.date)
            && TimeFields(s[11..]) == Some(TimeOfDay(dt.time.hour, dt.time.minute, dt.time.second, 0))
  {
    var s := WordPressDate(dt);
    var ds := s[..10];
    var ts := s[11..];
    assert ds == PadDigits(dt.date.year, 4) + "-" + PadDigits(dt.date.month, 2) + "-" + PadDigits(dt.date.day, 2);
    assert ts == PadDigits(dt.time.hour, 2) + ":" + PadDigits(dt.time.minute, 2) + ":" + PadDigits(dt.time.second, 2);
    FieldOfPadded(ds, 0, dt.date.year, 4);
    FieldOfPadded(ds, 5, dt.date.month, 2);
    FieldOfPadded(ds, 8, dt.date.day, 2);
    FieldOfPadded(ts, 0, dt.time.hour, 2);
    FieldOfPadded(ts, 3, dt.time.minute, 2);
    FieldOfPadded(ts, 6, dt.time.second, 2);
  }

  /** Both Android parsers read back a WordPress date exactly. */
  lemma WordPressDateRoundTrip(dt: DateTime)
    requires ValidDateTime(dt) && dt.time.nano == 0
    ensures ParseIsoLocal(WordPressDate(dt)) == Some(dt)
    ensures dt.date.year >= 1 ==> ParsePattern(WordPressDate(dt)) == Some(dt)
  {
    WordPressDateFields(dt);
  }

  /**
   * `24:00:00` on any day the pattern can step past is read as the next day's
   * midnight, while the strict ISO parser refuses it.
   */
  lemma ParsePatternEndOfDay(d: Date)
    requires ValidDate(d) && d.year >= 1 && d != Date(9999, 12, 31)
    ensures ParsePattern(WordPressDate(DateTime(d, EndOfDay))) == Some(DateTime(NextDay(d), Midnight))
    ensures ParseIsoLocal(WordPressDate(DateTime(d, EndOfDay))).None?
  {
    WordPressDateFields(DateTime(d, EndOfDay));
  }

  /**
   * A day of month past the end of a shorter month (at most 31) is moved back
   * to that month's last day by the pattern parser; the strict ISO parser
   * refuses it.
   */
  lemma ParsePatternClampsDay(y: int, m: int, day: int, t: TimeOfDay)
    requires 1 <= y <= 9999 && 1 <= m <= 12 && DaysInMonth(y, m) < day <= 31
    requires ValidTime(t) && t.nano == 0
    ensures ParsePattern(WordPressDate(DateTime(Date(y, m, day), t)))
            == Some(DateTime(Date(y, m, DaysInMonth(y, m)), t))
    ensures ParseIsoLocal(WordPressDate(DateTime(Date(y, m, day), t))).None?
  {
    WordPressDateFields(DateTime(Date(y, m, day), t));
  }

  /** The last representable day has no next day here: its `24:00:00` is refused. */
  lemma ParsePatternLastEndOfDay()
    ensures ParsePattern(WordPressDate(DateTime(Date(9999, 12, 31), EndOfDay))).None?
  {
    WordPressDateFields(DateTime(Date(9999, 12, 31), EndOfDay));
  }

  /**
   * A WordPress date followed by `Z` or a numeric offset is read by the offset
   * parser with its local fields as written; the pattern parser refuses it.
   */
  lemma OffsetWordPressDate(dt: DateTime, zone: string)
    requires ValidDateTime(dt) && dt.time.nano == 0
    requires zone == "Z" || (|zone| == 6 && ValidOffset(zone))
    ensures ParseOffsetDateTime(WordPressDate(dt) + zone) == Some(dt)
    ensures ParsePattern(WordPressDate(dt) + zone).None?
  {
    var w := WordPressDate(dt);
    var s := w + zone;
    WordPressDateRoundTrip(dt);
    if zone == "Z" {
      assert s[..|s| - 1] == w;
    } else {
      assert s[|s| - 6..] == zone;
      assert s[..|s| - 6] == w;
      assert !IsZoneZ(s[|s| - 1]);
    }
  }
}

=== FILE: devotional.dfy ===
/**
 * The devotional entry served by the WordPress API and the display helpers the
 * Android model class offers on it.
 */
module Devotionals {
  import opened Wrappers
  import opened Strings
  import opened Html
  import opened Dates

  /** Advanced Custom Fields: every field may be missing. */
  datatype Acf = Acf(
    bibleReadingPlan: Option<string>,
    bibleVerse: Option<string>,
    prayer: Option<string>,
    furtherStudy: Option<string>,
    nugget: Option<string>)

  datatype OgImage = OgImage(url: string, width: Option<int>, height: Option<int>)

  /** Yoast SEO metadata. */
  datatype YoastHead = YoastHead(ogImage: Option<seq<OgImage>>)

  /** A devotional; `title` and `content` are the rendered HTML. */
  datatype Devotional = Devotional(
    id: int,
    date: string,
    title: string,
    content: string,
    acf: Option<Acf>,
    yoastHead: Option<YoastHead>)

  /** `acf?.nugget`. */
  function NuggetOf(d: Devotional): Option<string> {
    if d.acf.Some? then d.acf.value.nugget else None
  }

  /** `yoastHeadJson?.ogImage?.firstOrNull()?.url`. */
  function BannerImageUrl(d: Devotional): (r: Option<string>)
    ensures r.Some? <==> d.yoastHead.Some? && d.yoastHead.value.ogImage.Some?
                         && |d.yoastHead.value.ogImage.value| > 0
    ensures r.Some? ==> r.value == d.yoastHead.value.ogImage.value[0].url
  {
    if d.yoastHead.None? then None
    else
      match d.yoastHead.value.ogImage
      case None => None
      case Some(images) => if |images| == 0 then None else Some(images[0].url)
  }

  /** `getPlainTitle`: the title with every `<.*?>` match removed. */
  function PlainTitle(d: Devotional): (r: string)
    ensures TagFree(LazyAnyOnLine, r)
    ensures '<' !in d.title ==> r == d.title
  {
    StripTagsIsTagFree(LazyAnyOnLine, d.title);
    if '<' !in d.title then StripTagsWithoutOpen(LazyAnyOnLine, d.title); StripTags(LazyAnyOnLine, d.title)
    else StripTags(LazyAnyOnLine, d.title)
  }

  /** The title of the model tests' sample devotional loses its `<strong>` tags. */
  lemma PlainTitleOfSample(d: Devotional)
    requires d.title == "<strong>Test</strong> Title"
    ensures PlainTitle(d) == "Test Title"
  {
    StripSampleTitle(d.title);
  }

  /**
   * `getFormattedDate`: the date as `d MMMM yyyy` when the fixed pattern or, failing
   * that, the offset date-time parser reads it; otherwise the string unchanged.
   */
  function FormattedDate(s: string): (r: string)
    ensures r != s ==> |r| > 2 && (r[1] == ' ' || r[2] == ' ')
  {
    match ParsePattern(s)
    case Some(dt) => FormatDisplay(dt.date)
    case None =>
      match ParseOffsetDateTime(s)
      case Some(dt) => FormatDisplay(dt.date)
      case None => s
  }

  /** WordPress dates are shown as their calendar day. */
  lemma FormattedWordPressDate(dt: DateTime)
    requires ValidDateTime(dt) && dt.time.nano == 0 && dt.date.year >= 1
    ensures FormattedDate(WordPressDate(dt)) == FormatDisplay(dt.date)
  {
    WordPressDateRoundTrip(dt);
  }

  /** The shown date is the string as it came or the display form of a real calendar day. */
  lemma FormattedDateShape(s: string)
    ensures FormattedDate(s) == s || exists d: Date :: ValidDate(d) && FormattedDate(s) == FormatDisplay(d)
  {
  }

  /** A string no date parser accepts is shown as it is. */
  lemma FormattedDateFallsBack(s: string)
    requires ParsePattern(s).None? && ParseOffsetDateTime(s).None?
    ensures FormattedDate(s) == s
  {
  }

  /** The sample that is not a date at all comes back unchanged. */
  lemma FormattedInvalidDate(s: string)
    requires s == "invalid-date"
    ensures FormattedDate(s) == s
  {
    assert !IsZoneZ(s[|s| - 1]);
  }

  /** When only the offset parser reads the string, its local calendar day is shown. */
  lemma FormattedOffsetDate(s: string, dt: DateTime)
    requires ParsePattern(s).None? && ParseOffsetDateTime(s) == Some(dt)
    ensures FormattedDate(s) == FormatDisplay(dt.date)
  {
  }

  /**
   * A WordPress date carrying `Z` or a numeric offset is shown as the calendar
   * day written in it, whatever the offset.
   */
  lemma FormattedZonedWordPressDate(dt: DateTime, zone: string)
    requires ValidDateTime(dt) && dt.time.nano == 0
    requires zone == "Z" || (|zone| == 6 && ValidOffset(zone))
    ensures FormattedDate(WordPressDate(dt) + zone) == FormatDisplay(dt.date)
  {
    OffsetWordPressDate(dt, zone);
  }

  /** `24:00:00` belongs to the next day, so that day is the one shown. */
  lemma FormattedEndOfDay(d: Date)
    requires ValidDate(d) && d.year >= 1 && d != Date(9999, 12, 31)
    ensures FormattedDate(WordPressDate(DateTime(d, EndOfDay))) == FormatDisplay(NextDay(d))
  {
    ParsePatternEndOfDay(d);
  }

  const PreviewLength := 150

  /**
   * `getPreviewText`: the tag-free, `&nbsp;`-expanded, trimmed content, cut to
   * 150 characters with `...` appended when longer.
   */
  function PreviewText(d: Devotional): (r: string)
    ensures |r| <= PreviewLength + 3
    ensures var plain := Trim(ReplaceAll(StripTags(LazyAnyOnLine, d.content), "&nbsp;", " "));
            && (|plain| <= PreviewLength ==> r == plain)
            && (|plain| > PreviewLength ==>
                  |r| == PreviewLength + 3 && r[..PreviewLength] == plain[..PreviewLength]
                  && r[PreviewLength..] == "...")
  {
    var plain := Trim(ReplaceAll(StripTags(LazyAnyOnLine, d.content), "&nbsp;", " "));
    if |plain| > PreviewLength then plain[..PreviewLength] + "..." else plain
  }
}

=== FILE: devotional_list.dfy ===
/**
 * The list screen's state in the older `DevotionalViewModel`: the list, the
 * loading and refreshing flags and the error text, driven by what the
 * repository emits or returns.
 */
module DevotionalList {
  import opened Wrappers
  import opened Devotionals
  import opened DateOrder
  import opened Cache
  import opened Repository

  datatype ListState = ListState(devotionals: seq<Devotional>, isLoading: bool, error: Option<string>,
                                 isRefreshing: bool)

  const FailedToRefresh := "Failed to refresh"

  /** The state before anything is loaded. */
  function Initial(): (st: ListState)
    ensures |st.devotionals| == 0 && st.error.None? && !st.isLoading && !st.isRefreshing
  {
    ListState([], false, None, false)
  }

  /** `loadCachedDevotionals`: the cached list is taken only over an empty one. */
  function AdoptCached(st: ListState, cached: seq<Devotional>): (r: ListState)
    ensures r.isLoading == st.isLoading && r.error == st.error && r.isRefreshing == st.isRefreshing
    ensures r.devotionals == (if |cached| > 0 && |st.devotionals| == 0 then cached else st.devotionals)
  {
    if |cached| > 0 && |st.devotionals| == 0 then st.(devotionals := cached) else st
  }

  /** One value collected from `getDevotionals`. */
  function Collect(st: ListState, result: ApiResult<seq<Devotional>>): (r: ListState)
    ensures r.isRefreshing == st.isRefreshing
    ensures r.isLoading <==> result.Loading?
    ensures result.Loading? ==> r.devotionals == st.devotionals && r.error == st.error
    ensures result.Success? ==> r.devotionals == result.data && r.error.None?
    ensures result.Error? ==> r.devotionals == st.devotionals && r.error == Some(result.message)
  {
    match result
    case Loading => st.(isLoading := true)
    case Success(data) => st.(devotionals := data, isLoading := false, error := None)
    case Error(message) => st.(isLoading := false, error := Some(message))
  }

  /** Every emitted value collected in order. */
  function CollectAll(st: ListState, emitted: seq<ApiResult<seq<Devotional>>>): (r: ListState)
    ensures r.isRefreshing == st.isRefreshing
    ensures |emitted| == 0 ==> r == st
    ensures |emitted| > 0 ==> r.isLoading == emitted[|emitted| - 1].Loading?
    ensures (forall i :: 0 <= i < |emitted| ==> emitted[i].Loading?) ==>
              r.devotionals == st.devotionals && r.error == st.error
    decreases |emitted|
  {
    if |emitted| == 0 then st
    else CollectAll(Collect(st, emitted[0]), emitted[1..])
  }

  /** `fetchDevotionals`: loading on, error cleared, then the repository's values collected. */
  function FetchWith(st: ListState, emitted: seq<ApiResult<seq<Devotional>>>): ListState {
    CollectAll(st.(isLoading := true, error := None), emitted)
  }

  /** `fetchDevotionals` over the repository as written. */
  function Fetch(st: ListState, json: Json, store: Store, o: FetchOutcome): (r: ListState)
    ensures Delivered(o) ==>
              !r.isLoading && r.error.None? && SortedDesc(r.devotionals)
              && multiset(r.devotionals) == multiset(o.body.value)
    ensures !Delivered(o) ==> r.isLoading && r.devotionals == st.devotionals && r.error.None?
  {
    var run := GetDevotionals(json, store, o);
    assert !Delivered(o) ==> run.emitted == [Loading];
    FetchWith(st, run.emitted)
  }

  /** `fetchDevotionals` over the corrected repository, which always settles. */
  function FetchCorrected(st: ListState, json: Json, store: Store, o: FetchOutcome): (r: ListState)
    ensures !r.isLoading
    ensures !Delivered(o) ==>
              var cached := CachedDevotionals(json, store);
              && (|cached| > 0 ==> r.devotionals == cached && r.error.None?)
              && (|cached| == 0 ==> r.devotionals == st.devotionals && r.error == Some(FailureMessage(o)))
  {
    var emitted := GetDevotionalsCorrected(json, store, o).emitted;
    var loading := st.(isLoading := true, error := None);
    assert emitted == [emitted[0], emitted[1]];
    assert [emitted[0], emitted[1]][1..] == [emitted[1]];
    assert CollectAll(loading, emitted) == CollectAll(Collect(loading, Loading), [emitted[1]]);
    assert [emitted[1]][1..] == [];
    FetchWith(st, emitted)
  }

  /**
   * With the repository as written a failed fetch leaves the spinner on for
   * good, even with a list in the cache; the corrected repository shows the
   * cached list and stops loading.
   */
  lemma FailedFetchKeepsSpinning(st: ListState, json: Json, store: Store, o: FetchOutcome)
    requires !Delivered(o) && |CachedDevotionals(json, store)| > 0
    ensures Fetch(st, json, store, o).isLoading
    ensures var r := FetchCorrected(st, json, store, o);
            !r.isLoading && r.devotionals == CachedDevotionals(json, store)
  {
  }

  /**
   * `refreshDevotionals` (pull to refresh): a success replaces the list, a
   * failure keeps it and shows the failure's message or "Failed to refresh";
   * either way refreshing ends and loading is untouched.
   */
  function Refresh(st: ListState, json: Json, store: Store, o: FetchOutcome): (r: ListState)
    ensures !r.isRefreshing && r.isLoading == st.isLoading
    ensures Delivered(o) ==> r.devotionals == RefreshDevotionals(json, store, o).result.list && r.error.None?
    ensures !Delivered(o) ==> r.devotionals == st.devotionals && r.error.Some?
    ensures o.Response? && !Delivered(o) ==> r.error == Some(ApiErrorMessage(o.code))
    ensures o == Thrown(None) ==> r.error == Some(FailedToRefresh)
  {
    var result := RefreshDevotionals(json, store, o).result;
    match result
    case Refreshed(list) => st.(devotionals := list, error := None, isRefreshing := false)
    case RefreshFailed(message) => st.(error := Some(message.GetOr(FailedToRefresh)), isRefreshing := false)
  }

  /** `getDevotionalById`: the first entry with that id. */
  function DevotionalById(l: seq<Devotional>, id: int): (r: Option<Devotional>)
    ensures r.Some? ==> r.value in l && r.value.id == id
    ensures r.None? <==> forall i :: 0 <= i < |l| ==> l[i].id != id
    ensures r.Some? ==> exists i :: 0 <= i < |l| && l[i] == r.value && forall j :: 0 <= j < i ==> l[j].id != id
  {
    if |l| == 0 then None
    else if l[0].id == id then Some(l[0])
    else
      var r := DevotionalById(l[1..], id);
      assert forall i :: 1 <= i < |l| ==> l[i] == l[1..][i - 1];
      if r.Some? then
        var i :| 0 <= i < |l[1..]| && l[1..][i] == r.value && forall j :: 0 <= j < i ==> l[1..][j].id != id;
        assert l[i + 1] == r.value;
        r
      else r
  }

  predicate HasNugget(d: Devotional) {
    NuggetOf(d).Some?
  }

  /** `getNuggets`: the entries carrying a nugget, in list order. */
  function Nuggets(l: seq<Devotional>): (r: seq<Devotional>)
    ensures forall i :: 0 <= i < |r| ==> HasNugget(r[i])
    ensures forall d :: d in l && HasNugget(d) <==> d in r
    ensures |r| <= |l|
    decreases |l|
  {
    if |l| == 0 then []
    else if HasNugget(l[0]) then [l[0]] + Nuggets(l[1..])
    else Nuggets(l[1..])
  }

  /** Filtering keeps order: the filter of a concatenation is the concatenation of the filters. */
  lemma {:induction false} NuggetsOfConcat(a: seq<Devotional>, b: seq<Devotional>)
    ensures Nuggets(a + b) == Nuggets(a) + Nuggets(b)
    decreases |a|
  {
    if |a| == 0 {
      assert a + b == b;
    } else {
      assert (a + b)[1..] == a[1..] + b;
      NuggetsOfConcat(a[1..], b);
    }
  }

  /** Filtering the filtered list changes nothing. */
  lemma {:induction false} NuggetsIdempotent(l: seq<Devotional>)
    ensures Nuggets(Nuggets(l)) == Nuggets(l)
    decreases |l|
  {
    if |l| > 0 {
      NuggetsIdempotent(l[1..]);
      if HasNugget(l[0]) {
        assert ([l[0]] + Nuggets(l[1..]))[1..] == Nuggets(l[1..]);
      }
    }
  }

  /** `clearError`. */
  function ClearError(st: ListState): (r: ListState)
    ensures r.error.None?
    ensures r.devotionals == st.devotionals && r.isLoading == st.isLoading && r.isRefreshing == st.isRefreshing
  {
    st.(error := None)
  }
}

=== FILE: devotional_worker.dfy ===
/**
 * `DevotionalWorker`: the daily 09:45 background refresh and, after a
 * successful refresh, the nugget alarm carrying today's nugget.
 */
module DevotionalWorker {
  import opened Wrappers
  import opened Clock
  import opened Platform
  import opened Dates
  import opened Devotionals
  import opened Cache
  import opened Repository
  import opened NotificationScheduler

  const WorkName := "devotional_fetch_work"

  /**
   * The initial delay: to today at 09:45:00 with the current millisecond, or a
   * day later when that is strictly before now.
   */
  function FetchDelay(now: nat): (delay: nat)
    ensures 0 <= delay < DAY_MS
    ensures (now + delay) % DAY_MS == 9 * HOUR_MS + 45 * MINUTE_MS + now % SECOND_MS
  {
    NextOccurrence(now, TargetTimeOfDay(now, 9, 45, true), RollIfBefore) - now
  }

  /**
   * `schedule`: the unique daily request, needing a connected network, kept
   * when one is already enqueued.
   */
  function Schedule(os: Os, d: Device): (r: Os)
    ensures WorkName in os.work ==> r == os
    ensures WorkName !in os.work ==>
              && r.alarms == os.alarms && r.tray == os.tray
              && r.work.Keys == os.work.Keys + {WorkName}
              && (forall n :: n in os.work ==> r.work[n] == os.work[n])
              && var w := r.work[WorkName];
              && w.initialDelay == FetchDelay(d.now) && w.periodHours == 24 && w.needsNetwork
              && w.notificationType.None?
  {
    EnqueueUniqueKeep(os, WorkName, Work(FetchDelay(d.now), 24, true, None))
  }

  /** `cancel`: only this request goes. */
  function Cancel(os: Os): (r: Os)
    ensures r.alarms == os.alarms && r.tray == os.tray
    ensures r.work.Keys == os.work.Keys - {WorkName}
    ensures forall n :: n in r.work ==> r.work[n] == os.work[n]
  {
    CancelUniqueWork(os, WorkName)
  }

  datatype FetchRun = FetchRun(result: WorkResult, os: Os, store: Store)

  /**
   * `doWork`: refresh; on success look up today's nugget (in the cache the
   * refresh has just written, or with a second request `lookup`) and set the
   * nugget alarm only when there is one. A failed refresh asks to be retried.
   * `throws` says that building the cache threw before anything happened.
   */
  function DoWork(os: Os, d: Device, json: Json, store: Store, today: Date,
                  refresh: FetchOutcome, lookup: FetchOutcome, throws: bool): (r: FetchRun)
    ensures r.result == WorkFailure <==> throws
    ensures r.result == WorkRetry <==> !throws && !Delivered(refresh)
    ensures r.result != WorkSuccess ==> r.os == os && r.store == store
    ensures r.result == WorkSuccess ==>
              && r.store == RefreshDevotionals(json, store, refresh).store
              && r.os.work == os.work && r.os.tray == os.tray
              && var n := GetTodaysNugget(json, r.store, today, lookup).nugget;
              && (n.None? ==> r.os == os)
              && (n.Some? ==> r.os == ScheduleNugget(os, d, n))
  {
    if throws then FetchRun(WorkFailure, os, store)
    else
      var refreshed := RefreshDevotionals(json, store, refresh);
      if refreshed.result.RefreshFailed? then FetchRun(WorkRetry, os, store)
      else
        var nugget := GetTodaysNugget(json, refreshed.store, today, lookup).nugget;
        if nugget.Some? then FetchRun(WorkSuccess, ScheduleNugget(os, d, nugget), refreshed.store)
        else FetchRun(WorkSuccess, os, refreshed.store)
  }

  /**
   * After a successful refresh the nugget comes from the list just saved, in
   * its newest-first order, and no second request is needed: the alarm carries
   * that nugget.
   */
  lemma RefreshedNuggetScheduled(os: Os, d: Device, json: Json, store: Store, today: Date,
                                 refresh: FetchOutcome, lookup: FetchOutcome, nugget: string)
    requires Faithful(json) && Delivered(refresh) && HasNotificationPermission(d)
    requires FindTodaysNugget(RefreshDevotionals(json, store, refresh).result.list, today) == Some(nugget)
    ensures var r := DoWork(os, d, json, store, today, refresh, lookup, false);
            && NuggetRequestCode in r.os.alarms
            && r.os.alarms[NuggetRequestCode].message == nugget
            && GetTodaysNugget(json, r.store, today, lookup).apiCalls == 0
  {
    RefreshSavesWhatItReturns(json, store, refresh);
  }

  /** A failed refresh leaves the alarms, the work and the cache as they were. */
  lemma FailedRefreshSchedulesNothing(os: Os, d: Device, json: Json, store: Store, today: Date,
                                      refresh: FetchOutcome, lookup: FetchOutcome)
    requires !Delivered(refresh)
    ensures DoWork(os, d, json, store, today, refresh, lookup, false) == FetchRun(WorkRetry, os, store)
  {
  }
}

=== FILE: entities.dfy ===
/**
 * `decodeHtmlEntities` of the Android share text: the table of entities it
 * replaces, in the order the chain applies them, and what it makes of the
 * unit test's samples.
 */
module Entities {
  import opened Strings
  import opened Html

  /**
   * The rows of `decodeHtmlEntities` in the order they are applied, with the
   * curly quotes the unit test expects for `&#8220;` and `&#8221;`.
   */
  const EntityTable: seq<Entity> := [
    Entity("&nbsp;", " "),
    Entity("&amp;", "&"),
    Entity("&lt;", "<"),
    Entity("&gt;", ">"),
    Entity("&quot;", "\""),
    Entity("&#039;", "'"),
    Entity("&apos;", "'"),
    Entity("&#8230;", "\U{2026}"),
    Entity("&#8220;", "\U{201C}"),
    Entity("&#8221;", "\U{201D}"),
    Entity("&#8216;", "'"),
    Entity("&#8217;", "'"),
    Entity("&#8211;", "\U{2013}"),
    Entity("&#8212;", "\U{2014}"),
    Entity("&#8226;", "\U{2022}"),
    Entity("&#169;", "\U{A9}"),
    Entity("&#174;", "\U{AE}")
  ]

  /**
   * The sixteen rows the source file's chain amounts to. `"""` opens a Kotlin raw
   * string that runs to the `"""` of the next line, so the left-quote row's text
   * is the source text in between, and there is no `&#8221;` row.
   */
  const AsWrittenTable: seq<Entity> := [
    Entity("&nbsp;", " "),
    Entity("&amp;", "&"),
    Entity("&lt;", "<"),
    Entity("&gt;", ">"),
    Entity("&quot;", "\""),
    Entity("&#039;", "'"),
    Entity("&apos;", "'"),
    Entity("&#8230;", "\U{2026}"),
    Entity("&#8220;", ")  // Left double quote\n        .replace(\"&#8221;\", "),
    Entity("&#8216;", "'"),
    Entity("&#8217;", "'"),
    Entity("&#8211;", "\U{2013}"),
    Entity("&#8212;", "\U{2014}"),
    Entity("&#8226;", "\U{2022}"),
    Entity("&#169;", "\U{A9}"),
    Entity("&#174;", "\U{AE}")
  ]

  /**
   * `decodeHtmlEntities`: the chained replacements followed by `trim()`. Every
   * row shortens what it replaces, and text without `&` is only trimmed.
   */
  function DecodeEntities(s: string): (r: string)
    ensures |r| <= |s|
    ensures '&' !in s ==> r == Trim(s)
  {
    IntendedChainFacts(s);
    Trim(ReplaceEach(s, EntityTable))
  }

  lemma IntendedChainFacts(s: string)
    ensures |ReplaceEach(s, EntityTable)| <= |s|
    ensures '&' !in s ==> ReplaceEach(s, EntityTable) == s
  {
    EntityTableSettles();
    ReplaceEachShortens(s, EntityTable);
    if '&' !in s {
      ReplaceEachWithoutAmpersand(s, EntityTable);
    }
  }

  /**
   * The chain as the source file writes it, with the sixteen rows it amounts
   * to. Text without `&` is only trimmed here too; its `&#8220;` row lengthens
   * what it replaces, so nothing bounds the length of the result.
   */
  function DecodeEntitiesAsWritten(s: string): (r: string)
    ensures '&' !in s ==> r == Trim(s)
  {
    AsWrittenChainFacts(s);
    Trim(ReplaceEach(s, AsWrittenTable))
  }

  lemma AsWrittenChainFacts(s: string)
    ensures '&' !in s ==> ReplaceEach(s, AsWrittenTable) == s
  {
    if '&' !in s {
      assert forall k :: 0 <= k < |AsWrittenTable| ==> |AsWrittenTable[k].code| == 0 || AsWrittenTable[k].code[0] == '&';
      ReplaceEachWithoutAmpersand(s, AsWrittenTable);
    }
  }

  /*
   * The facts about the literal tables below are checked a few rows per lemma,
   * each lemma building on the one before, so that no single proof has to
   * evaluate a whole table.
   */

  lemma RowsSettleFrom14()
    ensures SettlingFrom(EntityTable, 14)
  {
  }

  lemma RowsSettleFrom11()
    ensures SettlingFrom(EntityTable, 11)
  {
    RowsSettleFrom14();
    assert SettlingFrom(EntityTable, 13);
    assert SettlingFrom(EntityTable, 12);
  }

  lemma RowsSettleFrom8()
    ensures SettlingFrom(EntityTable, 8)
  {
    RowsSettleFrom11();
    assert SettlingFrom(EntityTable, 10);
    assert SettlingFrom(EntityTable, 9);
  }

  lemma RowsSettleFrom5()
    ensures SettlingFrom(EntityTable, 5)
  {
    RowsSettleFrom8();
    assert SettlingFrom(EntityTable, 7);
    assert SettlingFrom(EntityTable, 6);
  }

  lemma RowsSettleFrom2()
    ensures SettlingFrom(EntityTable, 2)
  {
    RowsSettleFrom5();
    assert SettlingFrom(EntityTable, 4);
    assert SettlingFrom(EntityTable, 3);
  }

  /** Every row of the intended table is settling. */
  lemma EntityTableSettles()
    ensures Settling(EntityTable)
  {
    RowsSettleFrom2();
    assert SettlingFrom(EntityTable, 0);
    SettlingFromAll(EntityTable, 0);
  }

  lemma TablesWhole()
    ensures EntityTable[0..] == EntityTable && EntityTable[17..] == []
    ensures AsWrittenTable[0..] == AsWrittenTable && AsWrittenTable[16..] == []
  {
  }

  lemma EntityTableDelimited()
    ensures Delimited(EntityTable)
  {
    EntityTableSettles();
  }

  /** The rows after `&amp;`, which see the `&` it leaves behind. */
  lemma LaterRowsDelimited()
    ensures Delimited(EntityTable[2..])
  {
    EntityTableSettles();
    forall k | 0 <= k < |EntityTable[2..]|
      ensures DelimitedRow(EntityTable[2..][k])
    {
      assert EntityTable[2..][k] == EntityTable[k + 2];
    }
  }

  /** Text without `&` passes the intended table unchanged. */
  lemma PlainTextKept(x: string)
    requires '&' !in x
    ensures ReplaceEach(x, EntityTable) == x
  {
    EntityTableDelimited();
    ReplaceEachWithoutAmpersand(x, EntityTable);
  }

  lemma EllipsisPassesLaterRows()
    ensures PassesRows("&#8230;", EntityTable, 4, 7)
  {
    assert PassesRows("&#8230;", EntityTable, 6, 7);
    assert PassesRows("&#8230;", EntityTable, 5, 7);
  }

  lemma EllipsisPassesEarlierRows()
    ensures PassesRows("&#8230;", EntityTable, 0, 7)
  {
    EllipsisPassesLaterRows();
    assert PassesRows("&#8230;", EntityTable, 3, 7);
    assert PassesRows("&#8230;", EntityTable, 2, 7);
    assert PassesRows("&#8230;", EntityTable, 1, 7);
  }

  lemma LeftQuotePassesLaterRows()
    ensures PassesRows("&#8220;", EntityTable, 4, 8)
  {
    assert PassesRows("&#8220;", EntityTable, 7, 8);
    assert PassesRows("&#8220;", EntityTable, 6, 8);
    assert PassesRows("&#8220;", EntityTable, 5, 8);
  }

  lemma LeftQuotePassesEarlierRows()
    ensures PassesRows("&#8220;", EntityTable, 0, 8)
  {
    LeftQuotePassesLaterRows();
    assert PassesRows("&#8220;", EntityTable, 3, 8);
    assert PassesRows("&#8220;", EntityTable, 2, 8);
    assert PassesRows("&#8220;", EntityTable, 1, 8);
  }

  lemma RightQuotePassesLaterRows()
    ensures PassesRows("&#8221;", EntityTable, 5, 9)
  {
    assert PassesRows("&#8221;", EntityTable, 8, 9);
    assert PassesRows("&#8221;", EntityTable, 7, 9);
    assert PassesRows("&#8221;", EntityTable, 6, 9);
  }

  lemma RightQuotePassesEarlierRows()
    ensures PassesRows("&#8221;", EntityTable, 0, 9)
  {
    RightQuotePassesLaterRows();
    assert PassesRows("&#8221;", EntityTable, 4, 9);
    assert PassesRows("&#8221;", EntityTable, 3, 9);
    assert PassesRows("&#8221;", EntityTable, 2, 9);
    assert PassesRows("&#8221;", EntityTable, 1, 9);
  }

  /** `&#8230;` followed by text without `&` decodes to an ellipsis and that text. */
  lemma EllipsisDecoded(rest: string)
    requires '&' !in rest
    ensures ReplaceEach("&#8230;" + rest, EntityTable) == "\U{2026}" + rest
  {
    var t := EntityTable;
    EntityTableSettles();
    EllipsisPassesEarlierRows();
    PassesRowsWithRest("&#8230;", rest, t, 0, 7);
    assert t[7] == Entity("&#8230;", "\U{2026}");
    TablesWhole();
    DecodePiece(t, 0, 7, rest);
  }

  /** `&#8220;` followed by text without `&` decodes to a left double quote and that text. */
  lemma LeftQuoteDecoded(rest: string)
    requires '&' !in rest
    ensures ReplaceEach("&#8220;" + rest, EntityTable) == "\U{201C}" + rest
  {
    var t := EntityTable;
    EntityTableSettles();
    LeftQuotePassesEarlierRows();
    PassesRowsWithRest("&#8220;", rest, t, 0, 8);
    assert t[8] == Entity("&#8220;", "\U{201C}");
    TablesWhole();
    DecodePiece(t, 0, 8, rest);
  }

  /** `&#8221;` followed by text without `&` decodes to a right double quote and that text. */
  lemma RightQuoteDecoded(rest: string)
    requires '&' !in rest
    ensures ReplaceEach("&#8221;" + rest, EntityTable) == "\U{201D}" + rest
  {
    var t := EntityTable;
    EntityTableSettles();
    RightQuotePassesEarlierRows();
    PassesRowsWithRest("&#8221;", rest, t, 0, 9);
    assert t[9] == Entity("&#8221;", "\U{201D}");
    TablesWhole();
    DecodePiece(t, 0, 9, rest);
  }

  /**
   * `&amp;` followed by text without `&` becomes `&` and that text, which only
   * the rows after `&amp;` see again.
   */
  lemma AmpersandDecoded(rest: string)
    requires '&' !in rest
    ensures ReplaceEach("&amp;" + rest, EntityTable) == ReplaceEach("&" + rest, EntityTable[2..])
  {
    var t := EntityTable;
    EntityTableSettles();
    assert PassesRows("&amp;", t, 0, 1);
    PassesRowsWithRest("&amp;", rest, t, 0, 1);
    assert t[1] == Entity("&amp;", "&");
    CodePiece("&amp;", rest);
    SkipRows("&amp;" + rest, t, 0, 1);
    assert t[0..] == t;
    HitRow(rest, t, 1);
  }

  lemma EscapedSpacePassesLastRows()
    ensures PassesRows("&nbsp;", EntityTable, 12, 17)
  {
    assert PassesRows("&nbsp;", EntityTable, 16, 17);
    assert PassesRows("&nbsp;", EntityTable, 15, 17);
    assert PassesRows("&nbsp;", EntityTable, 14, 17);
    assert PassesRows("&nbsp;", EntityTable, 13, 17);
  }

  lemma EscapedSpacePassesMiddleRows()
    ensures PassesRows("&nbsp;", EntityTable, 7, 17)
  {
    EscapedSpacePassesLastRows();
    assert PassesRows("&nbsp;", EntityTable, 11, 17);
    assert PassesRows("&nbsp;", EntityTable, 10, 17);
    assert PassesRows("&nbsp;", EntityTable, 9, 17);
    assert PassesRows("&nbsp;", EntityTable, 8, 17);
  }

  /** The rows after `&amp;` pass `&nbsp;`, since its own row came first. */
  lemma EscapedSpacePassesLaterRows()
    ensures PassesRows("&nbsp;", EntityTable, 2, 17)
  {
    EscapedSpacePassesMiddleRows();
    assert PassesRows("&nbsp;", EntityTable, 6, 17);
    assert PassesRows("&nbsp;", EntityTable, 5, 17);
    assert PassesRows("&nbsp;", EntityTable, 4, 17);
    assert PassesRows("&nbsp;", EntityTable, 3, 17);
  }

  /** `&lt;` decoded by the rows from its own on, which is where `&amp;` leaves it. */
  lemma LessThanDecodedLate(rest: string)
    requires '&' !in rest
    ensures ReplaceEach("&lt;" + rest, EntityTable[2..]) == "<" + rest
  {
    EntityTableSettles();
    assert EntityTable[2] == Entity("&lt;", "<");
    DecodePiece(EntityTable, 2, 2, rest);
  }

  /** `&nbsp;` left behind by `&amp;` passes every later row. */
  lemma EscapedSpaceKeptLate(rest: string)
    requires '&' !in rest
    ensures ReplaceEach("&nbsp;" + rest, EntityTable[2..]) == "&nbsp;" + rest
  {
    EscapedSpacePassesLaterRows();
    PassesRowsWithRest("&nbsp;", rest, EntityTable, 2, 17);
    CodePiece("&nbsp;", rest);
    SkipRows("&nbsp;" + rest, EntityTable, 2, 17);
    TablesWhole();
  }

  /** `&amp;lt;` is `&amp;` followed by the rest of `&lt;`. */
  lemma LessThanSpelled(rest: string)
    ensures "&amp;lt;" + rest == "&amp;" + ("lt;" + rest)
    ensures "&" + ("lt;" + rest) == "&lt;" + rest
  {
  }

  /** `&amp;nbsp;` is `&amp;` followed by the rest of `&nbsp;`. */
  lemma SpaceSpelled(rest: string)
    ensures "&amp;nbsp;" + rest == "&amp;" + ("nbsp;" + rest)
    ensures "&" + ("nbsp;" + rest) == "&nbsp;" + rest
  {
  }

  /** `&amp;lt;` is decoded twice, because the `&lt;` row comes after the `&amp;` row. */
  lemma EscapedLessThanDecoded(rest: string)
    requires '&' !in rest
    ensures ReplaceEach("&amp;lt;" + rest, EntityTable) == "<" + rest
  {
    LessThanSpelled(rest);
    AmpersandDecoded("lt;" + rest);
    LessThanDecodedLate(rest);
  }

  /** `&amp;nbsp;` is decoded once, because the `&nbsp;` row comes before the `&amp;` row. */
  lemma EscapedSpaceDecoded(rest: string)
    requires '&' !in rest
    ensures ReplaceEach("&amp;nbsp;" + rest, EntityTable) == "&nbsp;" + rest
  {
    SpaceSpelled(rest);
    AmpersandDecoded("nbsp;" + rest);
    EscapedSpaceKeptLate(rest);
  }

  lemma BareAmpersandBreaks(rest: string)
    requires '&' !in rest && BreaksEntity(rest)
    ensures Piece("&" + rest) && (|"&" + rest| == 1 || !EntityChar(("&" + rest)[1]))
  {
    var a := "&" + rest;
    assert a[1..] == rest;
    assert |a| > 1 ==> a[1] == rest[0];
  }

  /** An escaped ampersand that starts no entity is decoded to a plain `&`. */
  lemma EscapedAmpersandDecoded(rest: string)
    requires '&' !in rest && BreaksEntity(rest)
    ensures ReplaceEach("&amp;" + rest, EntityTable) == "&" + rest
  {
    AmpersandDecoded(rest);
    LaterRowsDelimited();
    BareAmpersandBreaks(rest);
    BareAmpersandKept("&" + rest, EntityTable[2..]);
  }

  /**
   * Entities are replaced one after another, so an escaped entity is decoded
   * twice when its row comes after `&amp;`: `&amp;lt;` reaches the share sheet
   * as `<`. One whose row comes before it is decoded once: `&amp;nbsp;` stays
   * `&nbsp;`.
   */
  lemma DecodeTwiceEscaped(lt: string, nbsp: string)
    requires lt == "&amp;lt;" && nbsp == "&amp;nbsp;"
    ensures DecodeEntities(lt) == "<"
    ensures DecodeEntities(nbsp) == "&nbsp;"
  {
    EscapedLessThanDecoded("");
    EscapedSpaceDecoded("");
    EscapedSamplesSpelled(lt, nbsp);
  }

  lemma EscapedSamplesSpelled(lt: string, nbsp: string)
    requires lt == "&amp;lt;" && nbsp == "&amp;nbsp;"
    ensures lt == "&amp;lt;" + "" && nbsp == "&amp;nbsp;" + ""
    ensures Trim("<" + "") == "<" && Trim("&nbsp;" + "") == "&nbsp;"
  {
    assert "<" + "" == "<" && "&nbsp;" + "" == "&nbsp;";
    TrimOfTrimmed("<");
    TrimOfTrimmed("&nbsp;");
  }

  lemma Regrouped(x: string, p1: string, p2: string, p3: string, p4: string)
    ensures x + p1 + p2 + p3 + p4 == x + (p1 + (p2 + (p3 + p4)))
  {
  }

  /** Pieces that each start with an entity decode one after another. */
  lemma SamplePiecesSplit(x: string, p1: string, p2: string, p3: string, p4: string)
    requires |p1| > 0 && |p2| > 0 && |p3| > 0 && |p4| > 0
    requires p1[0] == '&' && p2[0] == '&' && p3[0] == '&' && p4[0] == '&'
    ensures ReplaceEach(x + (p1 + (p2 + (p3 + p4))), EntityTable)
         == ReplaceEach(x, EntityTable) + (ReplaceEach(p1, EntityTable) + (ReplaceEach(p2, EntityTable)
            + (ReplaceEach(p3, EntityTable) + ReplaceEach(p4, EntityTable))))
  {
    EntityTableDelimited();
    ReplaceEachSplit(p3, p4, EntityTable);
    assert (p3 + p4)[0] == '&';
    ReplaceEachSplit(p2, p3 + p4, EntityTable);
    assert (p2 + (p3 + p4))[0] == '&';
    ReplaceEachSplit(p1, p2 + (p3 + p4), EntityTable);
    assert (p1 + (p2 + (p3 + p4)))[0] == '&';
    ReplaceEachSplit(x, p1 + (p2 + (p3 + p4)), EntityTable);
  }

  /**
   * Text laid out like the unit test's sample: plain text, then an ellipsis, an
   * escaped ampersand, a left and a right quote, each followed by text without
   * `&`. Every entity is decoded, the quotes to curly quotes.
   */
  lemma DecodeSampleShape(x: string, r1: string, r2: string, r3: string, r4: string)
    requires '&' !in x && '&' !in r1 && '&' !in r2 && '&' !in r3 && '&' !in r4 && BreaksEntity(r2)
    ensures ReplaceEach(x + ("&#8230;" + r1) + ("&amp;" + r2) + ("&#8220;" + r3) + ("&#8221;" + r4), EntityTable)
         == x + ("\U{2026}" + r1) + ("&" + r2) + ("\U{201C}" + r3) + ("\U{201D}" + r4)
  {
    var p1, p2, p3, p4 := "&#8230;" + r1, "&amp;" + r2, "&#8220;" + r3, "&#8221;" + r4;
    Regrouped(x, p1, p2, p3, p4);
    Regrouped(x, "\U{2026}" + r1, "&" + r2, "\U{201C}" + r3, "\U{201D}" + r4);
    SamplePiecesSplit(x, p1, p2, p3, p4);
    PlainTextKept(x);
    EllipsisDecoded(r1);
    EscapedAmpersandDecoded(r2);
    LeftQuoteDecoded(r3);
    RightQuoteDecoded(r4);
  }

  /** The sample of the unit test for the share text, decoded as the test expects. */
  lemma DecodeTestSample(s: string)
    requires s == "Here&#8230; some text " + "&amp; quotes " + "&#8220;hello&#8221;"
    ensures DecodeEntities(s) == "Here\U{2026} some text & quotes \U{201C}hello\U{201D}"
  {
    var x, r1, r2, r3, r4 := "Here", " some text ", " quotes ", "hello", "";
    SampleLaidOut(s, x, r1, r2, r3, r4);
    DecodeSampleShape(x, r1, r2, r3, r4);
  }

  lemma SampleLaidOut(s: string, x: string, r1: string, r2: string, r3: string, r4: string)
    requires s == "Here&#8230; some text " + "&amp; quotes " + "&#8220;hello&#8221;"
    requires x == "Here" && r1 == " some text " && r2 == " quotes " && r3 == "hello" && r4 == ""
    ensures s == x + ("&#8230;" + r1) + ("&amp;" + r2) + ("&#8220;" + r3) + ("&#8221;" + r4)
    ensures Trim(x + ("\U{2026}" + r1) + ("&" + r2) + ("\U{201C}" + r3) + ("\U{201D}" + r4))
         == "Here\U{2026} some text & quotes \U{201C}hello\U{201D}"
    ensures '&' !in x && '&' !in r1 && '&' !in r2 && '&' !in r3 && '&' !in r4 && BreaksEntity(r2)
  {
    SampleInputHalves(x, r1, r2, r3, r4);
    SampleOutputHalves(x, r1, r2, r3, r4);
    SampleOutputTrimmed();
  }

  lemma SampleInputHalves(x: string, r1: string, r2: string, r3: string, r4: string)
    requires x == "Here" && r1 == " some text " && r2 == " quotes " && r3 == "hello" && r4 == ""
    ensures x + ("&#8230;" + r1) == "Here&#8230; some text "
    ensures "&amp;" + r2 == "&amp; quotes "
    ensures ("&#8220;" + r3) + ("&#8221;" + r4) == "&#8220;hello&#8221;"
  {
  }

  lemma SampleOutputHalves(x: string, r1: string, r2: string, r3: string, r4: string)
    requires x == "Here" && r1 == " some text " && r2 == " quotes " && r3 == "hello" && r4 == ""
    ensures x + ("\U{2026}" + r1) + ("&" + r2) + ("\U{201C}" + r3) + ("\U{201D}" + r4)
         == "Here\U{2026} some text " + "& quotes \U{201C}hello\U{201D}"
  {
    assert x + ("\U{2026}" + r1) == "Here\U{2026} some text ";
    assert ("&" + r2) + ("\U{201C}" + r3) + ("\U{201D}" + r4) == "& quotes \U{201C}hello\U{201D}";
  }

  lemma SampleOutputTrimmed()
    ensures Trim("Here\U{2026} some text " + "& quotes \U{201C}hello\U{201D}")
         == "Here\U{2026} some text & quotes \U{201C}hello\U{201D}"
  {
    var d := "Here\U{2026} some text " + "& quotes \U{201C}hello\U{201D}";
    assert d == "Here\U{2026} some text & quotes \U{201C}hello\U{201D}";
    TrimOfTrimmed(d);
  }

  lemma RightQuotePassesLastAsWrittenRows()
    ensures PassesRows("&#8221;", AsWrittenTable, 11, 16)
  {
    assert PassesRows("&#8221;", AsWrittenTable, 15, 16);
    assert PassesRows("&#8221;", AsWrittenTable, 14, 16);
    assert PassesRows("&#8221;", AsWrittenTable, 13, 16);
    assert PassesRows("&#8221;", AsWrittenTable, 12, 16);
  }

  lemma RightQuotePassesMiddleAsWrittenRows()
    ensures PassesRows("&#8221;", AsWrittenTable, 6, 16)
  {
    RightQuotePassesLastAsWrittenRows();
    assert PassesRows("&#8221;", AsWrittenTable, 10, 16);
    assert PassesRows("&#8221;", AsWrittenTable, 9, 16);
    assert PassesRows("&#8221;", AsWrittenTable, 8, 16);
    assert PassesRows("&#8221;", AsWrittenTable, 7, 16);
  }

  /** The as-written table's rows all pass `&#8221;`: none of them is its row. */
  lemma RightQuotePassesAsWrittenRows()
    ensures PassesRows("&#8221;", AsWrittenTable, 0, 16)
  {
    RightQuotePassesMiddleAsWrittenRows();
    assert PassesRows("&#8221;", AsWrittenTable, 5, 16);
    assert PassesRows("&#8221;", AsWrittenTable, 4, 16);
    assert PassesRows("&#8221;", AsWrittenTable, 3, 16);
    assert PassesRows("&#8221;", AsWrittenTable, 2, 16);
    assert PassesRows("&#8221;", AsWrittenTable, 1, 16);
  }

  lemma RightQuoteCode()
    ensures EntityCharsFrom("&#8221;", 1)
    ensures ClosesAtFirstSemicolon("&#8221;", 0)
  {
    assert ClosesAtFirstSemicolon("&#8221;", 6);
    assert ClosesAtFirstSemicolon("&#8221;", 3);
  }

  /** `&#8221;` followed by text without `&` passes every row of the as-written table. */
  lemma RightQuotePassesAsWritten(rest: string)
    requires '&' !in rest
    ensures ReplaceEach("&#8221;" + rest, AsWrittenTable) == "&#8221;" + rest
  {
    RightQuotePassesAsWrittenRows();
    RightQuoteCode();
    PassesRowsWithRest("&#8221;", rest, AsWrittenTable, 0, 16);
    CodePiece("&#8221;", rest);
    SkipRows("&#8221;" + rest, AsWrittenTable, 0, 16);
    TablesWhole();
  }

  /**
   * As the source file is written, `&#8221;` has no row: followed by text
   * without `&` it passes the whole chain unchanged, where the intended table
   * gives a right double quote.
   */
  lemma RightQuoteKeptAsWritten(rest: string)
    requires '&' !in rest
    ensures ReplaceEach("&#8221;" + rest, AsWrittenTable) == "&#8221;" + rest
    ensures ReplaceEach("&#8221;" + rest, EntityTable) == "\U{201D}" + rest
  {
    RightQuotePassesAsWritten(rest);
    RightQuoteDecoded(rest);
  }
}

=== FILE: html.dfy ===
/**
 * Plain-text views of the HTML fragments the WordPress API returns: removal of
 * tags by a regular expression, and the fixed entity table the Android share text
 * decodes.
 *
 * Two tag patterns are in use. Kotlin's `Regex("<.*?>")` (java.util.regex, no
 * flags) matches `<`, then as few characters as possible that are not line
 * terminators, then `>`. Swift's `<[^>]+>` (ICU) matches `<`, at least one
 * character other than `>` (line breaks included), then `>`. Both are applied by
 * a "replace all" that scans left to right and resumes after each match.
 */
module Html {
  import opened Wrappers
  import opened Strings

  datatype TagPattern =
    | LazyAnyOnLine     // Kotlin `<.*?>`
    | OneOrMoreNonClose // Swift `<[^>]+>`

  /** java.util.regex line terminators, which `.` does not match without DOTALL. */
  predicate IsLineTerminator(c: char) {
    c == '\n' || c == '\r' || c == '\U{85}' || c == '\U{2028}' || c == '\U{2029}'
  }

  /**
   * The pattern matches exactly `s[..j + 1]`: an opening `<` at 0, the closing
   * `>` at `j`, and in between what the pattern's middle part accepts.
   */
  predicate PatternMatches(p: TagPattern, s: string, j: int) {
    && 1 <= j < |s|
    && s[0] == '<'
    && s[j] == '>'
    && match p
       case LazyAnyOnLine => forall k :: 1 <= k < j ==> !IsLineTerminator(s[k])
       case OneOrMoreNonClose => j >= 2 && forall k :: 1 <= k < j ==> s[k] != '>'
  }

  /**
   * Index of the first `>` in `t`, giving up at a line terminator when
   * `stopAtLineEnd` holds.
   */
  function FindClose(t: string, stopAtLineEnd: bool): (r: Option<nat>)
    ensures r.Some? ==> r.value < |t| && t[r.value] == '>'
                        && forall m :: 0 <= m < r.value ==> t[m] != '>' && !(stopAtLineEnd && IsLineTerminator(t[m]))
    ensures r.None? ==> forall k :: 0 <= k < |t| && t[k] == '>' ==>
                          stopAtLineEnd && exists m :: 0 <= m < k && IsLineTerminator(t[m])
    decreases |t|
  {
    if |t| == 0 then None
    else if t[0] == '>' then Some(0)
    else if stopAtLineEnd && IsLineTerminator(t[0]) then None
    else
      match FindClose(t[1..], stopAtLineEnd)
      case Some(k) => Some(k + 1)
      case None =>
        assert forall k :: 1 <= k < |t| && t[k] == '>' ==>
          stopAtLineEnd && exists m :: 0 <= m < k && IsLineTerminator(t[m]) by {
          forall k | 1 <= k < |t| && t[k] == '>'
            ensures stopAtLineEnd && exists m :: 0 <= m < k && IsLineTerminator(t[m])
          {
            assert t[1..][k - 1] == '>';
            var m :| 0 <= m < k - 1 && IsLineTerminator(t[1..][m]);
            assert IsLineTerminator(t[m + 1]);
          }
        }
        None
  }

  /** Where the match closes, given the text `t` that follows an opening `<`. */
  function CloseAfterOpen(p: TagPattern, t: string): Option<nat>
  {
    match p
    case LazyAnyOnLine => FindClose(t, true)
    case OneOrMoreNonClose =>
      if |t| == 0 || t[0] == '>' then None
      else
        match FindClose(t[1..], false)
        case Some(k) => Some(k + 1)
        case None => None
  }

  /**
   * The end of the match the regex engine picks at the start of `s`, if any:
   * the shortest one for the lazy pattern, the only one for the other.
   */
  function TagEnd(p: TagPattern, s: string): (r: Option<nat>)
    ensures r.Some? ==> PatternMatches(p, s, r.value)
                        && forall j :: 0 <= j < r.value ==> !PatternMatches(p, s, j)
    ensures r.None? ==> forall j :: !PatternMatches(p, s, j)
  {
    if |s| == 0 || s[0] != '<' then None
    else
      var t := s[1..];
      match CloseAfterOpen(p, t)
      case Some(k) =>
        assert forall m :: 1 <= m < k + 1 ==> s[m] == t[m - 1];
        Some(k + 1)
      case None => None
  }

  /** `replace(Regex(pattern), "")`: every match the left-to-right scan finds is deleted. */
  function StripTags(p: TagPattern, s: string): (r: string)
    ensures |r| <= |s|
    decreases |s|
  {
    if |s| == 0 then []
    else
      match TagEnd(p, s)
      case Some(j) => StripTags(p, s[j + 1..])
      case None => [s[0]] + StripTags(p, s[1..])
  }

  /** No position of `s` starts a match: stripping has nothing left to do. */
  predicate TagFree(p: TagPattern, s: string) {
    forall i :: 0 <= i < |s| ==> TagEnd(p, s[i..]).None?
  }

  /** Stripping keeps characters in order and never invents one. */
  lemma {:induction false} StripTagsKeepsCharacters(p: TagPattern, s: string)
    ensures forall k :: 0 <= k < |StripTags(p, s)| ==> StripTags(p, s)[k] in s
    decreases |s|
  {
    if |s| > 0 {
      match TagEnd(p, s)
      case Some(j) =>
        StripTagsKeepsCharacters(p, s[j + 1..]);
        forall k | 0 <= k < |StripTags(p, s)| ensures StripTags(p, s)[k] in s {
          var c := StripTags(p, s[j + 1..])[k];
          assert c in s[j + 1..];
        }
      case None =>
        StripTagsKeepsCharacters(p, s[1..]);
        forall k | 0 <= k < |StripTags(p, s)| ensures StripTags(p, s)[k] in s {
          if k > 0 {
            var c := StripTags(p, s[1..])[k - 1];
            assert c in s[1..];
          }
        }
    }
  }

  /** Text without any `<` is left exactly as it was. */
  lemma {:induction false} StripTagsWithoutOpen(p: TagPattern, s: string)
    requires '<' !in s
    ensures StripTags(p, s) == s
    decreases |s|
  {
    if |s| > 0 {
      assert s[1..] + [] == s[1..];
      assert '<' !in s[1..] by {
        forall k | 0 <= k < |s| - 1 ensures s[1..][k] != '<' {
          assert s[k + 1] in s;
        }
      }
      StripTagsWithoutOpen(p, s[1..]);
    }
  }

  /**
   * If nothing closes after an opening `<` in `t`, nothing closes after it in the
   * stripped `t` either: stripping cannot bring a `>` closer.
   */
  lemma {:induction false} NoCloseSurvivesStripping(p: TagPattern, t: string)
    requires CloseAfterOpen(p, t).None?
    ensures CloseAfterOpen(p, StripTags(p, t)).None?
    decreases |t|
  {
    var r := StripTags(p, t);
    if |t| == 0 {
      return;
    }
    assert t[0] != '<' ==> TagEnd(p, t).None?;
    match p
    case LazyAnyOnLine =>
      if IsLineTerminator(t[0]) {
        assert r == [t[0]] + StripTags(p, t[1..]);
      } else {
        assert FindClose(t[1..], true).None?;
        assert r == [t[0]] + StripTags(p, t[1..]);
        NoCloseSurvivesStripping(p, t[1..]);
        assert r[1..] == StripTags(p, t[1..]);
      }
    case OneOrMoreNonClose =>
      if t[0] == '>' {
        assert r == [t[0]] + StripTags(p, t[1..]);
      } else {
        assert forall k :: 0 <= k < |t| ==> t[k] != '>' by {
          forall k | 0 <= k < |t| ensures t[k] != '>' {
            if k > 0 {
              assert t[1..][k - 1] == t[k];
            }
          }
        }
        StripTagsKeepsCharacters(p, t);
        assert forall k :: 0 <= k < |r| ==> r[k] != '>';
        if |r| > 0 && r[0] != '>' {
          assert forall k :: 0 <= k < |r| - 1 ==> r[1..][k] != '>';
        }
      }
  }

  /** A `replace(Regex(pattern), "")` leaves nothing the pattern would match. */
  lemma {:induction false} StripTagsIsTagFree(p: TagPattern, s: string)
    ensures TagFree(p, StripTags(p, s))
    decreases |s|
  {
    if |s| > 0 {
      match TagEnd(p, s)
      case Some(j) =>
        StripTagsIsTagFree(p, s[j + 1..]);
        DroppedTagStaysTagFree(p, s, j);
      case None =>
        StripTagsIsTagFree(p, s[1..]);
        KeptCharacterStaysTagFree(p, s);
    }
  }

  /** When `s` starts with a match, stripping `s` is stripping what follows the match. */
  lemma DroppedTagStaysTagFree(p: TagPattern, s: string, j: nat)
    requires TagEnd(p, s) == Some(j) && j < |s| && TagFree(p, StripTags(p, s[j + 1..]))
    ensures TagFree(p, StripTags(p, s))
  {
    StripDroppedTag(p, s, j);
  }

  lemma StripDroppedTag(p: TagPattern, s: string, j: nat)
    requires TagEnd(p, s) == Some(j) && j < |s|
    ensures StripTags(p, s) == StripTags(p, s[j + 1..])
  {
  }

  /** When `s` starts no match, its first character is kept and starts none in the result. */
  lemma KeptCharacterStaysTagFree(p: TagPattern, s: string)
    requires |s| > 0 && TagEnd(p, s).None? && TagFree(p, StripTags(p, s[1..]))
    ensures TagFree(p, StripTags(p, s))
  {
    var rest := StripTags(p, s[1..]);
    assert StripTags(p, s) == [s[0]] + rest;
    if s[0] == '<' {
      assert CloseAfterOpen(p, s[1..]).None?;
      NoCloseSurvivesStripping(p, s[1..]);
    }
    TagEndOfCons(p, s[0], rest);
    ConsKeepsTagFree(p, s[0], rest);
  }

  /** A character other than `<`, or a `<` with nothing closing after it, starts no match. */
  lemma TagEndOfCons(p: TagPattern, c: char, u: string)
    requires c == '<' ==> CloseAfterOpen(p, u).None?
    ensures TagEnd(p, [c] + u).None?
  {
    assert ([c] + u)[1..] == u;
  }

  /** A character that starts no match keeps tag-free text tag free. */
  lemma ConsKeepsTagFree(p: TagPattern, c: char, rest: string)
    requires TagFree(p, rest) && TagEnd(p, [c] + rest).None?
    ensures TagFree(p, [c] + rest)
  {
    var r := [c] + rest;
    forall i | 0 <= i < |r| ensures TagEnd(p, r[i..]).None? {
      if i > 0 {
        assert r[i..] == rest[i - 1..];
      } else {
        assert r[i..] == r;
      }
    }
  }

  /** Text that is already tag free is a fixed point of stripping. */
  lemma {:induction false} StripTagsOfTagFree(p: TagPattern, s: string)
    requires TagFree(p, s)
    ensures StripTags(p, s) == s
    decreases |s|
  {
    if |s| > 0 {
      assert s[0..] == s;
      assert TagFree(p, s[1..]) by {
        forall i | 0 <= i < |s| - 1 ensures TagEnd(p, s[1..][i..]).None? {
          assert s[1..][i..] == s[i + 1..];
        }
      }
      StripTagsOfTagFree(p, s[1..]);
    }
  }

  /** Stripping twice is stripping once. */
  lemma StripTagsIdempotent(p: TagPattern, s: string)
    ensures StripTags(p, StripTags(p, s)) == StripTags(p, s)
  {
    StripTagsIsTagFree(p, s);
    StripTagsOfTagFree(p, StripTags(p, s));
  }

  /** The two platforms disagree on an empty tag. */
  lemma PatternsDiffer()
    ensures StripTags(LazyAnyOnLine, "<>") == ""
    ensures StripTags(OneOrMoreNonClose, "<>") == "<>"
  {
    assert "<>"[1..] == ">";
  }

  /** The two platforms disagree on a tag broken across lines. */
  lemma PatternsDifferAcrossLines()
    ensures StripTags(LazyAnyOnLine, "<a\nb>") == "<a\nb>"
    ensures StripTags(OneOrMoreNonClose, "<a\nb>") == ""
  {
    assert "<a\nb>"[1..] == "a\nb>";
    assert "<a\nb>"[1..][1..] == "\nb>";
  }

  /** A tag body: one character or more, none of them `>` or a line terminator. */
  predicate PlainTagBody(body: string) {
    |body| > 0 && forall k :: 0 <= k < |body| ==> body[k] != '>' && !IsLineTerminator(body[k])
  }

  /** Both patterns match a one-line tag `<body>` exactly, and stripping drops it. */
  lemma LeadingTagDropped(p: TagPattern, body: string, rest: string)
    requires PlainTagBody(body)
    ensures TagEnd(p, "<" + body + ">" + rest) == Some(|body| + 1)
    ensures StripTags(p, "<" + body + ">" + rest) == StripTags(p, rest)
  {
    var s := "<" + body + ">" + rest;
    assert forall k :: 1 <= k <= |body| ==> s[k] == body[k - 1];
    assert PatternMatches(p, s, |body| + 1);
    assert s[|body| + 2..] == rest;
  }

  /** Text without `<` passes through stripping unchanged. */
  lemma {:induction false} PlainTextKeptBefore(p: TagPattern, text: string, rest: string)
    requires '<' !in text
    ensures StripTags(p, text + rest) == text + StripTags(p, rest)
    decreases |text|
  {
    if |text| > 0 {
      var u := text + rest;
      assert u[0] == text[0] && text[0] != '<';
      assert TagEnd(p, u).None?;
      assert u[1..] == text[1..] + rest;
      assert '<' !in text[1..];
      PlainTextKeptBefore(p, text[1..], rest);
      calc {
        StripTags(p, u);
        [u[0]] + StripTags(p, u[1..]);
        [text[0]] + (text[1..] + StripTags(p, rest));
        { SeqAssoc([text[0]], text[1..], StripTags(p, rest)); }
        ([text[0]] + text[1..]) + StripTags(p, rest);
        { assert [text[0]] + text[1..] == text; }
        text + StripTags(p, rest);
      }
    } else {
      assert text + rest == rest;
    }
  }

  /** The title sample of the model tests loses both of its tags. */
  lemma StripSampleTitle(s: string)
    requires s == "<strong>Test</strong> Title"
    ensures StripTags(LazyAnyOnLine, s) == "Test Title"
  {
    var open, close, word, tail := "strong", "/strong", "Test", " Title";
    SampleTitleLaidOut(s, open, close, word, tail);
    SampleTitlePieces(open, close, word, tail);
    var after := "<" + close + ">" + tail;
    LeadingTagDropped(LazyAnyOnLine, open, word + after);
    PlainTextKeptBefore(LazyAnyOnLine, word, after);
    LeadingTagDropped(LazyAnyOnLine, close, tail);
    PlainTextKeptBefore(LazyAnyOnLine, tail, []);
    assert tail + [] == tail;
  }

  lemma SampleTitleLaidOut(s: string, open: string, close: string, word: string, tail: string)
    requires s == "<strong>Test</strong> Title"
    requires open == "strong" && close == "/strong" && word == "Test" && tail == " Title"
    ensures s == "<" + open + ">" + (word + ("<" + close + ">" + tail))
    ensures word + tail == "Test Title"
  {
  }

  lemma SampleTitlePieces(open: string, close: string, word: string, tail: string)
    requires open == "strong" && close == "/strong" && word == "Test" && tail == " Title"
    ensures PlainTagBody(open) && PlainTagBody(close) && '<' !in word && '<' !in tail
  {
  }

  /**
   * Swift's `String.stripHTMLTags`: every `<[^>]+>` match deleted, tags that
   * span lines included; text without `<` comes back as it was, and the result
   * holds no further match.
   */
  function StripHtmlTags(s: string): (r: string)
    ensures TagFree(OneOrMoreNonClose, r)
    ensures StripTags(OneOrMoreNonClose, r) == r
    ensures '<' !in s ==> r == s
  {
    StripTagsIsTagFree(OneOrMoreNonClose, s);
    StripTagsOfTagFree(OneOrMoreNonClose, StripTags(OneOrMoreNonClose, s));
    if '<' !in s then
      StripTagsWithoutOpen(OneOrMoreNonClose, s);
      StripTags(OneOrMoreNonClose, s)
    else StripTags(OneOrMoreNonClose, s)
  }

  /** One row of a decoding table: the entity as the source spells it, and its replacement. */
  datatype Entity = Entity(code: string, text: string)

  /** Chained `replace` calls, one per table row, in table order. */
  function ReplaceEach(s: string, table: seq<Entity>): string
    decreases |table|
  {
    if table == [] then s
    else if |table[0].code| == 0 then ReplaceEach(s, table[1..])
    else ReplaceEach(ReplaceAll(s, table[0].code, table[0].text), table[1..])
  }

  /** Chained replacements leave text without an ampersand untouched. */
  lemma {:induction false} ReplaceEachWithoutAmpersand(s: string, table: seq<Entity>)
    requires '&' !in s
    requires forall k :: 0 <= k < |table| ==> |table[k].code| == 0 || table[k].code[0] == '&'
    ensures ReplaceEach(s, table) == s
    decreases |table|
  {
    if table != [] {
      var e := table[0];
      if |e.code| > 0 {
        ReplaceAllWithoutAmpersand(s, e.code, e.text);
      }
      assert forall k :: 0 <= k < |table[1..]| ==> table[1..][k] == table[k + 1];
      ReplaceEachWithoutAmpersand(s, table[1..]);
    }
  }

  /** Characters that can follow the `&` of an entity: ASCII letters and digits, `#` and `;`. */
  predicate EntityChar(c: char) {
    'a' <= c <= 'z' || 'A' <= c <= 'Z' || '0' <= c <= '9' || c == '#' || c == ';'
  }

  /** Every character of `s` from index `j` on is an entity character, checked one by one. */
  predicate EntityCharsFrom(s: string, j: nat)
    decreases |s| - j
  {
    j >= |s| || (EntityChar(s[j]) && EntityCharsFrom(s, j + 1))
  }

  /** No character of `s` from index `j` on is `&`, checked one by one. */
  predicate NoAmpersandFrom(s: string, j: nat)
    decreases |s| - j
  {
    j >= |s| || (s[j] != '&' && NoAmpersandFrom(s, j + 1))
  }

  lemma {:induction false} EntityCharsFromAll(s: string, j: nat)
    requires EntityCharsFrom(s, j)
    ensures forall k :: j <= k < |s| ==> EntityChar(s[k])
    decreases |s| - j
  {
    if j < |s| {
      EntityCharsFromAll(s, j + 1);
    }
  }

  lemma {:induction false} NoAmpersandFromAll(s: string, j: nat)
    requires NoAmpersandFrom(s, j)
    ensures forall k :: j <= k < |s| ==> s[k] != '&'
    decreases |s| - j
  {
    if j < |s| {
      NoAmpersandFromAll(s, j + 1);
    }
  }

  /** From index `j` on, the first `;` of `c` is its last character; checked one by one. */
  predicate ClosesAtFirstSemicolon(c: string, j: nat)
    decreases |c| - j
  {
    j < |c| && (if c[j] == ';' then j == |c| - 1 else ClosesAtFirstSemicolon(c, j + 1))
  }

  lemma {:induction false} ClosesAtFirstSemicolonAll(c: string, j: nat)
    requires ClosesAtFirstSemicolon(c, j)
    ensures j < |c| && c[|c| - 1] == ';' && forall k :: j <= k < |c| - 1 ==> c[k] != ';'
    decreases |c| - j
  {
    if c[j] != ';' {
      ClosesAtFirstSemicolonAll(c, j + 1);
    }
  }

  /**
   * An entity code that starts a piece made of another entity code and more
   * text is that code: both end at their first `;`.
   */
  lemma CodeStartingPiece(c: string, rest: string, p: string)
    requires ClosesAtFirstSemicolon(c, 0) && ClosesAtFirstSemicolon(p, 0)
    ensures StartsWith(c + rest, p) ==> p == c
  {
    ClosesAtFirstSemicolonAll(c, 0);
    ClosesAtFirstSemicolonAll(p, 0);
    var q := c + rest;
    if StartsWith(q, p) {
      assert forall k :: 0 <= k < |p| ==> q[k] == p[k] by {
        assert forall k :: 0 <= k < |p| ==> q[..|p|][k] == q[k];
      }
      assert |p| - 1 < |c| ==> c[|p| - 1] == ';' by {
        if |p| - 1 < |c| {
          assert q[|p| - 1] == c[|p| - 1];
        }
      }
      assert |c| - 1 < |p| ==> p[|c| - 1] == ';' by {
        if |c| - 1 < |p| {
          assert q[|c| - 1] == c[|c| - 1];
        }
      }
      assert |p| == |c|;
      assert forall k :: 0 <= k < |p| ==> p[k] == c[k] by {
        assert forall k :: 0 <= k < |c| ==> q[k] == c[k];
      }
    }
  }

  /**
   * A row is delimited when its code is `&` followed by entity characters, the
   * first `;` among them ending it, and its text is non-empty and starts with a character that cannot continue an entity.
   */
  predicate DelimitedRow(e: Entity) {
    |e.code| > 1 && e.code[0] == '&' && EntityCharsFrom(e.code, 1) && ClosesAtFirstSemicolon(e.code, 0)
    && |e.text| > 0 && !EntityChar(e.text[0])
  }

  /**
   * A delimited row whose text is no longer than its code and holds no `&` after
   * its first character: a piece it replaces is either finished or, for `&amp;`,
   * a new piece.
   */
  predicate SettlingRow(e: Entity) {
    DelimitedRow(e) && |e.text| <= |e.code| && NoAmpersandFrom(e.text, 1)
  }

  predicate Delimited(table: seq<Entity>) {
    forall k :: 0 <= k < |table| ==> DelimitedRow(table[k])
  }

  predicate Settling(table: seq<Entity>) {
    forall k :: 0 <= k < |table| ==> SettlingRow(table[k])
  }

  /** Settling rows from index `i` on, checked one by one. */
  predicate SettlingFrom(table: seq<Entity>, i: nat)
    decreases |table| - i
  {
    i >= |table| || (SettlingRow(table[i]) && SettlingFrom(table, i + 1))
  }

  lemma {:induction false} SettlingFromAll(table: seq<Entity>, i: nat)
    requires SettlingFrom(table, i)
    ensures forall k :: i <= k < |table| ==> SettlingRow(table[k])
    decreases |table| - i
  {
    if i < |table| {
      SettlingFromAll(table, i + 1);
    }
  }

  /** `y` is empty or starts with a character that cannot continue an entity. */
  predicate BreaksEntity(y: string) {
    y == [] || !EntityChar(y[0])
  }

  /** Replacing a code that starts with `&` leaves text without `&` untouched. */
  lemma {:induction false} ReplaceAllWithoutAmpersand(t: string, p: string, r: string)
    requires |p| > 0 && p[0] == '&' && '&' !in t
    ensures ReplaceAll(t, p, r) == t
    decreases |t|
  {
    if |t| >= |p| {
      assert t[..|p|][0] != p[0];
      ReplaceAllWithoutAmpersand(t[1..], p, r);
    }
  }

  /** A code of entity characters after its first cannot start before `x` ends and run into `y`. */
  lemma NoMatchAcrossSeam(x: string, y: string, p: string)
    requires 0 < |x| < |p| <= |x| + |y|
    requires EntityCharsFrom(p, 1) && BreaksEntity(y)
    ensures (x + y)[..|p|] != p
  {
    EntityCharsFromAll(p, 1);
    assert (x + y)[..|p|][|x|] == y[0];
  }

  lemma SeqAssoc(a: string, b: string, c: string)
    ensures a + (b + c) == (a + b) + c
  {
  }

  /** The step of `ReplaceAllSplit` when `x` is shorter than the code. */
  lemma SplitShortHead(x: string, y: string, p: string, r: string)
    requires 0 < |x| < |p| && EntityCharsFrom(p, 1) && BreaksEntity(y)
    requires ReplaceAll(x[1..] + y, p, r) == ReplaceAll(x[1..], p, r) + ReplaceAll(y, p, r)
    ensures ReplaceAll(x + y, p, r) == ReplaceAll(x, p, r) + ReplaceAll(y, p, r)
  {
    var s := x + y;
    if |s| >= |p| {
      NoMatchAcrossSeam(x, y, p);
      assert s[1..] == x[1..] + y;
      var a, b := ReplaceAll(x[1..], p, r), ReplaceAll(y, p, r);
      calc {
        ReplaceAll(s, p, r);
        [x[0]] + ReplaceAll(x[1..] + y, p, r);
        [x[0]] + (a + b);
        { SeqAssoc([x[0]], a, b); }
        ([x[0]] + a) + b;
        { assert a == x[1..]; assert [x[0]] + x[1..] == x; }
        ReplaceAll(x, p, r) + b;
      }
    }
  }

  /** The step of `ReplaceAllSplit` when `x` starts with the code. */
  lemma SplitMatchHead(x: string, y: string, p: string, r: string)
    requires 0 < |p| <= |x| && x[..|p|] == p
    requires ReplaceAll(x[|p|..] + y, p, r) == ReplaceAll(x[|p|..], p, r) + ReplaceAll(y, p, r)
    ensures ReplaceAll(x + y, p, r) == ReplaceAll(x, p, r) + ReplaceAll(y, p, r)
  {
    var s := x + y;
    assert s[..|p|] == x[..|p|];
    assert s[|p|..] == x[|p|..] + y;
  }

  /** The step of `ReplaceAllSplit` when `x` is long enough but does not start with the code. */
  lemma SplitPlainHead(x: string, y: string, p: string, r: string)
    requires 0 < |p| <= |x| && x[..|p|] != p
    requires ReplaceAll(x[1..] + y, p, r) == ReplaceAll(x[1..], p, r) + ReplaceAll(y, p, r)
    ensures ReplaceAll(x + y, p, r) == ReplaceAll(x, p, r) + ReplaceAll(y, p, r)
  {
    var s := x + y;
    assert s[..|p|] == x[..|p|];
    assert s[1..] == x[1..] + y;
    var a, b := ReplaceAll(x[1..], p, r), ReplaceAll(y, p, r);
    calc {
      ReplaceAll(s, p, r);
      [x[0]] + ReplaceAll(x[1..] + y, p, r);
      [x[0]] + (a + b);
      { SeqAssoc([x[0]], a, b); }
      ([x[0]] + a) + b;
      ReplaceAll(x, p, r) + b;
    }
  }

  /**
   * Replacing a code of entity characters distributes over a concatenation whose
   * second part cannot continue an entity: no occurrence straddles the seam.
   */
  lemma {:induction false} ReplaceAllSplit(x: string, y: string, p: string, r: string)
    requires |p| > 0 && EntityCharsFrom(p, 1) && BreaksEntity(y)
    ensures ReplaceAll(x + y, p, r) == ReplaceAll(x, p, r) + ReplaceAll(y, p, r)
    decreases |x|
  {
    if |x| == 0 {
      assert x + y == y;
    } else if |x| < |p| {
      ReplaceAllSplit(x[1..], y, p, r);
      SplitShortHead(x, y, p, r);
    } else if x[..|p|] == p {
      ReplaceAllSplit(x[|p|..], y, p, r);
      SplitMatchHead(x, y, p, r);
    } else {
      ReplaceAllSplit(x[1..], y, p, r);
      SplitPlainHead(x, y, p, r);
    }
  }

  /** A replacement with a delimited row keeps a string that breaks an entity so. */
  lemma ReplaceAllBreaksEntity(y: string, e: Entity)
    requires DelimitedRow(e) && BreaksEntity(y)
    ensures BreaksEntity(ReplaceAll(y, e.code, e.text))
    ensures y != [] ==> ReplaceAll(y, e.code, e.text) != []
  {
  }

  /**
   * The chain distributes over a concatenation whose second part cannot continue
   * an entity, such as one that starts with `&`.
   */
  lemma {:induction false} ReplaceEachSplit(x: string, y: string, table: seq<Entity>)
    requires Delimited(table) && BreaksEntity(y)
    ensures ReplaceEach(x + y, table) == ReplaceEach(x, table) + ReplaceEach(y, table)
    decreases |table|
  {
    if table != [] {
      var e := table[0];
      ReplaceAllSplit(x, y, e.code, e.text);
      ReplaceAllBreaksEntity(y, e);
      assert forall k :: 0 <= k < |table[1..]| ==> table[1..][k] == table[k + 1];
      ReplaceEachSplit(ReplaceAll(x, e.code, e.text), ReplaceAll(y, e.code, e.text), table[1..]);
    }
  }

  lemma MulNonPositive(c: nat, d: int)
    requires d <= 0
    ensures c * d <= 0
  {
  }

  /** Rows whose text is no longer than their code never lengthen the text. */
  lemma {:induction false} ReplaceEachShortens(s: string, table: seq<Entity>)
    requires Settling(table)
    ensures |ReplaceEach(s, table)| <= |s|
    decreases |table|
  {
    if table != [] {
      var e := table[0];
      ReplaceAllLength(s, e.code, e.text);
      MulNonPositive(CountOccurrences(s, e.code), |e.text| - |e.code|);
      assert forall k :: 0 <= k < |table[1..]| ==> table[1..][k] == table[k + 1];
      ReplaceEachShortens(ReplaceAll(s, e.code, e.text), table[1..]);
    }
  }

  /** `a` is one piece of entity-bearing text: `&` first and nowhere else. */
  predicate Piece(a: string) {
    |a| > 0 && a[0] == '&' && '&' !in a[1..]
  }

  /** `p` agrees with `a` from position `k` on, compared character by character. */
  predicate MatchesFrom(a: string, p: string, k: nat)
    decreases |p| - k
  {
    k >= |p| || (k < |a| && a[k] == p[k] && MatchesFrom(a, p, k + 1))
  }

  lemma {:induction false} MatchesFromAll(a: string, p: string, k: nat)
    requires k <= |p|
    ensures MatchesFrom(a, p, k) <==> k == |p| || (|p| <= |a| && a[k..|p|] == p[k..])
    decreases |p| - k
  {
    if k < |p| {
      MatchesFromAll(a, p, k + 1);
      if |p| <= |a| {
        assert a[k..|p|] == [a[k]] + a[k + 1..|p|];
        assert p[k..] == [p[k]] + p[k + 1..];
      }
    }
  }

  lemma MatchesFromStartsWith(a: string, p: string)
    ensures MatchesFrom(a, p, 0) <==> StartsWith(a, p)
  {
    MatchesFromAll(a, p, 0);
    assert p[0..] == p;
    if |p| <= |a| {
      assert a[0..|p|] == a[..|p|];
    }
  }

  /** On one piece, a row either replaces its leading code or leaves it alone. */
  lemma ReplaceAllPiece(a: string, p: string, r: string)
    requires Piece(a) && |p| > 0 && p[0] == '&'
    ensures ReplaceAll(a, p, r) == if StartsWith(a, p) then r + a[|p|..] else a
  {
    if |a| >= |p| {
      if a[..|p|] == p {
        assert '&' !in a[|p|..] by {
          assert forall k :: 0 <= k < |a| - |p| ==> a[|p|..][k] == a[1..][k + |p| - 1];
        }
        ReplaceAllWithoutAmpersand(a[|p|..], p, r);
      } else {
        ReplaceAllWithoutAmpersand(a[1..], p, r);
      }
    }
  }

  /**
   * Rows `i` up to `j` have `&`, at least one more character and a closing `;`
   * as their code, and none of those codes starts `a`; checked row by row.
   */
  predicate PassesRows(a: string, table: seq<Entity>, i: nat, j: nat)
    decreases j - i
  {
    i >= j
    || (j <= |table| && |table[i].code| > 1 && table[i].code[0] == '&'
        && ClosesAtFirstSemicolon(table[i].code, 0)
        && !MatchesFrom(a, table[i].code, 0) && PassesRows(a, table, i + 1, j))
  }

  /** A piece passes unchanged through rows whose codes do not start it. */
  lemma {:induction false} SkipRows(a: string, table: seq<Entity>, i: nat, j: nat)
    requires Piece(a) && i <= j <= |table| && PassesRows(a, table, i, j)
    ensures ReplaceEach(a, table[i..]) == ReplaceEach(a, table[j..])
    decreases j - i
  {
    if i < j {
      var e := table[i];
      assert table[i..][0] == e && table[i..][1..] == table[i + 1..];
      ReplaceAllPiece(a, e.code, e.text);
      MatchesFromStartsWith(a, e.code);
      SkipRows(a, table, i + 1, j);
    }
  }

  /**
   * A piece made of row `i`'s code and text without `&` becomes that row's text
   * followed by the same text, and the later rows see only that.
   */
  lemma HitRow(rest: string, table: seq<Entity>, i: nat)
    requires i < |table| && DelimitedRow(table[i]) && '&' !in rest
    ensures ReplaceEach(table[i].code + rest, table[i..])
            == ReplaceEach(table[i].text + rest, table[i + 1..])
  {
    var e := table[i];
    var a := e.code + rest;
    EntityCharsFromAll(e.code, 1);
    assert table[i..][0] == e && table[i..][1..] == table[i + 1..];
    assert a[..|e.code|] == e.code && a[|e.code|..] == rest;
    assert forall k :: 1 <= k < |a| ==> a[k] != '&' by {
      assert forall k :: |e.code| <= k < |a| ==> a[k] == rest[k - |e.code|];
    }
    assert '&' !in a[1..] by {
      assert forall k :: 0 <= k < |a| - 1 ==> a[1..][k] == a[k + 1];
    }
    ReplaceAllPiece(a, e.code, e.text);
  }

  /** Text without `&` is finished: the rows from `i` on leave it as it is. */
  lemma SettledText(text: string, rest: string, table: seq<Entity>, i: nat)
    requires |text| > 0 && text[0] != '&' && NoAmpersandFrom(text, 1) && '&' !in rest
    requires Delimited(table) && i <= |table|
    ensures ReplaceEach(text + rest, table[i..]) == text + rest
  {
    NoAmpersandFromAll(text, 1);
    assert forall k :: |text| <= k < |text + rest| ==> (text + rest)[k] == rest[k - |text|];
    assert '&' !in text + rest;
    assert forall k :: 0 <= k < |table[i..]| ==> table[i..][k] == table[k + i];
    ReplaceEachWithoutAmpersand(text + rest, table[i..]);
  }

  /** An entity code followed by text without `&` is a piece. */
  lemma CodePiece(c: string, rest: string)
    requires |c| > 0 && c[0] == '&' && EntityCharsFrom(c, 1) && '&' !in rest
    ensures Piece(c + rest)
  {
    var a := c + rest;
    EntityCharsFromAll(c, 1);
    assert forall k :: |c| <= k < |a| ==> a[k] == rest[k - |c|];
    assert forall k :: 0 <= k < |a| - 1 ==> a[1..][k] == a[k + 1];
  }

  /** Rows that pass an entity code pass it followed by any text. */
  lemma {:induction false} PassesRowsWithRest(c: string, rest: string, table: seq<Entity>, i: nat, j: nat)
    requires ClosesAtFirstSemicolon(c, 0) && PassesRows(c, table, i, j)
    ensures PassesRows(c + rest, table, i, j)
    decreases j - i
  {
    if i < j {
      var p := table[i].code;
      MatchesFromStartsWith(c, p);
      MatchesFromStartsWith(c + rest, p);
      CodeStartingPiece(c, rest, p);
      PassesRowsWithRest(c, rest, table, i + 1, j);
    }
  }

  /**
   * A piece made of row `i`'s code and text without `&`, which the rows from
   * `from` to `i` pass, decodes to row `i`'s text and the same text when that
   * text is finished, that is, does not start with `&`.
   */
  lemma DecodePiece(table: seq<Entity>, from: nat, i: nat, rest: string)
    requires Settling(table) && from <= i < |table| && '&' !in rest
    requires PassesRows(table[i].code + rest, table, from, i)
    requires table[i].text[0] != '&'
    ensures ReplaceEach(table[i].code + rest, table[from..]) == table[i].text + rest
  {
    var e := table[i];
    var a := e.code + rest;
    CodePiece(e.code, rest);
    SkipRows(a, table, from, i);
    HitRow(rest, table, i);
    SettledText(e.text, rest, table, i + 1);
  }

  /** A string too short for `p`, or differing from it at index 1, does not start with it. */
  lemma DiffersAtSecond(a: string, p: string)
    requires |p| > 1 && (|a| <= 1 || a[1] != p[1])
    ensures !StartsWith(a, p)
  {
    if |a| > 1 && |p| <= |a| {
      assert a[..|p|][1] == a[1];
    }
  }

  /**
   * A lone `&`, or one followed by a character no entity continues with, is not
   * the start of any delimited row's code.
   */
  lemma {:induction false} BareAmpersandKept(a: string, table: seq<Entity>)
    requires Piece(a) && (|a| == 1 || !EntityChar(a[1])) && Delimited(table)
    ensures ReplaceEach(a, table) == a
    decreases |table|
  {
    if table != [] {
      var e := table[0];
      EntityCharsFromAll(e.code, 1);
      ReplaceAllPiece(a, e.code, e.text);
      DiffersAtSecond(a, e.code);
      assert forall k :: 0 <= k < |table[1..]| ==> table[1..][k] == table[k + 1];
      BareAmpersandKept(a, table[1..]);
    }
  }
}

=== FILE: ios_notifications.dfy ===
/**
 * The iOS `NotificationManager`: two repeating calendar requests in the
 * notification centre's pending set, keyed by identifier, the switches in
 * `UserDefaults`, the background refresh of the nugget request's content, and
 * where a tapped notification leads.
 */
module IosNotifications {
  import opened Wrappers
  import opened Strings
  import opened Dates
  import opened Devotionals
  import Repository

  const MorningIdentifier := "com.devotionalapp.morningReminder"
  const NuggetIdentifier := "com.devotionalapp.dailyNugget"
  const MorningHour := 6
  const MorningMinute := 0
  const NuggetHour := 10
  const NuggetMinute := 0
  const MorningTitle := "Bread and Wine Devotional"
  const MorningBody := "Refresh your spirit\U{2014}your devotional awaits!"
  const NuggetTitle := "Daily Nugget"
  const NuggetFallback := "Reflect on today's devotional message"

  const EnabledKey := "notificationsEnabled"
  const MorningKey := "morningNotificationsEnabled"
  const NuggetKey := "nuggetNotificationsEnabled"

  const TypeKey := "notificationType"
  const DevotionalIdKey := "devotionalId"

  /** A `userInfo` value: Swift keeps the dynamic type, and `as? String` looks at it. */
  datatype Payload = IntPayload(n: int) | StringPayload(s: string)

  datatype Content = Content(title: string, body: string, userInfo: map<string, Payload>)

  /** A request whose calendar trigger fires every day at `hour:minute`. */
  datatype Request = Request(content: Content, hour: nat, minute: nat, repeats: bool)

  /** The pending requests by identifier, and the boolean `UserDefaults`. */
  datatype Center = Center(pending: map<string, Request>, defaults: map<string, bool>)

  /** `UserDefaults.bool(forKey:)`: false when nothing is stored. */
  predicate Pref(c: Center, key: string) {
    key in c.defaults && c.defaults[key]
  }

  /**
   * `checkNotificationSettings`: the master switch follows the authorisation;
   * each kind's switch is set to on only when nothing is stored for it.
   */
  function CheckNotificationSettings(c: Center, authorized: bool): (r: Center)
    ensures r.pending == c.pending
    ensures r.defaults.Keys == c.defaults.Keys + {EnabledKey, MorningKey, NuggetKey}
    ensures r.defaults[EnabledKey] == authorized
    ensures MorningKey in c.defaults ==> r.defaults[MorningKey] == c.defaults[MorningKey]
    ensures MorningKey !in c.defaults ==> r.defaults[MorningKey]
    ensures NuggetKey in c.defaults ==> r.defaults[NuggetKey] == c.defaults[NuggetKey]
    ensures NuggetKey !in c.defaults ==> r.defaults[NuggetKey]
    ensures forall k :: k in c.defaults && k !in {EnabledKey, MorningKey, NuggetKey} ==> r.defaults[k] == c.defaults[k]
  {
    var d1 := c.defaults[EnabledKey := authorized];
    var d2 := if MorningKey in d1 then d1 else d1[MorningKey := true];
    var d3 := if NuggetKey in d2 then d2 else d2[NuggetKey := true];
    c.(defaults := d3)
  }

  /** `scheduleMorningReminder`: the morning request is added, replacing one under the same identifier. */
  function ScheduleMorningReminder(c: Center): (r: Center)
    ensures r.defaults == c.defaults
    ensures r.pending.Keys == c.pending.Keys + {MorningIdentifier}
    ensures forall id :: id in c.pending && id != MorningIdentifier ==> r.pending[id] == c.pending[id]
    ensures var q := r.pending[MorningIdentifier];
            && q.hour == 6 && q.minute == 0 && q.repeats
            && q.content.title == MorningTitle && q.content.body == MorningBody
            && q.content.userInfo == map[TypeKey := StringPayload("morning")]
  {
    var content := Content(MorningTitle, MorningBody, map[TypeKey := StringPayload("morning")]);
    c.(pending := c.pending[MorningIdentifier := Request(content, MorningHour, MorningMinute, true)])
  }

  /**
   * `scheduleDailyNugget`, given today's devotional (or none): with none,
   * nothing is added; otherwise the nugget request, whose body is the nugget
   * or the fallback, carrying no notification type.
   */
  function ScheduleDailyNugget(c: Center, today: Option<Devotional>): (r: Center)
    ensures r.defaults == c.defaults
    ensures today.None? ==> r == c
    ensures today.Some? ==>
              && r.pending.Keys == c.pending.Keys + {NuggetIdentifier}
              && (forall id :: id in c.pending && id != NuggetIdentifier ==> r.pending[id] == c.pending[id])
              && var q := r.pending[NuggetIdentifier];
              && q.hour == 10 && q.minute == 0 && q.repeats
              && q.content.title == NuggetTitle
              && q.content.body == NuggetOf(today.value).GetOr(NuggetFallback)
              && TypeKey !in q.content.userInfo
  {
    match today
    case None => c
    case Some(d) =>
      var content := Content(NuggetTitle, NuggetOf(d).GetOr(NuggetFallback), map[]);
      c.(pending := c.pending[NuggetIdentifier := Request(content, NuggetHour, NuggetMinute, true)])
  }

  /**
   * `scheduleNotifications`: the settings are checked (and defaulted) first;
   * unless authorised nothing is scheduled, otherwise each kind whose switch is
   * on.
   */
  function ScheduleNotifications(c: Center, authorized: bool, today: Option<Devotional>): (r: Center)
    ensures r.defaults == CheckNotificationSettings(c, authorized).defaults
    ensures !authorized ==> r.pending == c.pending
    ensures authorized && (MorningKey !in c.defaults || c.defaults[MorningKey]) ==> MorningIdentifier in r.pending
    ensures authorized && MorningKey in c.defaults && !c.defaults[MorningKey] ==>
              (MorningIdentifier in r.pending <==> MorningIdentifier in c.pending)
    ensures today.Some? && authorized && (NuggetKey !in c.defaults || c.defaults[NuggetKey]) ==>
              NuggetIdentifier in r.pending
    ensures today.None? || !authorized || (NuggetKey in c.defaults && !c.defaults[NuggetKey]) ==>
              (NuggetIdentifier in r.pending <==> NuggetIdentifier in c.pending)
  {
    var checked := CheckNotificationSettings(c, authorized);
    if !authorized then checked
    else
      var m := if Pref(checked, MorningKey) then ScheduleMorningReminder(checked) else checked;
      if Pref(m, NuggetKey) then ScheduleDailyNugget(m, today) else m
  }

  /** What a first launch with permission granted schedules: both kinds, the nugget one if there is a devotional. */
  lemma FirstLaunchSchedulesBoth(d: Devotional)
    ensures var r := ScheduleNotifications(Center(map[], map[]), true, Some(d));
            MorningIdentifier in r.pending && NuggetIdentifier in r.pending
            && Pref(r, MorningKey) && Pref(r, NuggetKey) && Pref(r, EnabledKey)
  {
  }

  /** `removePendingNotificationRequests(withIdentifiers: [id])`. */
  function RemovePending(c: Center, id: string): (r: Center)
    ensures r.defaults == c.defaults
    ensures r.pending.Keys == c.pending.Keys - {id}
    ensures forall k :: k in r.pending ==> r.pending[k] == c.pending[k]
  {
    c.(pending := c.pending - {id})
  }

  /** `toggleMorningNotifications`: the switch is stored, then the request added or removed. */
  function ToggleMorning(c: Center, enabled: bool): (r: Center)
    ensures r.defaults == c.defaults[MorningKey := enabled]
    ensures MorningIdentifier in r.pending <==> enabled
    ensures forall id :: id != MorningIdentifier ==> (id in r.pending <==> id in c.pending)
    ensures forall id :: id in r.pending && id != MorningIdentifier ==> r.pending[id] == c.pending[id]
  {
    var stored := c.(defaults := c.defaults[MorningKey := enabled]);
    if enabled then ScheduleMorningReminder(stored) else RemovePending(stored, MorningIdentifier)
  }

  /**
   * `toggleNuggetNotifications`: the switch is stored, then the request added
   * (when there is a devotional for today) or removed.
   */
  function ToggleNugget(c: Center, enabled: bool, today: Option<Devotional>): (r: Center)
    ensures r.defaults == c.defaults[NuggetKey := enabled]
    ensures !enabled ==> NuggetIdentifier !in r.pending
    ensures enabled && today.Some? ==> NuggetIdentifier in r.pending
    ensures enabled && today.None? ==> r.pending == c.pending
    ensures forall id :: id != NuggetIdentifier ==> (id in r.pending <==> id in c.pending)
    ensures forall id :: id in r.pending && id != NuggetIdentifier ==> r.pending[id] == c.pending[id]
  {
    var stored := c.(defaults := c.defaults[NuggetKey := enabled]);
    if enabled then ScheduleDailyNugget(stored, today) else RemovePending(stored, NuggetIdentifier)
  }

  /** `toggleAllNotifications`: the same value for both kinds, morning first. */
  function ToggleAll(c: Center, enabled: bool, today: Option<Devotional>): (r: Center)
    ensures Pref(r, MorningKey) == enabled && Pref(r, NuggetKey) == enabled
    ensures !enabled ==> MorningIdentifier !in r.pending && NuggetIdentifier !in r.pending
    ensures enabled ==> MorningIdentifier in r.pending && (today.Some? ==> NuggetIdentifier in r.pending)
  {
    ToggleNugget(ToggleMorning(c, enabled), enabled, today)
  }

  /** Turning everything off and on again restores both requests (the nugget one given a devotional). */
  lemma ToggleAllOffOn(c: Center, d: Devotional)
    ensures var r := ToggleAll(ToggleAll(c, false, Some(d)), true, Some(d));
            r.pending.Keys >= {MorningIdentifier, NuggetIdentifier}
            && r.pending[MorningIdentifier] == ScheduleMorningReminder(c).pending[MorningIdentifier]
  {
  }

  /**
   * The content `updateNuggetNotification` posts for the entry found (or
   * none): the nugget or an empty body, type "nugget", and the id as a Swift
   * `Int`, zero when there is no entry.
   */
  function NuggetContent(found: Option<Devotional>): (r: Content)
    ensures r.title == NuggetTitle
    ensures r.body == (if found.Some? then NuggetOf(found.value).GetOr("") else "")
    ensures r.userInfo.Keys == {TypeKey, DevotionalIdKey}
    ensures r.userInfo[TypeKey] == StringPayload("nugget")
    ensures r.userInfo[DevotionalIdKey] == IntPayload(if found.Some? then found.value.id else 0)
  {
    Content(NuggetTitle, if found.Some? then NuggetOf(found.value).GetOr("") else "",
            map[TypeKey := StringPayload("nugget"),
                DevotionalIdKey := IntPayload(if found.Some? then found.value.id else 0)])
  }

  /** The content with the id stored as text, as the tap handler reads it. */
  function NuggetContentCorrected(found: Option<Devotional>): (r: Content)
    ensures r.title == NuggetTitle && r.body == NuggetContent(found).body
    ensures r.userInfo.Keys == if found.Some? then {TypeKey, DevotionalIdKey} else {TypeKey}
    ensures r.userInfo[TypeKey] == StringPayload("nugget")
    ensures found.Some? ==> r.userInfo[DevotionalIdKey] == StringPayload(IntToString(found.value.id))
  {
    if found.Some? then
      Content(NuggetTitle, NuggetContent(found).body,
              map[TypeKey := StringPayload("nugget"), DevotionalIdKey := StringPayload(IntToString(found.value.id))])
    else Content(NuggetTitle, NuggetContent(found).body, map[TypeKey := StringPayload("nugget")])
  }

  /** `updateNuggetNotification`: the pending nugget request is removed and the new one added at 10:00. */
  function UpdateNuggetNotification(c: Center, content: Content): (r: Center)
    ensures r.defaults == c.defaults
    ensures r.pending == c.pending[NuggetIdentifier := Request(content, NuggetHour, NuggetMinute, true)]
  {
    var removed := RemovePending(c, NuggetIdentifier);
    removed.(pending := removed.pending[NuggetIdentifier := Request(content, NuggetHour, NuggetMinute, true)])
  }

  /** The first entry satisfying `matches`, in server order. */
  function FirstMatching(l: seq<Devotional>, matches: Devotional -> bool): (r: Option<Devotional>)
    ensures r.Some? ==> r.value in l && matches(r.value)
    ensures r.None? <==> forall i :: 0 <= i < |l| ==> !matches(l[i])
    ensures r.Some? ==> exists i :: 0 <= i < |l| && l[i] == r.value && forall j :: 0 <= j < i ==> !matches(l[j])
    decreases |l|
  {
    if |l| == 0 then None
    else if matches(l[0]) then Some(l[0])
    else
      var r := FirstMatching(l[1..], matches);
      assert forall i :: 1 <= i < |l| ==> l[i] == l[1..][i - 1];
      if r.Some? then
        var i :| 0 <= i < |l[1..]| && l[1..][i] == r.value && forall j :: 0 <= j < i ==> !matches(l[1..][j]);
        assert l[i + 1] == r.value;
        r
      else r
  }

  /**
   * `refreshNuggetNotificationContent`: on a failed fetch nothing changes;
   * otherwise the first entry whose `date` starts with today written as
   * `d MMMM yyyy` is chosen and the nugget request replaced.
   */
  function RefreshNuggetContent(c: Center, today: Date, fetched: Option<seq<Devotional>>): (r: Center)
    requires ValidDate(today)
    ensures fetched.None? ==> r == c
    ensures fetched.Some? ==>
              r == UpdateNuggetNotification(c, NuggetContent(
                     FirstMatching(fetched.value, (d: Devotional) => StartsWith(d.date, FormatDisplay(today)))))
  {
    match fetched
    case None => c
    case Some(l) =>
      var found := FirstMatching(l, (d: Devotional) => StartsWith(d.date, FormatDisplay(today)));
      UpdateNuggetNotification(c, NuggetContent(found))
  }

  /**
   * WordPress dates open with a four-digit year, so the display-format prefix
   * never matches: after a successful refresh the nugget request has an empty
   * body and devotional id 0, whatever the feed holds for today.
   */
  lemma RefreshNeverFindsWordPressDates(c: Center, today: Date, l: seq<Devotional>)
    requires ValidDate(today)
    requires forall i :: 0 <= i < |l| ==> ParseIsoLocal(l[i].date).Some?
    ensures var q := RefreshNuggetContent(c, today, Some(l)).pending[NuggetIdentifier];
            q.content.body == "" && q.content.userInfo[DevotionalIdKey] == IntPayload(0)
  {
    forall i | 0 <= i < |l|
      ensures !StartsWith(l[i].date, FormatDisplay(today))
    {
      IsoLocalStartsWithYear(l[i].date);
      DisplayNeverPrefixesIso(l[i].date, today);
    }
  }

  /** An ISO local date-time opens with its four year digits. */
  lemma IsoLocalStartsWithYear(s: string)
    requires ParseIsoLocal(s).Some?
    ensures |s| >= 4 && AllDigits(s[..4])
  {
    var ds := s[..10];
    assert Field(ds, 0, 4).Some?;
    assert ds[0..4] == s[..4];
  }

  /**
   * The refresh with today's entry chosen as the Android repository does, by
   * parsing the date as a local date-time: the request carries that entry.
   */
  function RefreshNuggetContentCorrected(c: Center, today: Date, fetched: Option<seq<Devotional>>): (r: Center)
    ensures fetched.None? ==> r == c
    ensures fetched.Some? ==>
              var found := FirstMatching(fetched.value, (d: Devotional) => Repository.IsTodayLocal(d.date, today));
              r == UpdateNuggetNotification(c, NuggetContentCorrected(found))
  {
    match fetched
    case None => c
    case Some(l) =>
      UpdateNuggetNotification(c, NuggetContentCorrected(
        FirstMatching(l, (d: Devotional) => Repository.IsTodayLocal(d.date, today))))
  }

  /** With the local-date match, today's WordPress entry reaches the request. */
  lemma CorrectedRefreshFindsToday(c: Center, dt: DateTime, d: Devotional)
    requires ValidDateTime(dt) && dt.time.nano == 0 && d.date == WordPressDate(dt)
    ensures var q := RefreshNuggetContentCorrected(c, dt.date, Some([d])).pending[NuggetIdentifier];
            q.content.body == NuggetOf(d).GetOr("")
            && DevotionalIdKey in q.content.userInfo
            && q.content.userInfo[DevotionalIdKey] == StringPayload(IntToString(d.id))
  {
    Repository.WordPressDateIsToday(dt);
  }

  /** Where a tap leads: the devotional screen, or the nuggets list with an optional id to highlight. */
  datatype Route = OpenDevotionalView | OpenNuggetsList(devotionalId: Option<string>)

  /**
   * `handleNotificationResponse`: the type must be text; "morning" opens the
   * devotional, "nugget" the nuggets list with the id only when it is text;
   * anything else goes nowhere.
   */
  function HandleResponse(userInfo: map<string, Payload>): (r: Option<Route>)
    ensures r == Some(OpenDevotionalView) <==> TypeKey in userInfo && userInfo[TypeKey] == StringPayload("morning")
    ensures (r.Some? && r.value.OpenNuggetsList?) <==> TypeKey in userInfo && userInfo[TypeKey] == StringPayload("nugget")
    ensures r.Some? && r.value.OpenNuggetsList? && r.value.devotionalId.Some? <==>
              && TypeKey in userInfo && userInfo[TypeKey] == StringPayload("nugget")
              && DevotionalIdKey in userInfo && userInfo[DevotionalIdKey].StringPayload?
  {
    if TypeKey !in userInfo || !userInfo[TypeKey].StringPayload? then None
    else
      var t := userInfo[TypeKey].s;
      if t == "morning" then Some(OpenDevotionalView)
      else if t == "nugget" then
        if DevotionalIdKey in userInfo && userInfo[DevotionalIdKey].StringPayload? then
          Some(OpenNuggetsList(Some(userInfo[DevotionalIdKey].s)))
        else Some(OpenNuggetsList(None))
      else None
  }

  /** The id stored as an `Int` is never read back: every refreshed nugget opens the plain list. */
  lemma TapOnNuggetLosesId(found: Option<Devotional>)
    ensures HandleResponse(NuggetContent(found).userInfo) == Some(OpenNuggetsList(None))
  {
  }

  /** Stored as text, the id of the entry found reaches the nuggets list. */
  lemma TapOnCorrectedNuggetKeepsId(d: Devotional)
    ensures HandleResponse(NuggetContentCorrected(Some(d)).userInfo) == Some(OpenNuggetsList(Some(IntToString(d.id))))
  {
  }

  /** The morning request routes to the devotional; the request `scheduleDailyNugget` adds routes nowhere. */
  lemma ScheduledRequestsRoute(c: Center, d: Devotional)
    ensures HandleResponse(ScheduleMorningReminder(c).pending[MorningIdentifier].content.userInfo) == Some(OpenDevotionalView)
    ensures HandleResponse(ScheduleDailyNugget(c, Some(d)).pending[NuggetIdentifier].content.userInfo).None?
  {
  }
}

=== FILE: legacy_repository.dfy ===
/**
 * `DevotionalRepository` of the earlier Android package. Its `getDevotionals`
 * and `refreshDevotionals` are the current ones line for line, so they are
 * `Repository.GetDevotionals` and `Repository.RefreshDevotionals`; its
 * `getTodaysNugget` reads no cache, always asks the server, and matches dates
 * with the ISO instant parser in the device's zone.
 */
module LegacyRepository {
  import opened Wrappers
  import opened Strings
  import opened Dates
  import opened Devotionals
  import opened Cache
  import opened Repository

  /**
   * `Instant.parse(date).atZone(zone).toLocalDate().isEqual(today)` for a zone
   * `offsetSeconds` from UTC at that instant; a parse failure is no match.
   */
  predicate IsTodayInstant(date: string, today: Date, offsetSeconds: int)
    requires -64800 <= offsetSeconds <= 64800
  {
    InstantDay(date, offsetSeconds) == Some(today)
  }

  /** The local date of the instant `date` spells, if it parses to a year the model can shift. */
  function InstantDay(date: string, offsetSeconds: int): Option<Date>
    requires -64800 <= offsetSeconds <= 64800
  {
    var p := ParseInstant(date);
    if p.Some? && 0 < p.value.date.year < 9999 then Some(LocalDateAt(p.value, offsetSeconds)) else None
  }

  /** Index of the first entry, from `i` on, whose instant falls on `today`. */
  function FirstInstantTodayFrom(l: seq<Devotional>, today: Date, offsetSeconds: int, i: nat): (r: Option<nat>)
    requires -64800 <= offsetSeconds <= 64800 && i <= |l|
    ensures r.Some? ==> i <= r.value < |l| && IsTodayInstant(l[r.value].date, today, offsetSeconds)
                        && forall j :: i <= j < r.value ==> !IsTodayInstant(l[j].date, today, offsetSeconds)
    ensures r.None? ==> forall j :: i <= j < |l| ==> !IsTodayInstant(l[j].date, today, offsetSeconds)
    decreases |l| - i
  {
    if i == |l| then None
    else if IsTodayInstant(l[i].date, today, offsetSeconds) then Some(i)
    else FirstInstantTodayFrom(l, today, offsetSeconds, i + 1)
  }

  /** `todayDevotional?.acf?.nugget` over the response body. */
  function FindTodaysNuggetByInstant(l: seq<Devotional>, today: Date, offsetSeconds: int): (r: Option<string>)
    requires -64800 <= offsetSeconds <= 64800
    ensures r.Some? ==> exists i :: 0 <= i < |l| && IsTodayInstant(l[i].date, today, offsetSeconds) && NuggetOf(l[i]) == r
    ensures (forall i :: 0 <= i < |l| ==> !IsTodayInstant(l[i].date, today, offsetSeconds)) ==> r.None?
  {
    match FirstInstantTodayFrom(l, today, offsetSeconds, 0)
    case None => None
    case Some(i) => NuggetOf(l[i])
  }

  /**
   * `getTodaysNugget`: one request every time, the cache never consulted;
   * null unless the request delivered a body with an entry for today.
   */
  function GetTodaysNugget(today: Date, offsetSeconds: int, o: FetchOutcome): (r: NuggetLookup)
    requires -64800 <= offsetSeconds <= 64800
    ensures r.apiCalls == 1
    ensures !Delivered(o) ==> r.nugget.None?
    ensures r.nugget.Some? ==>
              exists d :: d in o.body.value && IsTodayInstant(d.date, today, offsetSeconds) && NuggetOf(d) == r.nugget
  {
    if Delivered(o) then NuggetLookup(FindTodaysNuggetByInstant(o.body.value, today, offsetSeconds), 1)
    else NuggetLookup(None, 1)
  }

  /**
   * Dates the server writes without a zone never parse as instants, so a
   * response made only of them yields no nugget, whatever the day.
   */
  lemma LocalDatesNeverMatch(today: Date, offsetSeconds: int, o: FetchOutcome)
    requires -64800 <= offsetSeconds <= 64800
    requires o.Response? && o.body.Some?
    requires forall i :: 0 <= i < |o.body.value| ==> ParseIsoLocal(o.body.value[i].date).Some?
    ensures GetTodaysNugget(today, offsetSeconds, o).nugget.None?
  {
    forall i | 0 <= i < |o.body.value|
      ensures !IsTodayInstant(o.body.value[i].date, today, offsetSeconds)
    {
      LocalDateTimeIsNotInstant(o.body.value[i].date);
    }
  }

  /**
   * Today's WordPress entry with a nugget: the lookup by instant misses it,
   * the current lookup by local date finds it.
   */
  lemma InstantLookupMissesToday(json: Json, store: Store, dt: DateTime, d: Devotional, offsetSeconds: int)
    requires -64800 <= offsetSeconds <= 64800
    requires ValidDateTime(dt) && dt.time.nano == 0
    requires d.date == WordPressDate(dt) && NuggetOf(d).Some?
    requires CachedDevotionalsKey !in store
    ensures GetTodaysNugget(dt.date, offsetSeconds, Response(200, Some([d]))).nugget == None
    ensures Repository.GetTodaysNugget(json, store, dt.date, Response(200, Some([d]))).nugget == NuggetOf(d)
  {
    WordPressDateIsToday(dt);
    LocalDatesNeverMatch(dt.date, offsetSeconds, Response(200, Some([d])));
    FirstTodayDecides([d], dt.date, 0);
  }

  /**
   * A dated-instant entry, the form the earlier tests feed it: a UTC noon
   * instant is found in any zone within twelve hours of UTC.
   */
  lemma UtcNoonIsToday(today: Date, offsetSeconds: int)
    requires ValidDate(today) && 0 < today.year < 9999
    requires -43200 < offsetSeconds < 43200
    ensures IsTodayInstant(WordPressDate(DateTime(today, TimeOfDay(12, 0, 0, 0))) + "Z", today, offsetSeconds)
  {
    var dt := DateTime(today, TimeOfDay(12, 0, 0, 0));
    var s := WordPressDate(dt) + "Z";
    WordPressDateRoundTrip(dt);
    var w := WordPressDate(dt);
    assert s[..10] == w[..10] && s[11..|s| - 1] == w[11..] && s[10] == w[10];
    assert DateFields(w[..10]) == Some(today) && TimeFields(w[11..]) == Some(dt.time);
  }

  /** `refreshDevotionals` fails on a 404 and on a thrown exception, and writes nothing. */
  lemma RefreshFailsOnNotFoundAndThrow(json: Json, store: Store, body: Option<seq<Devotional>>, message: Option<string>)
    ensures RefreshDevotionals(json, store, Response(404, body)).result == RefreshFailed(Some("API Error: 404"))
    ensures RefreshDevotionals(json, store, Thrown(message)) == Refresh(RefreshFailed(message), store)
  {
    assert NatToString(4) == "4" && NatToString(40) == "40";
    assert IntToString(404) == "404";
    assert ApiErrorMessage(404) == "API Error: 404";
  }
}

=== FILE: legacy_settings.dfy ===
/**
 * `SettingsViewModel` of the older app: the same three switches, but only the
 * two alarms are used, and turning the nugget reminder on first fetches today's
 * nugget from the network so the alarm can carry it.
 */
module LegacySettings {
  import opened Wrappers
  import opened Dates
  import opened Platform
  import opened Repository
  import opened LegacyRepository
  import opened NotificationScheduler
  import opened NotificationWorker
  import opened Registrations
  import opened Cache
  import opened Settings

  /**
   * What the nugget fetch brings: the network-only lookup for `today` in the
   * device's zone (`offsetSeconds`), given what the request answers.
   */
  datatype NuggetFetch = NuggetFetch(today: Date, offsetSeconds: int, outcome: FetchOutcome)
  {
    function Nugget(): Option<string>
      requires -64800 <= offsetSeconds <= 64800
    {
      LegacyRepository.GetTodaysNugget(today, offsetSeconds, outcome).nugget
    }
  }

  /** The calls `toggleNotifications` makes. */
  function MasterSteps(flags: NotificationSettings, d: Device, fetch: NuggetFetch): seq<Os -> Os>
    requires -64800 <= fetch.offsetSeconds <= 64800
  {
    if flags.enabled then
      (if flags.morningEnabled then [(os: Os) => ScheduleMorning(os, d)] else [])
      + (if flags.nuggetEnabled then [(os: Os) => ScheduleNugget(os, d, fetch.Nugget())] else [])
    else [(os: Os) => CancelMorning(os), (os: Os) => CancelNugget(os)]
  }

  /** The master switch's calls, when none throws. */
  lemma MasterStepsEffect(os: Os, flags: NotificationSettings, d: Device, fetch: NuggetFetch)
    requires -64800 <= fetch.offsetSeconds <= 64800
    ensures RunSteps(os, MasterSteps(flags, d, fetch), None) ==
              if !flags.enabled then CancelNugget(CancelMorning(os))
              else
                var m := if flags.morningEnabled then ScheduleMorning(os, d) else os;
                if flags.nuggetEnabled then ScheduleNugget(m, d, fetch.Nugget()) else m
  {
    var s := MasterSteps(flags, d, fetch);
    if !flags.enabled {
      RunStepsPair(os, s[0], s[1]);
    } else {
      var a: seq<Os -> Os> := if flags.morningEnabled then [(os: Os) => ScheduleMorning(os, d)] else [];
      var b: seq<Os -> Os> := if flags.nuggetEnabled then [(os: Os) => ScheduleNugget(os, d, fetch.Nugget())] else [];
      RunStepsAppend(os, a, b);
      var m := RunSteps(os, a, None);
      if flags.morningEnabled {
        RunStepsPair(os, a[0], a[0]);
      }
      if flags.nuggetEnabled {
        RunStepsPair(m, b[0], b[0]);
      }
    }
  }

  /**
   * `toggleNotifications(enabled)`: on, the morning alarm is set when its
   * switch is on, and the nugget alarm, carrying the fetched nugget or the
   * fallback, when its switch is on; off, both alarms are cancelled. The work
   * registry is never touched, and the switches are saved whatever throws.
   */
  function ToggleNotifications(vm: ViewModel, d: Device, enabled: bool, fetch: NuggetFetch,
                               throwsAt: Option<nat>): (r: ViewModel)
    requires -64800 <= fetch.offsetSeconds <= 64800
    ensures r.flags == vm.flags.(enabled := enabled)
    ensures GetNotificationSettings(r.store) == r.flags
    ensures r.os.work == vm.os.work
    ensures throwsAt.None? && !enabled ==>
              MorningRequestCode !in r.os.alarms && NuggetRequestCode !in r.os.alarms
    ensures throwsAt.None? && enabled && HasNotificationPermission(d) ==>
              && (vm.flags.morningEnabled ==> MorningRequestCode in r.os.alarms)
              && (!vm.flags.morningEnabled ==> ViewOf(r.os, MorningKind).alarm == ViewOf(vm.os, MorningKind).alarm)
              && (vm.flags.nuggetEnabled ==>
                    && NuggetRequestCode in r.os.alarms
                    && r.os.alarms[NuggetRequestCode].message == fetch.Nugget().GetOr(NuggetFallbackMessage))
  {
    var flags := vm.flags.(enabled := enabled);
    var steps := MasterSteps(flags, d, fetch);
    RunStepsKeeps(vm.os, steps, throwsAt, (o: Os) => o.work);
    MasterStepsEffect(vm.os, flags, d, fetch);
    Save(ViewModel(flags, RunSteps(vm.os, steps, throwsAt), vm.store))
  }

  /**
   * `toggleMorningNotifications(enabled)`: the morning alarm is set when it and
   * the master switch are on, and cancelled otherwise; the nugget registrations
   * and the work registry are not touched.
   */
  function ToggleMorning(vm: ViewModel, d: Device, enabled: bool, throws: bool): (r: ViewModel)
    ensures r.flags == vm.flags.(morningEnabled := enabled)
    ensures GetNotificationSettings(r.store) == r.flags
    ensures ViewOf(r.os, NuggetKind) == ViewOf(vm.os, NuggetKind) && r.os.work == vm.os.work
    ensures !throws && enabled && vm.flags.enabled && HasNotificationPermission(d) ==>
              MorningRequestCode in r.os.alarms
    ensures !throws && !(enabled && vm.flags.enabled) ==>
              MorningRequestCode !in r.os.alarms && MorningNotificationId !in r.os.tray
  {
    var flags := vm.flags.(morningEnabled := enabled);
    var os := if throws then vm.os
              else if enabled && flags.enabled then ScheduleMorning(vm.os, d)
              else CancelMorning(vm.os);
    Save(ViewModel(flags, os, vm.store))
  }

  /**
   * `toggleNuggetNotifications(enabled)`: when it and the master switch are on,
   * today's nugget is fetched and the nugget alarm set with it; otherwise the
   * nugget alarm is cancelled. The morning registrations are not touched.
   */
  function ToggleNugget(vm: ViewModel, d: Device, enabled: bool, fetch: NuggetFetch, throws: bool): (r: ViewModel)
    requires -64800 <= fetch.offsetSeconds <= 64800
    ensures r.flags == vm.flags.(nuggetEnabled := enabled)
    ensures GetNotificationSettings(r.store) == r.flags
    ensures ViewOf(r.os, MorningKind) == ViewOf(vm.os, MorningKind) && r.os.work == vm.os.work
    ensures !throws && enabled && vm.flags.enabled && HasNotificationPermission(d) ==>
              && NuggetRequestCode in r.os.alarms
              && r.os.alarms[NuggetRequestCode].message == fetch.Nugget().GetOr(NuggetFallbackMessage)
    ensures !throws && !(enabled && vm.flags.enabled) ==>
              NuggetRequestCode !in r.os.alarms && NuggetNotificationId !in r.os.tray
  {
    var flags := vm.flags.(nuggetEnabled := enabled);
    var os := if throws then vm.os
              else if enabled && flags.enabled then ScheduleNugget(vm.os, d, fetch.Nugget())
              else CancelNugget(vm.os);
    Save(ViewModel(flags, os, vm.store))
  }

  /**
   * The older nugget switch turned on while the feed carries WordPress's
   * zone-less dates: the lookup never matches, so the alarm carries the
   * fallback text rather than today's nugget.
   */
  lemma NuggetAlarmFallsBackOnLocalDates(vm: ViewModel, d: Device, fetch: NuggetFetch)
    requires -64800 <= fetch.offsetSeconds <= 64800
    requires vm.flags.enabled && HasNotificationPermission(d)
    requires fetch.outcome.Response? && fetch.outcome.body.Some?
    requires forall i :: 0 <= i < |fetch.outcome.body.value| ==> ParseIsoLocal(fetch.outcome.body.value[i].date).Some?
    ensures ToggleNugget(vm, d, true, fetch, false).os.alarms[NuggetRequestCode].message == NuggetFallbackMessage
  {
    LocalDatesNeverMatch(fetch.today, fetch.offsetSeconds, fetch.outcome);
  }

  /** Unlike the current master switch, the older one leaves scheduled work in place when turned off. */
  lemma MasterOffKeepsWork(vm: ViewModel, d: Device, fetch: NuggetFetch)
    requires -64800 <= fetch.offsetSeconds <= 64800
    requires MorningWorkName in vm.os.work
    ensures MorningWorkName in ToggleNotifications(vm, d, false, fetch, None).os.work
    ensures MorningWorkName !in Settings.ToggleNotifications(vm, d, false, None).os.work
  {
    assert ViewOf(Settings.ToggleNotifications(vm, d, false, None).os, MorningKind).work.None?;
  }
}

=== FILE: network.dfy ===
/**
 * The iOS `NetworkManager.fetch`: connectivity check, URL building, an early
 * answer from the in-memory cache for GET requests, retries on timeouts and
 * server errors, and the cache as a fallback. The network's answer to each
 * call of `fetch` is an input; the completion handler's calls are collected in
 * order.
 */
module Network {
  import opened Wrappers
  import opened Strings

  type Bytes = string

  const DefaultBaseUrl := "https://jsonplaceholder.typicode.com"
  const DefaultMaxRetryCount := 3
  const DevotionalsEndpoint := "devotional"
  const DevotionalsCacheKey := "recent_devotionals"

  /** The failures a fetch reports. */
  datatype NetworkError =
    | InvalidUrl
    | RequestFailed(statusCode: int)
    | NoData
    | DecodingError
    | NoInternet
    | Timeout
    | ServerError
    | Unknown(description: string)

  /** `localizedDescription`. */
  function Description(e: NetworkError): (r: string)
    ensures e.RequestFailed? ==> StartsWith(r, "Request failed with status code: ")
    ensures e.Unknown? ==> StartsWith(r, "Unknown error: ")
    ensures |r| > 0 && (e.Unknown? <==> r[0] == 'U')
  {
    match e
    case InvalidUrl => "Invalid URL"
    case RequestFailed(code) => "Request failed with status code: " + IntToString(code)
    case NoData => "No data received from server"
    case DecodingError => "Failed to decode server response"
    case NoInternet => "No internet connection"
    case Timeout => "Request timed out"
    case ServerError => "Server error occurred"
    case Unknown(d) => "Unknown error: " + d
  }

  /** The status code can be read back from a `requestFailed` description. */
  lemma StatusCodeReadBack(code: nat)
    ensures var r := Description(RequestFailed(code));
            |r| > 33 && AllDigits(r[33..]) && DecimalValue(r[33..]) == code
  {
    var r := Description(RequestFailed(code));
    assert r[33..] == NatToString(code);
    NatToStringRoundTrip(code);
  }

  /** One call of the completion handler. */
  datatype Completion<V> = Success(value: V) | Failure(error: NetworkError)

  /** The request as `fetch` was called; `retryCount` is passed separately. */
  datatype Request = Request(endpoint: string, httpMethod: string, cacheKey: Option<string>, useCachedDataOnError: bool)

  /** What the transport gave back for one request. */
  datatype Response =
    | TransportError(timedOut: bool, description: string)
    | HttpResponse(status: int, data: Option<Bytes>)
    | OtherResponse(data: Option<Bytes>)

  /** One call of `fetch`: whether the device was online, and what the request got. */
  datatype Attempt = Attempt(connected: bool, response: Response)

  /**
   * The completion calls in order, the cache afterwards, and the number of
   * requests put on the network.
   */
  datatype Outcome<V> = Outcome(deliveries: seq<Completion<V>>, cache: map<string, Bytes>, requests: nat)

  /** The full URL: an endpoint starting with "http" is taken as it is. */
  function UrlString(baseUrl: string, endpoint: string): (r: string)
    ensures StartsWith(endpoint, "http") ==> r == endpoint
    ensures !StartsWith(endpoint, "http") ==> StartsWith(r, baseUrl + "/") && r[|baseUrl| + 1..] == endpoint
  {
    if StartsWith(endpoint, "http") then endpoint else baseUrl + "/" + endpoint
  }

  /** With an absolute base, building the URL of a built URL changes nothing. */
  lemma UrlStringIdempotent(baseUrl: string, endpoint: string)
    requires StartsWith(baseUrl, "http")
    ensures UrlString(baseUrl, UrlString(baseUrl, endpoint)) == UrlString(baseUrl, endpoint)
  {
    if !StartsWith(endpoint, "http") {
      var r := baseUrl + "/" + endpoint;
      assert r[..4] == baseUrl[..4];
    }
  }

  /** `decode`: the decoder's value, or `decodingError`. */
  function Decode<V>(data: Bytes, decode: Bytes -> Option<V>): (r: Completion<V>)
    ensures r.Success? <==> decode(data).Some?
    ensures r.Success? ==> r.value == decode(data).value
    ensures r.Failure? ==> r.error == DecodingError
  {
    match decode(data)
    case Some(v) => Success(v)
    case None => Failure(DecodingError)
  }

  /** The data stored under the request's key, if it has one. */
  function Cached(req: Request, cache: map<string, Bytes>): (r: Option<Bytes>)
    ensures r.Some? <==> req.cacheKey.Some? && req.cacheKey.value in cache
    ensures r.Some? ==> r.value == cache[req.cacheKey.value]
  {
    if req.cacheKey.Some? && req.cacheKey.value in cache then Some(cache[req.cacheKey.value]) else None
  }

  /** The fallback after an error: the cached data decoded if allowed and present, else `error`. */
  function FallBack<V>(req: Request, cache: map<string, Bytes>, decode: Bytes -> Option<V>, error: NetworkError): (r: Completion<V>)
    ensures !req.useCachedDataOnError || Cached(req, cache).None? ==> r == Failure(error)
    ensures req.useCachedDataOnError && Cached(req, cache).Some? ==> r == Decode(Cached(req, cache).value, decode)
  {
    if req.useCachedDataOnError && Cached(req, cache).Some? then Decode(Cached(req, cache).value, decode)
    else Failure(error)
  }

  /** A GET with decodable cached data answers at once with it; the request still goes out. */
  function EarlyDelivery<V>(req: Request, cache: map<string, Bytes>, decode: Bytes -> Option<V>): (r: seq<Completion<V>>)
    ensures |r| <= 1
    ensures |r| == 1 <==> req.httpMethod == "GET" && Cached(req, cache).Some? && decode(Cached(req, cache).value).Some?
    ensures |r| == 1 ==> r[0] == Success(decode(Cached(req, cache).value).value)
  {
    if req.httpMethod == "GET" && Cached(req, cache).Some? then
      match Decode(Cached(req, cache).value, decode)
      case Success(v) => [Success(v)]
      case Failure(_) => []
    else []
  }

  /** A successful answer: stored under the key before it is decoded, or `noData` when it has none. */
  function Received<V>(req: Request, cache: map<string, Bytes>, data: Option<Bytes>, decode: Bytes -> Option<V>): (r: (Completion<V>, map<string, Bytes>))
    ensures data.None? ==> r == (Failure(NoData), cache)
    ensures data.Some? ==> r.0 == Decode(data.value, decode)
    ensures data.Some? && req.cacheKey.Some? ==> r.1 == cache[req.cacheKey.value := data.value]
    ensures req.cacheKey.None? ==> r.1 == cache
  {
    match data
    case None => (Failure(NoData), cache)
    case Some(d) =>
      var stored := if req.cacheKey.Some? then cache[req.cacheKey.value := d] else cache;
      (Decode(d, decode), stored)
  }

  /** How many more requests `fetch` may put on the network from this retry count. */
  function RequestBudget(retryCount: int, maxRetryCount: int): nat {
    if retryCount < maxRetryCount then maxRetryCount - retryCount + 1 else 1
  }

  /**
   * `fetch(endpoint, method, cacheKey, retryCount, useCachedDataOnError)`:
   * `attempts[i]` is what the `i`-th call (the first and each retry) meets; when
   * the answers run out, the call is still waiting and nothing more is
   * delivered. `validUrl` stands for `URL(string:)`.
   */
  function Fetch<V>(baseUrl: string, maxRetryCount: int, validUrl: string -> bool, req: Request, retryCount: int,
                    cache: map<string, Bytes>, attempts: seq<Attempt>, decode: Bytes -> Option<V>): (r: Outcome<V>)
    ensures r.requests <= RequestBudget(retryCount, maxRetryCount)
    ensures r.requests <= |attempts|
    ensures forall i :: 0 <= i < |r.deliveries| - 1 ==> r.deliveries[i].Success?
    ensures forall k :: k in cache && Some(k) != req.cacheKey ==> k in r.cache && r.cache[k] == cache[k]
    ensures r.cache.Keys <= cache.Keys + (if req.cacheKey.Some? then {req.cacheKey.value} else {})
    ensures |attempts| >= RequestBudget(retryCount, maxRetryCount) ==> |r.deliveries| >= 1
    decreases |attempts|
  {
    if |attempts| == 0 then Outcome([], cache, 0)
    else
      var a := attempts[0];
      if !a.connected then Outcome([FallBack(req, cache, decode, NoInternet)], cache, 0)
      else if !validUrl(UrlString(baseUrl, req.endpoint)) then Outcome([Failure(InvalidUrl)], cache, 0)
      else
        var early := EarlyDelivery(req, cache, decode);
        match a.response
        case TransportError(timedOut, description) =>
          if timedOut then
            if retryCount < maxRetryCount then
              var rest := Fetch(baseUrl, maxRetryCount, validUrl, req, retryCount + 1, cache, attempts[1..], decode);
              Outcome(early + rest.deliveries, rest.cache, rest.requests + 1)
            else Outcome(early + [FallBack(req, cache, decode, Timeout)], cache, 1)
          else Outcome(early + [FallBack(req, cache, decode, Unknown(description))], cache, 1)
        case HttpResponse(status, data) =>
          if !(200 <= status <= 299) then
            if status >= 500 then
              if retryCount < maxRetryCount then
                var rest := Fetch(baseUrl, maxRetryCount, validUrl, req, retryCount + 1, cache, attempts[1..], decode);
                Outcome(early + rest.deliveries, rest.cache, rest.requests + 1)
              else Outcome(early + [FallBack(req, cache, decode, ServerError)], cache, 1)
            else Outcome(early + [Failure(RequestFailed(status))], cache, 1)
          else
            var (c, stored) := Received(req, cache, data, decode);
            Outcome(early + [c], stored, 1)
        case OtherResponse(data) =>
          var (c, stored) := Received(req, cache, data, decode);
          Outcome(early + [c], stored, 1)
  }

  /** The final completion call, if the fetch has finished. */
  function Final<V>(r: Outcome<V>): Option<Completion<V>> {
    if |r.deliveries| == 0 then None else Some(r.deliveries[|r.deliveries| - 1])
  }

  /** Offline, no request is made: the cache answers if allowed and present, else `noInternet`. */
  lemma OfflineMakesNoRequest<V>(baseUrl: string, maxRetryCount: int, validUrl: string -> bool, req: Request,
                                 retryCount: int, cache: map<string, Bytes>, attempts: seq<Attempt>,
                                 decode: Bytes -> Option<V>)
    requires |attempts| > 0 && !attempts[0].connected
    ensures var r := Fetch(baseUrl, maxRetryCount, validUrl, req, retryCount, cache, attempts, decode);
            && r.requests == 0 && r.cache == cache
            && r.deliveries == [FallBack(req, cache, decode, NoInternet)]
            && (Cached(req, cache).None? ==> r.deliveries == [Failure(NoInternet)])
  {
  }

  /** A client error (non-2xx below 500) is reported at once: no retry, no fallback. */
  lemma ClientErrorIsNotRetried<V>(baseUrl: string, maxRetryCount: int, validUrl: string -> bool, req: Request,
                                   retryCount: int, cache: map<string, Bytes>, attempts: seq<Attempt>,
                                   decode: Bytes -> Option<V>, status: int, data: Option<Bytes>)
    requires |attempts| > 0 && attempts[0].connected && validUrl(UrlString(baseUrl, req.endpoint))
    requires attempts[0].response == HttpResponse(status, data) && (status < 200 || 299 < status < 500)
    ensures var r := Fetch(baseUrl, maxRetryCount, validUrl, req, retryCount, cache, attempts, decode);
            && r.requests == 1 && r.cache == cache
            && Final(r) == Some(Failure(RequestFailed(status)))
  {
  }

  /** Every attempt timing out, from retry count 0 with max `m`. */
  predicate AllTimeOut(attempts: seq<Attempt>) {
    forall i :: 0 <= i < |attempts| ==> attempts[i].connected && attempts[i].response.TransportError? && attempts[i].response.timedOut
  }

  /**
   * When every attempt times out, `fetch` gives up after exactly
   * `maxRetryCount + 1` requests and falls back to the cache, else `timeout`.
   */
  lemma {:induction false} PersistentTimeoutGivesUp<V>(baseUrl: string, maxRetryCount: int, validUrl: string -> bool,
                                                       req: Request, retryCount: int, cache: map<string, Bytes>,
                                                       attempts: seq<Attempt>, decode: Bytes -> Option<V>)
    requires validUrl(UrlString(baseUrl, req.endpoint))
    requires AllTimeOut(attempts) && |attempts| >= RequestBudget(retryCount, maxRetryCount)
    ensures var r := Fetch(baseUrl, maxRetryCount, validUrl, req, retryCount, cache, attempts, decode);
            && r.requests == RequestBudget(retryCount, maxRetryCount)
            && r.cache == cache
            && Final(r) == Some(FallBack(req, cache, decode, Timeout))
    decreases |attempts|
  {
    var r := Fetch(baseUrl, maxRetryCount, validUrl, req, retryCount, cache, attempts, decode);
    var early := EarlyDelivery(req, cache, decode);
    if retryCount < maxRetryCount {
      assert AllTimeOut(attempts[1..]) by {
        forall i | 0 <= i < |attempts[1..]|
          ensures attempts[1..][i].connected && attempts[1..][i].response.TransportError? && attempts[1..][i].response.timedOut
        {
          assert attempts[1..][i] == attempts[i + 1];
        }
      }
      PersistentTimeoutGivesUp(baseUrl, maxRetryCount, validUrl, req, retryCount + 1, cache, attempts[1..], decode);
      var rest := Fetch(baseUrl, maxRetryCount, validUrl, req, retryCount + 1, cache, attempts[1..], decode);
      assert r == Outcome(early + rest.deliveries, rest.cache, rest.requests + 1);
      assert Final(r) == Final(rest);
    } else {
      assert r == Outcome(early + [FallBack(req, cache, decode, Timeout)], cache, 1);
    }
  }

  /**
   * A 2xx answer is stored under the key before it is decoded: data the
   * decoder rejects is reported as `decodingError` and still replaces the
   * cached copy.
   */
  lemma UndecodableAnswerIsStillCached<V>(baseUrl: string, maxRetryCount: int, validUrl: string -> bool,
                                          req: Request, retryCount: int, cache: map<string, Bytes>,
                                          attempts: seq<Attempt>, decode: Bytes -> Option<V>, status: int, data: Bytes)
    requires |attempts| > 0 && attempts[0].connected && validUrl(UrlString(baseUrl, req.endpoint))
    requires attempts[0].response == HttpResponse(status, Some(data)) && 200 <= status <= 299
    requires req.cacheKey.Some? && decode(data).None?
    ensures var r := Fetch(baseUrl, maxRetryCount, validUrl, req, retryCount, cache, attempts, decode);
            && r.cache == cache[req.cacheKey.value := data]
            && Final(r) == Some(Failure(DecodingError))
  {
  }

  /**
   * A GET whose key holds decodable data calls the completion twice: first
   * with the cached value, then with the network's.
   */
  lemma CachedGetCompletesTwice<V>(baseUrl: string, maxRetryCount: int, validUrl: string -> bool,
                                   req: Request, retryCount: int, cache: map<string, Bytes>,
                                   attempts: seq<Attempt>, decode: Bytes -> Option<V>, data: Bytes)
    requires |attempts| > 0 && attempts[0].connected && validUrl(UrlString(baseUrl, req.endpoint))
    requires attempts[0].response == HttpResponse(200, Some(data)) && decode(data).Some?
    requires req.httpMethod == "GET" && Cached(req, cache).Some? && decode(Cached(req, cache).value).Some?
    ensures Fetch(baseUrl, maxRetryCount, validUrl, req, retryCount, cache, attempts, decode).deliveries
            == [Success(decode(Cached(req, cache).value).value), Success(decode(data).value)]
  {
  }

  /** `fetchDevotionals`: the "devotional" endpoint, a GET cached under "recent_devotionals", falling back on error. */
  function FetchDevotionals<V>(baseUrl: string, maxRetryCount: int, validUrl: string -> bool,
                               cache: map<string, Bytes>, attempts: seq<Attempt>, decode: Bytes -> Option<V>): (r: Outcome<V>)
    ensures r.requests <= RequestBudget(0, maxRetryCount)
    ensures forall k :: k in cache && k != DevotionalsCacheKey ==> k in r.cache && r.cache[k] == cache[k]
    ensures |attempts| >= RequestBudget(0, maxRetryCount) ==> |r.deliveries| >= 1
  {
    Fetch(baseUrl, maxRetryCount, validUrl, Request(DevotionalsEndpoint, "GET", Some(DevotionalsCacheKey), true), 0,
          cache, attempts, decode)
  }

  /** With the default base the devotionals URL is the base, a slash, and "devotional". */
  lemma DevotionalsUrl()
    ensures UrlString(DefaultBaseUrl, DevotionalsEndpoint) == "https://jsonplaceholder.typicode.com/devotional"
  {
    assert !StartsWith(DevotionalsEndpoint, "http") by {
      assert DevotionalsEndpoint[0] != 'h';
    }
  }
}

=== FILE: notification_worker.dfy ===
/**
 * `NotificationWorker`: the two unique daily work requests (morning at 06:00,
 * nugget at 04:00) and what one run of the worker posts.
 */
module NotificationWorker {
  import opened Wrappers
  import opened Clock
  import opened Platform
  import opened Dates
  import opened Cache
  import opened Repository
  import opened NotificationScheduler

  const MorningWorkName := "morning_notification_work"
  const NuggetWorkName := "nugget_notification_work"
  const TypeMorning := "morning"
  const TypeNugget := "nugget"

  /**
   * The morning body this worker posts. The source file holds the em dash of
   * the receiver's message as three mis-decoded characters; the constant keeps
   * them as written.
   */
  const WorkerMorningMessage := "Refresh your spirit\U{E2}\U{20AC}\U{201D}your devotional awaits!"

  /** A daily request of the given type, first due at the next `hour:00:00.000` strictly after now. */
  function DailyWork(now: nat, hour: nat, notificationType: string): (w: Work)
    requires hour < 24
    ensures 0 < w.initialDelay <= DAY_MS
    ensures (now + w.initialDelay) % DAY_MS == hour * HOUR_MS
    ensures w.periodHours == 24 && !w.needsNetwork && w.notificationType == Some(notificationType)
  {
    Work(DelayUntil(now, hour, 0), 24, false, Some(notificationType))
  }

  /**
   * `scheduleMorningNotification`: enqueue the 06:00 request under its unique
   * name, keeping one already there.
   */
  function ScheduleMorningWork(os: Os, d: Device): (r: Os)
    ensures MorningWorkName in os.work ==> r == os
    ensures MorningWorkName !in os.work ==>
              && r.alarms == os.alarms && r.tray == os.tray
              && r.work.Keys == os.work.Keys + {MorningWorkName}
              && (forall n :: n in os.work ==> r.work[n] == os.work[n])
              && var w := r.work[MorningWorkName];
              && 0 < w.initialDelay <= DAY_MS && (d.now + w.initialDelay) % DAY_MS == 6 * HOUR_MS
              && w.periodHours == 24 && w.notificationType == Some(TypeMorning)
  {
    EnqueueUniqueKeep(os, MorningWorkName, DailyWork(d.now, 6, TypeMorning))
  }

  /** `scheduleNuggetNotification`: the same for the 04:00 nugget request. */
  function ScheduleNuggetWork(os: Os, d: Device): (r: Os)
    ensures NuggetWorkName in os.work ==> r == os
    ensures NuggetWorkName !in os.work ==>
              && r.alarms == os.alarms && r.tray == os.tray
              && r.work.Keys == os.work.Keys + {NuggetWorkName}
              && (forall n :: n in os.work ==> r.work[n] == os.work[n])
              && var w := r.work[NuggetWorkName];
              && 0 < w.initialDelay <= DAY_MS && (d.now + w.initialDelay) % DAY_MS == 4 * HOUR_MS
              && w.periodHours == 24 && w.notificationType == Some(TypeNugget)
  {
    EnqueueUniqueKeep(os, NuggetWorkName, DailyWork(d.now, 4, TypeNugget))
  }

  /** `cancelMorningNotification`: only the morning request goes. */
  function CancelMorningWork(os: Os): (r: Os)
    ensures r.alarms == os.alarms && r.tray == os.tray
    ensures r.work.Keys == os.work.Keys - {MorningWorkName}
    ensures forall n :: n in r.work ==> r.work[n] == os.work[n]
  {
    CancelUniqueWork(os, MorningWorkName)
  }

  /** `cancelNuggetNotification`: only the nugget request goes. */
  function CancelNuggetWork(os: Os): (r: Os)
    ensures r.alarms == os.alarms && r.tray == os.tray
    ensures r.work.Keys == os.work.Keys - {NuggetWorkName}
    ensures forall n :: n in r.work ==> r.work[n] == os.work[n]
  {
    CancelUniqueWork(os, NuggetWorkName)
  }

  /** Scheduling is idempotent, later calls keeping the first request whatever the time. */
  lemma ScheduleWorkIdempotent(os: Os, d1: Device, d2: Device)
    ensures ScheduleMorningWork(ScheduleMorningWork(os, d1), d2) == ScheduleMorningWork(os, d1)
    ensures ScheduleNuggetWork(ScheduleNuggetWork(os, d1), d2) == ScheduleNuggetWork(os, d1)
  {
  }

  /** Cancelling one kind of work and scheduling the other commute. */
  lemma WorkKindsAreIndependent(os: Os, d: Device)
    ensures CancelNuggetWork(ScheduleMorningWork(os, d)) == ScheduleMorningWork(CancelNuggetWork(os), d)
    ensures CancelMorningWork(ScheduleNuggetWork(os, d)) == ScheduleNuggetWork(CancelMorningWork(os), d)
  {
  }

  datatype WorkRun = WorkRun(result: WorkResult, os: Os)

  /** The nugget notification's body: today's nugget, or the fallback text. */
  function NuggetNotification(json: Json, store: Store, today: Date, o: FetchOutcome): (n: Notification)
    ensures n.title == NuggetTitle
    ensures var found := GetTodaysNugget(json, store, today, o).nugget;
            n.message == if found.Some? then found.value else NuggetFallbackMessage
  {
    Notification(NuggetTitle, GetTodaysNugget(json, store, today, o).nugget.GetOr(NuggetFallbackMessage))
  }

  /**
   * `doWork` for the request's `notificationType`. The settings come from
   * `store`; `o` is what the nugget lookup's request would answer; `throws`
   * says that reading the settings threw.
   */
  function DoWork(os: Os, json: Json, store: Store, today: Date, notificationType: Option<string>,
                  o: FetchOutcome, throws: bool): (r: WorkRun)
    ensures r.os.alarms == os.alarms && r.os.work == os.work
    ensures r.result == WorkFailure <==> throws
    ensures r.result != WorkRetry
    ensures var s := GetNotificationSettings(store);
            && (throws || !s.enabled ==> r.os == os)
            && (!throws && s.enabled && notificationType == Some(TypeMorning) && s.morningEnabled ==>
                  r.os.tray == os.tray[MorningNotificationId := Notification(MorningTitle, WorkerMorningMessage)])
            && (!throws && s.enabled && notificationType == Some(TypeNugget) && s.nuggetEnabled ==>
                  r.os.tray == os.tray[NuggetNotificationId := NuggetNotification(json, store, today, o)])
            && (notificationType != Some(TypeMorning) && notificationType != Some(TypeNugget) ==> r.os == os)
            && (notificationType == Some(TypeMorning) && !s.morningEnabled ==> r.os == os)
            && (notificationType == Some(TypeNugget) && !s.nuggetEnabled ==> r.os == os)
  {
    if throws then WorkRun(WorkFailure, os)
    else
      var s := GetNotificationSettings(store);
      if !s.enabled then WorkRun(WorkSuccess, os)
      else if notificationType == Some(TypeMorning) then
        if s.morningEnabled then
          WorkRun(WorkSuccess, Notify(os, MorningNotificationId, Notification(MorningTitle, WorkerMorningMessage)))
        else WorkRun(WorkSuccess, os)
      else if notificationType == Some(TypeNugget) then
        if s.nuggetEnabled then
          WorkRun(WorkSuccess, Notify(os, NuggetNotificationId, NuggetNotification(json, store, today, o)))
        else WorkRun(WorkSuccess, os)
      else WorkRun(WorkSuccess, os)
  }

  /** With no switches saved yet, every switch is on, so both kinds post. */
  lemma FreshInstallPostsBoth(os: Os, json: Json, today: Date, o: FetchOutcome)
    ensures NuggetNotificationId in DoWork(os, json, map[], today, Some(TypeNugget), o, false).os.tray
    ensures MorningNotificationId in DoWork(os, json, map[], today, Some(TypeMorning), o, false).os.tray
  {
  }

  /**
   * A nugget for today in the cache is posted as it is, whatever the network
   * would have answered.
   */
  lemma CachedNuggetIsPosted(os: Os, json: Json, store: Store, today: Date, o: FetchOutcome, nugget: string)
    requires GetNotificationSettings(store).enabled && GetNotificationSettings(store).nuggetEnabled
    requires FindTodaysNugget(CachedDevotionals(json, store), today) == Some(nugget)
    ensures DoWork(os, json, store, today, Some(TypeNugget), o, false).os.tray[NuggetNotificationId]
            == Notification(NuggetTitle, nugget)
  {
  }

  /**
   * The morning body this worker posts is not the receiver's: the same
   * reminder reads differently depending on which path delivered it.
   */
  lemma MorningBodiesDiffer()
    ensures WorkerMorningMessage != MorningMessage
    ensures |WorkerMorningMessage| == |MorningMessage| + 2
  {
    assert WorkerMorningMessage[19] != MorningMessage[19];
  }
}

=== FILE: platform.dfy ===
/**
 * The three Android registries the app writes to, as maps, and the device
 * facts it reads. AlarmManager keeps one alarm per PendingIntent (request code
 * and action), and setting it again replaces it; WorkManager keeps one periodic
 * request per unique name, and the KEEP policy ignores a second one; the
 * notification tray keeps one notification per id, and posting again replaces
 * it.
 */
module Platform {
  import opened Wrappers

  /** `setExactAndAllowWhileIdle`, `setAndAllowWhileIdle`, or `setRepeating` with `INTERVAL_DAY`. */
  datatype AlarmKind = Exact | Inexact | RepeatingDaily

  /** A registered alarm and the broadcast it will send. */
  datatype Alarm = Alarm(action: string, fireAt: int, kind: AlarmKind, title: string, message: string, notificationId: int)

  /** A unique periodic work request. */
  datatype Work = Work(initialDelay: int, periodHours: nat, needsNetwork: bool, notificationType: Option<string>)

  /** `ListenableWorker.Result`. */
  datatype WorkResult = WorkSuccess | WorkFailure | WorkRetry

  datatype Notification = Notification(title: string, message: string)

  datatype Os = Os(alarms: map<int, Alarm>, work: map<string, Work>, tray: map<int, Notification>)

  /** What the app can learn about the device: API level, the two permissions, and the wall clock in ms. */
  datatype Device = Device(sdk: nat, notificationsPermitted: bool, exactAlarmsPermitted: bool, now: nat)

  /** `alarmManager.set…(…, pendingIntent)`: the alarm under `code` is replaced. */
  function SetAlarm(os: Os, code: int, a: Alarm): (r: Os)
    ensures r.work == os.work && r.tray == os.tray
    ensures r.alarms.Keys == os.alarms.Keys + {code} && r.alarms[code] == a
    ensures forall c :: c in os.alarms && c != code ==> r.alarms[c] == os.alarms[c]
  {
    os.(alarms := os.alarms[code := a])
  }

  /** `alarmManager.cancel(pendingIntent)`. */
  function CancelAlarm(os: Os, code: int): (r: Os)
    ensures r.work == os.work && r.tray == os.tray
    ensures r.alarms.Keys == os.alarms.Keys - {code}
    ensures forall c :: c in r.alarms ==> r.alarms[c] == os.alarms[c]
  {
    os.(alarms := os.alarms - {code})
  }

  /** `enqueueUniquePeriodicWork(name, KEEP, w)`: nothing changes when `name` is already enqueued. */
  function EnqueueUniqueKeep(os: Os, name: string, w: Work): (r: Os)
    ensures name in os.work ==> r == os
    ensures name !in os.work ==> r.alarms == os.alarms && r.tray == os.tray && r.work == os.work[name := w]
    ensures name in r.work
  {
    if name in os.work then os else os.(work := os.work[name := w])
  }

  /** `cancelUniqueWork(name)`. */
  function CancelUniqueWork(os: Os, name: string): (r: Os)
    ensures r.alarms == os.alarms && r.tray == os.tray
    ensures r.work.Keys == os.work.Keys - {name}
    ensures forall n :: n in r.work ==> r.work[n] == os.work[n]
  {
    os.(work := os.work - {name})
  }

  /** `notificationManager.notify(id, n)`. */
  function Notify(os: Os, id: int, n: Notification): (r: Os)
    ensures r.alarms == os.alarms && r.work == os.work
    ensures r.tray.Keys == os.tray.Keys + {id} && r.tray[id] == n
    ensures forall i :: i in os.tray && i != id ==> r.tray[i] == os.tray[i]
  {
    os.(tray := os.tray[id := n])
  }

  /** `notificationManager.cancel(id)`. */
  function CancelNotification(os: Os, id: int): (r: Os)
    ensures r.alarms == os.alarms && r.work == os.work
    ensures r.tray.Keys == os.tray.Keys - {id}
    ensures forall i :: i in r.tray ==> r.tray[i] == os.tray[i]
  {
    os.(tray := os.tray - {id})
  }

  /** Enqueueing the same unique work twice is enqueueing it once, whatever the second request says. */
  lemma EnqueueKeepIdempotent(os: Os, name: string, w1: Work, w2: Work)
    ensures EnqueueUniqueKeep(EnqueueUniqueKeep(os, name, w1), name, w2) == EnqueueUniqueKeep(os, name, w1)
  {
  }

  /** Setting an alarm again replaces it: only the last one set is registered. */
  lemma SetAlarmReplaces(os: Os, code: int, a1: Alarm, a2: Alarm)
    ensures SetAlarm(SetAlarm(os, code, a1), code, a2) == SetAlarm(os, code, a2)
  {
  }

  /**
   * Registry calls made one after another inside a `try`: when call `k`
   * (counting from 0) throws, the calls before it have taken effect and the
   * rest are skipped. `None` means nothing throws.
   */
  function RunSteps(os: Os, steps: seq<Os -> Os>, throwsAt: Option<nat>): Os
    decreases |steps|
  {
    if steps == [] || throwsAt == Some(0) then os
    else RunSteps(steps[0](os), steps[1..], if throwsAt.Some? then Some(throwsAt.value - 1) else None)
  }

  /** Without an exception every call takes effect, in order. */
  lemma {:induction false} RunStepsAppend(os: Os, steps: seq<Os -> Os>, more: seq<Os -> Os>)
    ensures RunSteps(os, steps + more, None) == RunSteps(RunSteps(os, steps, None), more, None)
    decreases |steps|
  {
    if steps != [] {
      assert (steps + more)[1..] == steps[1..] + more;
      RunStepsAppend(steps[0](os), steps[1..], more);
    } else {
      assert steps + more == more;
    }
  }

  /** Two calls without an exception: the second applies to the first one's result. */
  lemma RunStepsPair(os: Os, f: Os -> Os, g: Os -> Os)
    ensures RunSteps(os, [f], None) == f(os)
    ensures RunSteps(os, [f, g], None) == g(f(os))
  {
    assert [f, g][1..] == [g];
    assert [f][1..] == [];
    assert RunSteps(os, [f, g], None) == RunSteps(f(os), [g], None);
    assert RunSteps(f(os), [g], None) == RunSteps(g(f(os)), [], None);
  }

  /**
   * A run of calls none of which changes what `f` observes leaves it as it
   * was, however far the run gets before a call throws.
   */
  lemma {:induction false} RunStepsKeeps<T>(os: Os, steps: seq<Os -> Os>, throwsAt: Option<nat>, f: Os -> T)
    requires forall i, o :: 0 <= i < |steps| ==> f(steps[i](o)) == f(o)
    ensures f(RunSteps(os, steps, throwsAt)) == f(os)
    decreases |steps|
  {
    if steps != [] && throwsAt != Some(0) {
      var next := if throwsAt.Some? then Some(throwsAt.value - 1) else None;
      assert forall i, o :: 0 <= i < |steps[1..]| ==> steps[1..][i](o) == steps[i + 1](o);
      RunStepsKeeps(steps[0](os), steps[1..], next, f);
      assert f(steps[0](os)) == f(os);
    }
  }

  /** An exception at the first call changes nothing. */
  lemma RunStepsThrowingFirst(os: Os, steps: seq<Os -> Os>)
    ensures RunSteps(os, steps, Some(0)) == os
  {
  }
}

=== FILE: registrations.dfy ===
/**
 * The registrations that belong to one kind of reminder: its alarm, its tray
 * notification and its unique work. Toggling one kind must leave the other
 * kind's view unchanged.
 */
module Registrations {
  import opened Wrappers
  import opened Platform
  import opened NotificationScheduler
  import opened NotificationWorker

  datatype Kind = MorningKind | NuggetKind

  datatype View = View(alarm: Option<Alarm>, notification: Option<Notification>, work: Option<Work>)

  function AlarmCode(k: Kind): int {
    if k == MorningKind then MorningRequestCode else NuggetRequestCode
  }

  function NotificationId(k: Kind): int {
    if k == MorningKind then MorningNotificationId else NuggetNotificationId
  }

  function WorkName(k: Kind): string {
    if k == MorningKind then MorningWorkName else NuggetWorkName
  }

  function Lookup<K, V>(m: map<K, V>, key: K): Option<V> {
    if key in m then Some(m[key]) else None
  }

  /** What the registries hold for kind `k`. */
  function ViewOf(os: Os, k: Kind): View {
    View(Lookup(os.alarms, AlarmCode(k)), Lookup(os.tray, NotificationId(k)), Lookup(os.work, WorkName(k)))
  }

  /** The two kinds use different codes, ids and names. */
  lemma KindsAreDisjoint()
    ensures AlarmCode(MorningKind) != AlarmCode(NuggetKind)
    ensures NotificationId(MorningKind) != NotificationId(NuggetKind)
    ensures WorkName(MorningKind) != WorkName(NuggetKind)
  {
  }

  /** A run of calls, each leaving kind `k` alone, leaves it alone however far it gets. */
  lemma RunStepsKeepsView(os: Os, steps: seq<Os -> Os>, throwsAt: Option<nat>, k: Kind)
    requires forall i, o :: 0 <= i < |steps| ==> ViewOf(steps[i](o), k) == ViewOf(o, k)
    ensures ViewOf(RunSteps(os, steps, throwsAt), k) == ViewOf(os, k)
  {
    RunStepsKeeps(os, steps, throwsAt, (o: Os) => ViewOf(o, k));
  }
}

=== FILE: repository.dfy ===
/**
 * `DevotionalRepository` of the current Android app: one WordPress request,
 * the devotional cache, and the cache-first lookup of today's nugget.
 *
 * The request is an input: what `api.getDevotionalsWithLimit()` answered, or
 * that it threw. Flows are the finite sequence of values they emit.
 */
module Repository {
  import opened Wrappers
  import opened Strings
  import opened Dates
  import opened Devotionals
  import opened DateOrder
  import opened Cache

  /** `ApiService.ApiResult`: what a devotional flow emits. */
  datatype ApiResult<T> = Success(data: T) | Error(message: string) | Loading

  /**
   * The request's outcome: an HTTP status with a body that may be null, or an
   * exception with its (possibly null) message.
   */
  datatype FetchOutcome = Response(code: int, body: Option<seq<Devotional>>) | Thrown(message: Option<string>)

  /** Retrofit's `isSuccessful`: a 2xx status. */
  predicate IsSuccessful(code: int) {
    200 <= code < 300
  }

  /** `response.isSuccessful && response.body() != null`. */
  predicate Delivered(o: FetchOutcome) {
    o.Response? && IsSuccessful(o.code) && o.body.Some?
  }

  /** `"API Error: ${response.code()}"`. */
  function ApiErrorMessage(code: int): string {
    "API Error: " + IntToString(code)
  }

  /** The message a failed request hands to `emitCachedOrError`; a null exception message prints as `null`. */
  function FailureMessage(o: FetchOutcome): string
    requires !Delivered(o)
  {
    match o
    case Response(code, _) => ApiErrorMessage(code)
    case Thrown(message) => "Network Error: " + message.GetOr("null")
  }

  /** A finished flow: what it emitted and the cache it left behind. */
  datatype Run = Run(emitted: seq<ApiResult<seq<Devotional>>>, store: Store)

  /**
   * `emitCachedOrError`: the cached list when there is one, otherwise an
   * error carrying the message.
   */
  function EmitCachedOrError(json: Json, store: Store, message: string): (r: ApiResult<seq<Devotional>>)
    ensures !r.Loading?
    ensures r.Success? <==> |CachedDevotionals(json, store)| > 0
    ensures r.Success? ==> r.data == CachedDevotionals(json, store)
    ensures r.Error? ==> r.message == message
  {
    var cached := CachedDevotionals(json, store);
    if |cached| > 0 then Success(cached) else Error(message)
  }

  /**
   * `getDevotionals` as written: `Loading`, then on a delivered response the
   * newest-first list, saved before it is emitted. On failure the flow
   * `emitCachedOrError` builds is dropped, so nothing follows `Loading` and the
   * cache is untouched.
   */
  function GetDevotionals(json: Json, store: Store, o: FetchOutcome): (r: Run)
    ensures |r.emitted| >= 1 && r.emitted[0] == Loading
    ensures Delivered(o) <==> |r.emitted| == 2
    ensures Delivered(o) ==>
              && r.emitted[1].Success?
              && SortedDesc(r.emitted[1].data)
              && multiset(r.emitted[1].data) == multiset(o.body.value)
              && r.store == SaveDevotionals(json, store, r.emitted[1].data)
    ensures !Delivered(o) ==> r.store == store
  {
    if Delivered(o) then
      var sorted := SortByDateDesc(o.body.value);
      Run([Loading, Success(sorted)], SaveDevotionals(json, store, sorted))
    else
      var _ := EmitCachedOrError(json, store, FailureMessage(o));
      Run([Loading], store)
  }

  /**
   * `getDevotionals` as its comments describe it: on failure the cached list,
   * or the error, is emitted after `Loading`.
   */
  function GetDevotionalsCorrected(json: Json, store: Store, o: FetchOutcome): (r: Run)
    ensures |r.emitted| == 2 && r.emitted[0] == Loading && !r.emitted[1].Loading?
    ensures Delivered(o) ==>
              && r.emitted[1].Success?
              && SortedDesc(r.emitted[1].data)
              && multiset(r.emitted[1].data) == multiset(o.body.value)
              && r.store == SaveDevotionals(json, store, r.emitted[1].data)
    ensures !Delivered(o) ==> r.store == store && r.emitted[1] == EmitCachedOrError(json, store, FailureMessage(o))
  {
    if Delivered(o) then GetDevotionals(json, store, o)
    else Run([Loading, EmitCachedOrError(json, store, FailureMessage(o))], store)
  }

  /**
   * A failed request leaves the as-written flow on `Loading` even with a
   * cached list at hand, which the corrected flow delivers.
   */
  lemma FailedFetchNeverSettles(json: Json, store: Store, o: FetchOutcome)
    requires !Delivered(o) && |CachedDevotionals(json, store)| > 0
    ensures GetDevotionals(json, store, o).emitted == [Loading]
    ensures GetDevotionalsCorrected(json, store, o).emitted
            == [Loading, Success(CachedDevotionals(json, store))]
  {
  }

  /**
   * Offline after online: the corrected flow shows the list the last
   * successful run saved; the flow as written shows nothing.
   */
  lemma {:induction false} OfflineServesLastSavedList(json: Json, store: Store, online: FetchOutcome, offline: FetchOutcome)
    requires Faithful(json)
    requires Delivered(online) && |online.body.value| > 0 && !Delivered(offline)
    ensures var first := GetDevotionalsCorrected(json, store, online);
            GetDevotionalsCorrected(json, first.store, offline).emitted[1] == first.emitted[1]
    ensures GetDevotionals(json, GetDevotionals(json, store, online).store, offline).emitted == [Loading]
  {
    var first := GetDevotionalsCorrected(json, store, online);
    var sorted := first.emitted[1].data;
    SaveThenReadDevotionals(json, store, sorted);
    assert |multiset(sorted)| == |multiset(online.body.value)|;
  }

  /** `Result<List<Devotional>>`: the list, or the failure's message. */
  datatype RefreshResult = Refreshed(list: seq<Devotional>) | RefreshFailed(message: Option<string>)

  datatype Refresh = Refresh(result: RefreshResult, store: Store)

  /**
   * `refreshDevotionals`: a delivered response is sorted newest first, saved,
   * and returned; anything else fails and writes nothing.
   */
  function RefreshDevotionals(json: Json, store: Store, o: FetchOutcome): (r: Refresh)
    ensures r.result.Refreshed? <==> Delivered(o)
    ensures r.result.Refreshed? ==>
              && SortedDesc(r.result.list)
              && multiset(r.result.list) == multiset(o.body.value)
              && (forall key :: WithDate(r.result.list, key) == WithDate(o.body.value, key))
              && r.store == SaveDevotionals(json, store, r.result.list)
    ensures r.result.RefreshFailed? ==> r.store == store
    ensures o.Response? && !Delivered(o) ==> r.result.message == Some(ApiErrorMessage(o.code))
    ensures o.Thrown? ==> r.result.message == o.message
  {
    match o
    case Thrown(message) => Refresh(RefreshFailed(message), store)
    case Response(code, body) =>
      if Delivered(o) then
        var sorted := SortByDateDesc(body.value);
        Refresh(Refreshed(sorted), SaveDevotionals(json, store, sorted))
      else Refresh(RefreshFailed(Some(ApiErrorMessage(code))), store)
  }

  /** After a successful refresh the cache holds exactly the list it returned. */
  lemma RefreshSavesWhatItReturns(json: Json, store: Store, o: FetchOutcome)
    requires Faithful(json) && Delivered(o)
    ensures var r := RefreshDevotionals(json, store, o);
            CachedDevotionals(json, r.store) == r.result.list
  {
    var r := RefreshDevotionals(json, store, o);
    SaveThenReadDevotionals(json, store, r.result.list);
  }

  /** A refresh and a successful `getDevotionals` agree on the list and on the cache. */
  lemma RefreshAgreesWithGetDevotionals(json: Json, store: Store, o: FetchOutcome)
    requires Delivered(o)
    ensures var g := GetDevotionals(json, store, o);
            var f := RefreshDevotionals(json, store, o);
            g.emitted[1] == Success(f.result.list) && g.store == f.store
  {
  }

  /**
   * `LocalDateTime.parse(date).toLocalDate().isEqual(today)`, a parse failure
   * counting as no match.
   */
  predicate IsTodayLocal(date: string, today: Date) {
    var p := ParseIsoLocal(date);
    p.Some? && p.value.date == today
  }

  /** Index of the first entry, from `i` on, dated today. */
  function FirstDatedTodayFrom(l: seq<Devotional>, today: Date, i: nat): (r: Option<nat>)
    requires i <= |l|
    ensures r.Some? ==> i <= r.value < |l| && IsTodayLocal(l[r.value].date, today)
                        && forall j :: i <= j < r.value ==> !IsTodayLocal(l[j].date, today)
    ensures r.None? ==> forall j :: i <= j < |l| ==> !IsTodayLocal(l[j].date, today)
    decreases |l| - i
  {
    if i == |l| then None
    else if IsTodayLocal(l[i].date, today) then Some(i)
    else FirstDatedTodayFrom(l, today, i + 1)
  }

  /** `firstOrNull { it is dated today }`, as an index. */
  function FirstDatedToday(l: seq<Devotional>, today: Date): (r: Option<nat>)
    ensures r.Some? ==> r.value < |l| && IsTodayLocal(l[r.value].date, today)
                        && forall j :: 0 <= j < r.value ==> !IsTodayLocal(l[j].date, today)
    ensures r.None? ==> forall j :: 0 <= j < |l| ==> !IsTodayLocal(l[j].date, today)
  {
    FirstDatedTodayFrom(l, today, 0)
  }

  /** `findTodaysNugget`: the nugget of the first entry dated today, null if it has none. */
  function FindTodaysNugget(l: seq<Devotional>, today: Date): (r: Option<string>)
    ensures r.Some? ==> exists i :: 0 <= i < |l| && IsTodayLocal(l[i].date, today) && NuggetOf(l[i]) == r
    ensures (forall i :: 0 <= i < |l| ==> !IsTodayLocal(l[i].date, today)) ==> r.None?
  {
    match FirstDatedToday(l, today)
    case None => None
    case Some(i) => NuggetOf(l[i])
  }

  /**
   * The first entry dated today decides, even when it carries no nugget and a
   * later entry of the same day does.
   */
  lemma FirstTodayDecides(l: seq<Devotional>, today: Date, i: nat)
    requires i < |l| && IsTodayLocal(l[i].date, today)
    requires forall j :: 0 <= j < i ==> !IsTodayLocal(l[j].date, today)
    ensures FindTodaysNugget(l, today) == NuggetOf(l[i])
  {
  }

  /** A WordPress date of today's day matches, whatever the time. */
  lemma WordPressDateIsToday(dt: DateTime)
    requires ValidDateTime(dt) && dt.time.nano == 0
    ensures IsTodayLocal(WordPressDate(dt), dt.date)
  {
    WordPressDateRoundTrip(dt);
  }

  /** A date with a zone designator or offset never matches. */
  lemma OffsetDatesNeverToday(s: string, today: Date)
    requires |s| >= 6 && (IsZoneZ(s[|s| - 1]) || s[|s| - 6] == '+' || s[|s| - 6] == '-')
    ensures !IsTodayLocal(s, today)
  {
    if |s| >= 17 {
      TimeFieldsUnsigned(s[11..], |s| - 17);
      assert s[11..][|s| - 17] == s[|s| - 6];
    }
  }

  /** `getTodaysNugget`'s answer and how many requests it made. */
  datatype NuggetLookup = NuggetLookup(nugget: Option<string>, apiCalls: nat)

  /**
   * `getTodaysNugget`: today's nugget from the cache when it has one, with no
   * request; otherwise one request, searched in server order and not saved.
   * `o` is what that request would answer.
   */
  function GetTodaysNugget(json: Json, store: Store, today: Date, o: FetchOutcome): (r: NuggetLookup)
    ensures var cached := FindTodaysNugget(CachedDevotionals(json, store), today);
            && (cached.Some? ==> r == NuggetLookup(cached, 0))
            && (cached.None? ==> r.apiCalls == 1)
            && (cached.None? && !Delivered(o) ==> r.nugget.None?)
            && (cached.None? && Delivered(o) ==> r.nugget == FindTodaysNugget(o.body.value, today))
    ensures r.nugget.Some? ==>
              exists d :: (d in CachedDevotionals(json, store) || (Delivered(o) && d in o.body.value))
                          && IsTodayLocal(d.date, today) && NuggetOf(d) == r.nugget
  {
    var cached := FindTodaysNugget(CachedDevotionals(json, store), today);
    if cached.Some? then NuggetLookup(cached, 0)
    else if Delivered(o) then NuggetLookup(FindTodaysNugget(o.body.value, today), 1)
    else NuggetLookup(None, 1)
  }

  /**
   * On a cache miss the response is searched as the server ordered it: its
   * first entry dated today decides, even when sorting would put another
   * same-day entry first or that entry carries no nugget.
   */
  lemma CacheMissUsesServerOrder(json: Json, store: Store, today: Date, o: FetchOutcome, i: nat)
    requires FindTodaysNugget(CachedDevotionals(json, store), today).None? && Delivered(o)
    requires i < |o.body.value| && IsTodayLocal(o.body.value[i].date, today)
    requires forall j :: 0 <= j < i ==> !IsTodayLocal(o.body.value[j].date, today)
    ensures GetTodaysNugget(json, store, today, o).nugget == NuggetOf(o.body.value[i])
  {
    FirstTodayDecides(o.body.value, today, i);
  }
}

=== FILE: scheduler.dfy ===
/**
 * `NotificationScheduler` and `NotificationReceiver`: the daily morning alarm
 * (06:00) and the deprecated nugget alarm (10:00), their cancellation, and
 * what the receiver does when an alarm goes off.
 */
module NotificationScheduler {
  import opened Wrappers
  import opened Clock
  import opened Platform

  const MorningNotificationId := 100
  const NuggetNotificationId := 101
  const MorningRequestCode := 1000
  const NuggetRequestCode := 1001
  const ActionMorningReminder := "MORNING_REMINDER"
  const ActionDailyNugget := "DAILY_NUGGET"

  const MorningTitle := "Morning Devotional"
  const MorningMessage := "Refresh your spirit—your devotional awaits!"
  const NuggetTitle := "Daily Nugget"
  const NuggetFallbackMessage := "Your spiritual insight for today is ready!"

  /** `hasNotificationPermission`: only asked for from API 33 (Tiramisu) on. */
  predicate HasNotificationPermission(d: Device) {
    d.sdk < 33 || d.notificationsPermitted
  }

  /** `canScheduleExactAlarms`: only asked for from API 31 (S) on. */
  predicate CanScheduleExactAlarms(d: Device) {
    d.sdk < 31 || d.exactAlarmsPermitted
  }

  /** The AlarmManager call chosen for the device. */
  function AlarmKindFor(d: Device): (k: AlarmKind)
    ensures k == Exact <==> d.sdk >= 31 && d.exactAlarmsPermitted
    ensures k == Inexact <==> d.sdk >= 31 && !d.exactAlarmsPermitted
    ensures k == RepeatingDaily <==> d.sdk < 31
  {
    if d.sdk >= 31 then (if CanScheduleExactAlarms(d) then Exact else Inexact) else RepeatingDaily
  }

  /**
   * `Calendar.getInstance()` set to `hour:00:00` (the millisecond field keeps
   * the current one), moved a day on when strictly before now.
   */
  function DailyFireTime(now: nat, hour: nat): (t: nat)
    requires hour < 24
    ensures now <= t < now + DAY_MS
    ensures t % DAY_MS == hour * HOUR_MS + now % SECOND_MS
  {
    NextOccurrence(now, TargetTimeOfDay(now, hour, 0, true), RollIfBefore)
  }

  /** The shared body of the two schedule functions. */
  function ScheduleDailyAlarm(os: Os, d: Device, code: int, action: string, hour: nat,
                              title: string, message: string, notificationId: int): Os
    requires hour < 24
  {
    if !HasNotificationPermission(d) then os
    else SetAlarm(os, code, Alarm(action, DailyFireTime(d.now, hour), AlarmKindFor(d), title, message, notificationId))
  }

  /**
   * `scheduleMorningNotification`: without permission nothing changes;
   * otherwise alarm 1000 is (re)placed for the next 06:00 within a day of now,
   * and nothing else is touched.
   */
  function ScheduleMorning(os: Os, d: Device): (r: Os)
    ensures !HasNotificationPermission(d) ==> r == os
    ensures HasNotificationPermission(d) ==>
              && r.work == os.work && r.tray == os.tray
              && r.alarms.Keys == os.alarms.Keys + {MorningRequestCode}
              && (forall c :: c in os.alarms && c != MorningRequestCode ==> r.alarms[c] == os.alarms[c])
              && var a := r.alarms[MorningRequestCode];
              && a.action == ActionMorningReminder && a.notificationId == MorningNotificationId
              && a.title == MorningTitle && a.message == MorningMessage
              && d.now <= a.fireAt < d.now + DAY_MS
              && a.fireAt % DAY_MS == 6 * HOUR_MS + d.now % SECOND_MS
              && a.kind == AlarmKindFor(d)
  {
    ScheduleDailyAlarm(os, d, MorningRequestCode, ActionMorningReminder, 6,
                       MorningTitle, MorningMessage, MorningNotificationId)
  }

  /**
   * `scheduleNuggetNotification(content)`: as the morning alarm, under code
   * 1001 at 10:00, the message being the content or the fallback.
   */
  function ScheduleNugget(os: Os, d: Device, content: Option<string>): (r: Os)
    ensures !HasNotificationPermission(d) ==> r == os
    ensures HasNotificationPermission(d) ==>
              && r.work == os.work && r.tray == os.tray
              && r.alarms.Keys == os.alarms.Keys + {NuggetRequestCode}
              && (forall c :: c in os.alarms && c != NuggetRequestCode ==> r.alarms[c] == os.alarms[c])
              && var a := r.alarms[NuggetRequestCode];
              && a.action == ActionDailyNugget && a.notificationId == NuggetNotificationId
              && a.title == NuggetTitle
              && a.message == (if content.Some? then content.value else NuggetFallbackMessage)
              && d.now <= a.fireAt < d.now + DAY_MS
              && a.fireAt % DAY_MS == 10 * HOUR_MS + d.now % SECOND_MS
              && a.kind == AlarmKindFor(d)
  {
    ScheduleDailyAlarm(os, d, NuggetRequestCode, ActionDailyNugget, 10,
                       NuggetTitle, content.GetOr(NuggetFallbackMessage), NuggetNotificationId)
  }

  /** `cancelMorningNotification`: alarm 1000 and notification 100 go; the rest stays. */
  function CancelMorning(os: Os): (r: Os)
    ensures r.work == os.work
    ensures r.alarms.Keys == os.alarms.Keys - {MorningRequestCode}
    ensures r.tray.Keys == os.tray.Keys - {MorningNotificationId}
    ensures forall c :: c in r.alarms ==> r.alarms[c] == os.alarms[c]
    ensures forall i :: i in r.tray ==> r.tray[i] == os.tray[i]
  {
    CancelNotification(CancelAlarm(os, MorningRequestCode), MorningNotificationId)
  }

  /** `cancelNuggetNotification`: alarm 1001 and notification 101 go; the rest stays. */
  function CancelNugget(os: Os): (r: Os)
    ensures r.work == os.work
    ensures r.alarms.Keys == os.alarms.Keys - {NuggetRequestCode}
    ensures r.tray.Keys == os.tray.Keys - {NuggetNotificationId}
    ensures forall c :: c in r.alarms ==> r.alarms[c] == os.alarms[c]
    ensures forall i :: i in r.tray ==> r.tray[i] == os.tray[i]
  {
    CancelNotification(CancelAlarm(os, NuggetRequestCode), NuggetNotificationId)
  }

  /** Scheduling one kind and cancelling the other commute: the two kinds share no registration. */
  lemma KindsAreIndependent(os: Os, d: Device)
    ensures CancelNugget(ScheduleMorning(os, d)) == ScheduleMorning(CancelNugget(os), d)
    ensures CancelMorning(ScheduleNugget(os, d, None)) == ScheduleNugget(CancelMorning(os), d, None)
  {
  }

  /** Scheduling twice leaves what scheduling once does. */
  lemma ScheduleMorningIdempotent(os: Os, d: Device)
    ensures ScheduleMorning(ScheduleMorning(os, d), d) == ScheduleMorning(os, d)
  {
  }

  /** Cancelling undoes scheduling on registries that held no morning registration. */
  lemma CancelUndoesScheduleMorning(os: Os, d: Device)
    requires MorningRequestCode !in os.alarms && MorningNotificationId !in os.tray
    ensures CancelMorning(ScheduleMorning(os, d)) == os
  {
    assert (os.alarms[MorningRequestCode := Alarm("", 0, Exact, "", "", 0)] - {MorningRequestCode}) == os.alarms;
    assert ScheduleMorning(os, d).alarms - {MorningRequestCode} == os.alarms;
    assert os.tray - {MorningNotificationId} == os.tray;
  }

  /**
   * `NotificationReceiver.onReceive`: the morning action posts notification 100
   * and re-arms the morning alarm; the nugget action and any other action do
   * nothing.
   */
  function OnReceive(os: Os, d: Device, action: Option<string>): (r: Os)
    ensures action == Some(ActionMorningReminder) ==>
              && r.tray.Keys == os.tray.Keys + {MorningNotificationId}
              && r.tray[MorningNotificationId] == Notification(MorningTitle, MorningMessage)
              && r.work == os.work
              && r.alarms == ScheduleMorning(os, d).alarms
              && (HasNotificationPermission(d) ==> MorningRequestCode in r.alarms)
    ensures action != Some(ActionMorningReminder) ==> r == os
  {
    if action == Some(ActionMorningReminder) then
      ScheduleMorning(Notify(os, MorningNotificationId, Notification(MorningTitle, MorningMessage)), d)
    else os
  }

  /**
   * The receiver re-arms at `06:00:00` plus the current millisecond, rolling
   * only when that is strictly past: run within the first second after 06:00,
   * it re-arms the alarm for the very instant it runs.
   */
  lemma RearmWithinFiringSecond(os: Os, d: Device)
    requires HasNotificationPermission(d)
    requires 6 * HOUR_MS <= d.now % DAY_MS < 6 * HOUR_MS + SECOND_MS
    ensures OnReceive(os, d, Some(ActionMorningReminder)).alarms[MorningRequestCode].fireAt == d.now
  {
    var t := OnReceive(os, d, Some(ActionMorningReminder)).alarms[MorningRequestCode].fireAt;
    assert d.now % SECOND_MS == d.now % DAY_MS - 6 * HOUR_MS by {
      var q := d.now / DAY_MS;
      assert d.now == q * DAY_MS + d.now % DAY_MS;
      assert q * DAY_MS == (q * 86400) * SECOND_MS;
      assert d.now % DAY_MS == 6 * HOUR_MS + (d.now % DAY_MS - 6 * HOUR_MS);
    }
    SameResidueClose(t, d.now);
  }
}

=== FILE: settings.dfy ===
/**
 * `SettingsViewModel` of the current Android app: three switches, starting on,
 * each toggle changing the registrations and then saving all three switches.
 * The morning reminder uses both the alarm and the worker; the nugget reminder
 * uses the worker only.
 */
module Settings {
  import opened Wrappers
  import opened Platform
  import opened Cache
  import opened NotificationScheduler
  import opened NotificationWorker
  import opened Registrations

  datatype ViewModel = ViewModel(flags: NotificationSettings, os: Os, store: Store)

  /** A new view model: every switch on until the saved ones are loaded. */
  function Initial(os: Os, store: Store): (vm: ViewModel)
    ensures vm.flags.enabled && vm.flags.morningEnabled && vm.flags.nuggetEnabled
    ensures vm.os == os && vm.store == store
  {
    ViewModel(NotificationSettings(true, true, true), os, store)
  }

  /** `loadSettings`: the saved switches, or the current ones when reading throws. */
  function LoadSettings(vm: ViewModel, throws: bool): (r: ViewModel)
    ensures r.os == vm.os && r.store == vm.store
    ensures throws ==> r.flags == vm.flags
    ensures !throws ==> r.flags == GetNotificationSettings(vm.store)
  {
    if throws then vm else vm.(flags := GetNotificationSettings(vm.store))
  }

  /** `saveSettings`: the three current switches are written. */
  function Save(vm: ViewModel): (r: ViewModel)
    ensures r.flags == vm.flags && r.os == vm.os
    ensures GetNotificationSettings(r.store) == vm.flags
  {
    SaveThenReadSettings(vm.store, vm.flags);
    vm.(store := SaveNotificationSettings(vm.store, vm.flags))
  }

  /** The calls `toggleNotifications` makes. */
  function MasterSteps(flags: NotificationSettings, d: Device): seq<Os -> Os> {
    if flags.enabled then MorningOnSteps(flags, d) + NuggetOnSteps(flags, d)
    else
      [(os: Os) => CancelMorning(os), (os: Os) => CancelNugget(os),
       (os: Os) => CancelMorningWork(os), (os: Os) => CancelNuggetWork(os)]
  }

  function MorningOnSteps(flags: NotificationSettings, d: Device): seq<Os -> Os> {
    if flags.morningEnabled then [(os: Os) => ScheduleMorning(os, d), (os: Os) => ScheduleMorningWork(os, d)] else []
  }

  function NuggetOnSteps(flags: NotificationSettings, d: Device): seq<Os -> Os> {
    if flags.nuggetEnabled then [(os: Os) => ScheduleNuggetWork(os, d)] else []
  }

  lemma MasterOnEffect(os: Os, flags: NotificationSettings, d: Device)
    requires flags.enabled
    ensures var r := RunSteps(os, MasterSteps(flags, d), None);
            && ViewOf(r, NuggetKind).alarm == ViewOf(os, NuggetKind).alarm
            && (flags.morningEnabled ==> MorningWorkName in r.work)
            && (flags.morningEnabled && HasNotificationPermission(d) ==> MorningRequestCode in r.alarms)
            && (!flags.morningEnabled ==> ViewOf(r, MorningKind) == ViewOf(os, MorningKind))
            && (flags.nuggetEnabled ==> NuggetWorkName in r.work)
  {
    var m := MorningOnSteps(flags, d);
    var n := NuggetOnSteps(flags, d);
    RunStepsAppend(os, m, n);
    var mid := RunSteps(os, m, None);
    if flags.morningEnabled {
      RunStepsPair(os, m[0], m[1]);
      assert mid == ScheduleMorningWork(ScheduleMorning(os, d), d);
    } else {
      assert mid == os;
    }
    if flags.nuggetEnabled {
      RunStepsPair(mid, n[0], n[0]);
      assert RunSteps(mid, n, None) == ScheduleNuggetWork(mid, d);
    } else {
      assert RunSteps(mid, n, None) == mid;
    }
  }

  /** Master off: all four cancellations take effect. */
  lemma MasterOffEffect(os: Os, flags: NotificationSettings, d: Device)
    requires !flags.enabled
    ensures RunSteps(os, MasterSteps(flags, d), None) == CancelNuggetWork(CancelMorningWork(CancelNugget(CancelMorning(os))))
  {
    var s := MasterSteps(flags, d);
    assert s == [s[0], s[1]] + [s[2], s[3]];
    RunStepsAppend(os, [s[0], s[1]], [s[2], s[3]]);
    RunStepsPair(os, s[0], s[1]);
    RunStepsPair(CancelNugget(CancelMorning(os)), s[2], s[3]);
  }

  /**
   * `toggleNotifications(enabled)`: the master switch is set; on, each kind
   * whose switch is on is scheduled (never the nugget alarm); off, both kinds'
   * alarms, notifications and work are cancelled. A call that throws
   * (`throwsAt`) stops the rest, and the switches are saved regardless.
   */
  function ToggleNotifications(vm: ViewModel, d: Device, enabled: bool, throwsAt: Option<nat>): (r: ViewModel)
    ensures r.flags == vm.flags.(enabled := enabled)
    ensures GetNotificationSettings(r.store) == r.flags
    ensures throwsAt.None? && !enabled ==>
              forall k :: ViewOf(r.os, k) == View(None, None, None)
    ensures throwsAt.None? && enabled ==>
              && ViewOf(r.os, NuggetKind).alarm == ViewOf(vm.os, NuggetKind).alarm
              && (vm.flags.morningEnabled ==> MorningWorkName in r.os.work)
              && (vm.flags.morningEnabled && HasNotificationPermission(d) ==> MorningRequestCode in r.os.alarms)
              && (!vm.flags.morningEnabled ==> ViewOf(r.os, MorningKind) == ViewOf(vm.os, MorningKind))
              && (vm.flags.nuggetEnabled ==> NuggetWorkName in r.os.work)
  {
    var flags := vm.flags.(enabled := enabled);
    if enabled then
      MasterOnEffect(vm.os, flags, d);
      Save(ViewModel(flags, RunSteps(vm.os, MasterSteps(flags, d), throwsAt), vm.store))
    else
      MasterOffEffect(vm.os, flags, d);
      Save(ViewModel(flags, RunSteps(vm.os, MasterSteps(flags, d), throwsAt), vm.store))
  }

  /**
   * `toggleMorningNotifications(enabled)`: both morning registrations are made
   * when it and the master switch are on, and cancelled otherwise; the nugget
   * registrations are never touched, whatever throws.
   */
  function ToggleMorning(vm: ViewModel, d: Device, enabled: bool, throwsAt: Option<nat>): (r: ViewModel)
    ensures r.flags == vm.flags.(morningEnabled := enabled)
    ensures GetNotificationSettings(r.store) == r.flags
    ensures ViewOf(r.os, NuggetKind) == ViewOf(vm.os, NuggetKind)
    ensures throwsAt.None? && enabled && vm.flags.enabled ==>
              MorningWorkName in r.os.work && (HasNotificationPermission(d) ==> MorningRequestCode in r.os.alarms)
    ensures throwsAt.None? && !(enabled && vm.flags.enabled) ==>
              ViewOf(r.os, MorningKind) == View(None, None, None)
  {
    var flags := vm.flags.(morningEnabled := enabled);
    var steps: seq<Os -> Os> :=
      if enabled && flags.enabled then [(os: Os) => ScheduleMorning(os, d), (os: Os) => ScheduleMorningWork(os, d)]
      else [(os: Os) => CancelMorning(os), (os: Os) => CancelMorningWork(os)];
    RunStepsKeepsView(vm.os, steps, throwsAt, NuggetKind);
    Save(ViewModel(flags, RunSteps(vm.os, steps, throwsAt), vm.store))
  }

  /**
   * `toggleNuggetNotifications(enabled)`: the nugget work is scheduled when it
   * and the master switch are on; otherwise the nugget alarm, notification and
   * work are cancelled. The morning registrations are never touched.
   */
  function ToggleNugget(vm: ViewModel, d: Device, enabled: bool, throwsAt: Option<nat>): (r: ViewModel)
    ensures r.flags == vm.flags.(nuggetEnabled := enabled)
    ensures GetNotificationSettings(r.store) == r.flags
    ensures ViewOf(r.os, MorningKind) == ViewOf(vm.os, MorningKind)
    ensures throwsAt.None? && enabled && vm.flags.enabled ==>
              NuggetWorkName in r.os.work && r.os.alarms == vm.os.alarms
    ensures throwsAt.None? && !(enabled && vm.flags.enabled) ==>
              ViewOf(r.os, NuggetKind) == View(None, None, None)
  {
    var flags := vm.flags.(nuggetEnabled := enabled);
    var steps: seq<Os -> Os> :=
      if enabled && flags.enabled then [(os: Os) => ScheduleNuggetWork(os, d)]
      else [(os: Os) => CancelNugget(os), (os: Os) => CancelNuggetWork(os)];
    RunStepsKeepsView(vm.os, steps, throwsAt, MorningKind);
    Save(ViewModel(flags, RunSteps(vm.os, steps, throwsAt), vm.store))
  }

  /** A view model opened after a toggle shows the switches as toggled. */
  lemma ToggleSurvivesReload(vm: ViewModel, d: Device, enabled: bool, throwsAt: Option<nat>, later: Os)
    ensures var r := ToggleMorning(vm, d, enabled, throwsAt);
            LoadSettings(Initial(later, r.store), false).flags == r.flags
  {
  }

  /** Master off, then on again, brings back what the per-kind switches ask for. */
  lemma MasterOffOnRestores(vm: ViewModel, d: Device)
    requires vm.flags.morningEnabled && vm.flags.nuggetEnabled && HasNotificationPermission(d)
    ensures var r := ToggleNotifications(ToggleNotifications(vm, d, false, None), d, true, None);
            && MorningRequestCode in r.os.alarms && NuggetRequestCode !in r.os.alarms
            && MorningWorkName in r.os.work && NuggetWorkName in r.os.work
            && r.flags == vm.flags.(enabled := true)
  {
    var off := ToggleNotifications(vm, d, false, None);
    assert ViewOf(off.os, NuggetKind) == View(None, None, None);
  }
}

=== FILE: share_text.dfy ===
/**
 * The plain texts the current detail screen builds from a devotional: the
 * share-sheet text, with its rule for a nugget the article repeats, and the
 * text read aloud.
 */
module ShareText {
  import opened Wrappers
  import opened Strings
  import opened Html
  import opened Entities
  import opened Devotionals

  const Ellipsis := "\U{2026}"
  const ThreeDots := "..."

  /** `x.replace(Regex("<.*?>"), "")` followed by `decodeHtmlEntities`. */
  function Clean(s: string): string {
    DecodeEntities(StripTags(LazyAnyOnLine, s))
  }

  /** `…` written as `...`, as both texts are for the comparison. */
  function Normalised(s: string): string {
    ReplaceAll(s, Ellipsis, ThreeDots)
  }

  /**
   * The nugget rule on the normalised content `c` and nugget `n`: a non-empty
   * nugget that `c` holds more than once (non-overlapping count) loses its last
   * occurrence, and the rest is turned back to `…` and trimmed; otherwise
   * `main`, the content as it was, is kept.
   */
  function DropRepeated(main: string, c: string, n: string): (r: string)
    ensures |n| == 0 || CountOccurrences(c, n) <= 1 ==> r == main
    ensures IsTrimmed(main) ==> IsTrimmed(r)
  {
    if |n| > 0 && Contains(c, n) && CountOccurrences(c, n) > 1 then
      match LastIndexOf(c, n)
      case Some(i) => Trim(ReplaceAll(c[..i] + c[i + |n|..], ThreeDots, Ellipsis))
      case None => main
    else main
  }

  /** The nugget rule applied to the content and the nugget field as the screen has them. */
  function DropRepeatedNugget(main: string, nugget: string): (r: string)
    ensures IsTrimmed(main) ==> IsTrimmed(r)
  {
    DropRepeated(main, Normalised(main), Normalised(Trim(Clean(nugget))))
  }

  /** When the scan counts two or more, a copy lies wholly before the last one. */
  lemma EarlierCopyBeforeLast(c: string, n: string)
    requires |n| > 0 && CountOccurrences(c, n) > 1
    ensures LastIndexOf(c, n).Some?
    ensures Contains(c[..LastIndexOf(c, n).value], n)
  {
    CountAboveOneHasTwoOccurrences(c, n);
    var a, b :| OccursAt(c, n, a) && OccursAt(c, n, b) && a + |n| <= b;
    CountZeroIffAbsent(c, n);
    var i := LastIndexOf(c, n).value;
    assert b <= i;
    assert c[..i][a..a + |n|] == c[a..a + |n|];
    assert OccursAt(c[..i], n, a);
  }

  /**
   * A repeated nugget loses exactly its last occurrence: the content splits as
   * `before + nugget + after` with no later occurrence, and an earlier copy is
   * still within `before`.
   */
  lemma RepeatedNuggetLosesLastCopy(main: string, c: string, n: string)
    requires |n| > 0 && CountOccurrences(c, n) > 1
    ensures LastIndexOf(c, n).Some?
    ensures var i := LastIndexOf(c, n).value;
            && OccursAt(c, n, i)
            && (forall j :: i < j ==> !OccursAt(c, n, j))
            && Contains(c[..i], n)
            && DropRepeated(main, c, n) == Trim(ReplaceAll(c[..i] + c[i + |n|..], ThreeDots, Ellipsis))
  {
    EarlierCopyBeforeLast(c, n);
    CountZeroIffAbsent(c, n);
  }

  /** `appendLine(x)`. */
  function Line(s: string): string {
    s + "\n"
  }

  const Header := Line("::Firstlove Assembly::") + Line("www.firstloveassembly.org.ng") + Line("")
  const VerseHeading := "\U{1F4D6} Bible Verse"
  const StudyHeading := "\U{1F4DA} Further Study"
  const PrayerHeading := "\U{1F64F} Prayer"
  const PlanHeading := "\U{1F4C5} Bible Reading Plan"
  const NuggetHeading := "\U{1F4A1} Today's Nugget"

  /** The pieces of the share text, each already cleaned. */
  datatype ShareFields = ShareFields(title: string, date: string, verse: Option<string>, main: string,
                                     study: Option<string>, prayer: Option<string>, plan: Option<string>,
                                     nugget: Option<string>)

  function Acf(d: Devotional): Acf {
    d.acf.GetOr(Devotionals.Acf(None, None, None, None, None))
  }

  /** The main content: tags stripped, entities decoded, trimmed, a repeated nugget dropped. */
  function MainContent(d: Devotional): (r: string)
    ensures IsTrimmed(r)
    ensures NuggetOf(d).None? ==> r == Trim(Clean(d.content))
  {
    var main := Trim(Clean(d.content));
    match NuggetOf(d)
    case Some(nugget) => DropRepeatedNugget(main, nugget)
    case None => main
  }

  function CleanField(field: Option<string>): (r: Option<string>)
    ensures r.Some? <==> field.Some?
  {
    if field.Some? then Some(Clean(field.value)) else None
  }

  /** What the share text is made of: every custom field cleaned, present exactly when stored. */
  function FieldsOf(d: Devotional): (f: ShareFields)
    ensures f.verse.Some? <==> Acf(d).bibleVerse.Some?
    ensures f.study.Some? <==> Acf(d).furtherStudy.Some?
    ensures f.prayer.Some? <==> Acf(d).prayer.Some?
    ensures f.plan.Some? <==> Acf(d).bibleReadingPlan.Some?
    ensures f.nugget.Some? <==> Acf(d).nugget.Some?
    ensures f.main == MainContent(d)
  {
    var a := Acf(d);
    ShareFields(PlainTitle(d), FormattedDate(d.date), CleanField(a.bibleVerse), MainContent(d),
                CleanField(a.furtherStudy), CleanField(a.prayer), CleanField(a.bibleReadingPlan),
                CleanField(a.nugget))
  }

  /** A section for an optional field: heading, text, blank line. */
  function FieldSection(heading: string, field: Option<string>): (r: string)
    ensures field.None? <==> r == ""
  {
    if field.Some? then Line(heading) + Line(field.value) + Line("") else ""
  }

  /**
   * The sections of the share text, in order: header, title and date, verse,
   * main content, further study, prayer, reading plan, nugget. A missing field
   * gives an empty section, and so does empty main content.
   */
  function Sections(f: ShareFields): (r: seq<string>)
    ensures |r| == 8
    ensures r[0] == Header
    ensures r[1] == Line(f.title) + Line(f.date) + Line("")
    ensures r[2] == "" <==> f.verse.None?
    ensures r[3] == "" <==> f.main == ""
    ensures f.main != "" ==> r[3] == Line(f.main) + Line("")
    ensures r[4] == "" <==> f.study.None?
    ensures r[5] == "" <==> f.prayer.None?
    ensures r[6] == "" <==> f.plan.None?
    ensures r[7] == "" <==> f.nugget.None?
  {
    [ Header,
      Line(f.title) + Line(f.date) + Line(""),
      FieldSection(VerseHeading, f.verse),
      if f.main != "" then Line(f.main) + Line("") else "",
      FieldSection(StudyHeading, f.study),
      FieldSection(PrayerHeading, f.prayer),
      FieldSection(PlanHeading, f.plan),
      if f.nugget.Some? then Line(NuggetHeading) + Line(f.nugget.value) else "" ]
  }

  function Concat(parts: seq<string>): (r: string)
    ensures |parts| > 0 ==> StartsWith(r, parts[0])
    decreases |parts|
  {
    if |parts| == 0 then "" else parts[0] + Concat(parts[1..])
  }

  lemma StartsWithConcat(a: string, b: string)
    ensures StartsWith(a + b, a)
  {
    assert (a + b)[..|a|] == a;
  }

  /**
   * The sections joined and trimmed. The text opens with the header's first
   * line, has no whitespace at either end, is the joined sections with only a
   * whitespace tail cut off, and so keeps every section, trimmed, in its place.
   */
  function Render(f: ShareFields): (r: string)
    ensures StartsWith(r, "::Firstlove Assembly::")
    ensures r == Trim(r)
    ensures var all := Concat(Sections(f));
            |r| <= |all| && all[..|r|] == r && BlankFrom(all, |r|)
    ensures forall k :: 0 <= k < 8 ==> Contains(r, Trim(Sections(f)[k]))
  {
    var all := Concat(Sections(f));
    HeaderOpens(f, all);
    TrimOfHeaded(all, "::Firstlove Assembly::");
    TrimmedPartsKept(Sections(f), Trim(all));
    Trim(all)
  }

  /** The joined sections open with the header's first line. */
  lemma HeaderOpens(f: ShareFields, all: string)
    requires all == Concat(Sections(f))
    ensures StartsWith(all, "::Firstlove Assembly::")
  {
    var first := "::Firstlove Assembly::";
    var rest := "\n" + Line("www.firstloveassembly.org.ng") + Line("");
    assert Header == first + rest;
    StartsWithConcat(first, rest);
    assert all[..|Header|] == Header;
    assert all[..|first|] == Header[..|first|];
  }

  /**
   * Trimming a text that opens with a line having no whitespace at either end
   * keeps that line first and only cuts off a whitespace tail.
   */
  lemma TrimOfHeaded(all: string, first: string)
    requires StartsWith(all, first) && |first| > 0
    requires !IsWhitespace(first[0]) && !IsWhitespace(first[|first| - 1])
    ensures StartsWith(Trim(all), first)
    ensures Trim(all) == Trim(Trim(all))
    ensures |Trim(all)| <= |all| && all[..|Trim(all)|] == Trim(all) && BlankFrom(all, |Trim(all)|)
  {
    TrimKeepsPrefix(all, first);
    TrimOfTrimmed(Trim(all));
    assert all[0] == first[0];
    TrimCutsOnlyTail(all);
  }

  /** Every part, trimmed, survives when only a whitespace tail is cut from the joined parts. */
  lemma TrimmedPartsKept(parts: seq<string>, r: string)
    requires var all := Concat(parts); |r| <= |all| && all[..|r|] == r && BlankFrom(all, |r|)
    ensures forall k :: 0 <= k < |parts| ==> Contains(r, Trim(parts[k]))
  {
    var all := Concat(parts);
    forall k | 0 <= k < |parts|
      ensures Contains(r, Trim(parts[k]))
    {
      ConcatContainsPart(parts, k);
      TrimmedPartKept(all, r, parts[k]);
    }
  }

  lemma TrimmedPartKept(all: string, r: string, part: string)
    requires |r| <= |all| && all[..|r|] == r && BlankFrom(all, |r|)
    requires Contains(all, part)
    ensures Contains(r, Trim(part))
  {
    ContainsTrimmed(all, part);
    ContainsBeforeWhitespaceTail(all, |r|, Trim(part));
  }

  /**
   * `shareDevotional`'s text: the rendered sections of the devotional, which
   * keep its main content whole.
   */
  function ShareTextOf(d: Devotional): (r: string)
    ensures StartsWith(r, "::Firstlove Assembly::")
    ensures r == Trim(r)
    ensures Contains(r, MainContent(d))
  {
    var r := Render(FieldsOf(d));
    MainContentKept(d, r);
    r
  }

  lemma MainContentKept(d: Devotional, r: string)
    requires forall k :: 0 <= k < 8 ==> Contains(r, Trim(Sections(FieldsOf(d))[k]))
    ensures Contains(r, MainContent(d))
  {
    var f := FieldsOf(d);
    var m := MainContent(d);
    if m == "" {
      assert OccursAt(r, m, 0);
    } else {
      TrimmedLineKept(m, Sections(f)[3], r);
    }
  }

  /** A trimmed text followed by a blank line trims back to the text itself. */
  lemma TrimmedLineKept(m: string, section: string, r: string)
    requires IsTrimmed(m) && section == Line(m) + Line("")
    requires Contains(r, Trim(section))
    ensures Contains(r, m)
  {
    var w := "\n\n";
    LineThenBlank(m, section, w);
    LineBreaksAreWhitespace(w);
    TrimDropsAppendedWhitespace(m, w);
  }

  lemma LineThenBlank(m: string, section: string, w: string)
    requires section == Line(m) + Line("") && w == "\n\n"
    ensures section == m + w
  {
  }

  const TtsOpening := "Welcome to the bread and wine devotional for "
  const TtsClosing := "Thank you for listening."

  /** An optional field read aloud after its lead-in, the value as stored, then `. `. */
  function Spoken(leadIn: string, field: Option<string>): (r: string)
    ensures field.None? <==> r == ""
    ensures field.Some? ==> r == leadIn + field.value + ". "
  {
    if field.Some? then leadIn + field.value + ". " else ""
  }

  /** Every part occurs in the concatenation of the parts. */
  lemma {:induction false} ConcatContainsPart(parts: seq<string>, k: nat)
    requires k < |parts|
    ensures Contains(Concat(parts), parts[k])
    decreases |parts|
  {
    var all := Concat(parts);
    if k == 0 {
      assert OccursAt(all, parts[0], 0);
    } else {
      ConcatContainsPart(parts[1..], k - 1);
      var rest := Concat(parts[1..]);
      var i :| 0 <= i <= |rest| && OccursAt(rest, parts[k], i);
      assert all == parts[0] + rest;
      assert all[|parts[0]| + i..|parts[0]| + i + |parts[k]|] == rest[i..i + |parts[k]|];
      assert OccursAt(all, parts[k], |parts[0]| + i);
    }
  }

  /** The concatenation ends with the last part. */
  lemma {:induction false} ConcatEndsWithLast(parts: seq<string>)
    requires |parts| > 0
    ensures EndsWith(Concat(parts), parts[|parts| - 1])
    decreases |parts|
  {
    if |parts| > 1 {
      ConcatEndsWithLast(parts[1..]);
      var rest := Concat(parts[1..]);
      assert Concat(parts) == parts[0] + rest;
    }
  }

  /**
   * The spoken text from its parts: opening, date, topic, verse, content,
   * further study, prayer, reading plan, closing. Each field present is read
   * out as given.
   */
  function Speak(date: string, title: string, verse: Option<string>, content: string,
                 study: Option<string>, prayer: Option<string>, plan: Option<string>): (r: string)
    ensures StartsWith(r, TtsOpening) && EndsWith(r, TtsClosing)
    ensures verse.Some? ==> Contains(r, "Bible verse: " + verse.value + ". ")
    ensures study.Some? ==> Contains(r, "Further study: " + study.value + ". ")
    ensures prayer.Some? ==> Contains(r, "Prayer: " + prayer.value + ". ")
    ensures plan.Some? ==> Contains(r, "Bible reading plan: " + plan.value + ". ")
    ensures Contains(r, content)
  {
    var parts := [TtsOpening, date, ". Topic: ", title, ". ", Spoken("Bible verse: ", verse), content, ". ",
                  Spoken("Further study: ", study), Spoken("Prayer: ", prayer), Spoken("Bible reading plan: ", plan),
                  TtsClosing];
    ConcatContainsPart(parts, 5);
    ConcatContainsPart(parts, 6);
    ConcatContainsPart(parts, 8);
    ConcatContainsPart(parts, 9);
    ConcatContainsPart(parts, 10);
    ConcatEndsWithLast(parts);
    Concat(parts)
  }

  /**
   * `plainText`, the text read aloud: the content loses its tags while the
   * custom fields are read as stored. No devotional, no text.
   */
  function TtsText(d: Option<Devotional>): (r: string)
    ensures d.None? <==> r == ""
    ensures d.Some? ==> StartsWith(r, TtsOpening) && EndsWith(r, TtsClosing)
    ensures d.Some? && Acf(d.value).bibleVerse.Some? ==> Contains(r, Acf(d.value).bibleVerse.value)
    ensures d.Some? ==> Contains(r, StripTags(LazyAnyOnLine, d.value.content))
  {
    match d
    case None => ""
    case Some(v) =>
      var a := Acf(v);
      var r := Speak(FormattedDate(v.date), PlainTitle(v), a.bibleVerse, StripTags(LazyAnyOnLine, v.content),
                     a.furtherStudy, a.prayer, a.bibleReadingPlan);
      if a.bibleVerse.Some? then
        var said := "Bible verse: " + a.bibleVerse.value + ". ";
        var i :| 0 <= i <= |r| && OccursAt(r, said, i);
        var text := a.bibleVerse.value;
        assert |"Bible verse: "| == 13;
        assert said[13..13 + |text|] == text;
        OccursWithin(r, said, i, text, 13);
        r
      else r
  }

  /** What is read from the content carries no tag. */
  lemma SpokenContentIsTagFree(v: Devotional)
    ensures TagFree(LazyAnyOnLine, StripTags(LazyAnyOnLine, v.content))
    ensures Contains(TtsText(Some(v)), StripTags(LazyAnyOnLine, v.content))
  {
    StripTagsIsTagFree(LazyAnyOnLine, v.content);
  }
}

=== FILE: sorting.dfy ===
/**
 * `sortedByDescending { it.date }`: a stable sort on the raw `date` strings,
 * newest first. WordPress dates have a fixed width, so comparing the strings
 * compares the dates.
 */
module DateOrder {
  import opened Devotionals

  /** String `compareTo(...) <= 0`: lexicographic order on characters. */
  predicate LexLe(a: string, b: string)
    decreases |a|
  {
    if |a| == 0 then true
    else if |b| == 0 then false
    else if a[0] != b[0] then a[0] < b[0]
    else LexLe(a[1..], b[1..])
  }

  lemma {:induction false} LexLeTotal(a: string, b: string)
    ensures LexLe(a, b) || LexLe(b, a)
    decreases |a|
  {
    if |a| > 0 && |b| > 0 && a[0] == b[0] {
      LexLeTotal(a[1..], b[1..]);
    }
  }

  lemma {:induction false} LexLeTransitive(a: string, b: string, c: string)
    requires LexLe(a, b) && LexLe(b, c)
    ensures LexLe(a, c)
    decreases |a|
  {
    if |a| > 0 && |b| > 0 && |c| > 0 && a[0] == b[0] && b[0] == c[0] {
      LexLeTransitive(a[1..], b[1..], c[1..]);
    }
  }

  lemma {:induction false} LexLeAntisymmetric(a: string, b: string)
    requires LexLe(a, b) && LexLe(b, a)
    ensures a == b
    decreases |a|
  {
    if |a| > 0 && |b| > 0 {
      LexLeAntisymmetric(a[1..], b[1..]);
      assert a == [a[0]] + a[1..] && b == [b[0]] + b[1..];
    }
  }

  /** Newest first: no later entry has a greater date. */
  predicate SortedDesc(s: seq<Devotional>) {
    forall i, j :: 0 <= i < j < |s| ==> LexLe(s[j].date, s[i].date)
  }

  /** The entries dated `key`, in their order in `s`. */
  function WithDate(s: seq<Devotional>, key: string): seq<Devotional>
    decreases |s|
  {
    if s == [] then []
    else (if s[0].date == key then [s[0]] else []) + WithDate(s[1..], key)
  }

  /** Puts `x` in front of the first entry that is not newer than it. */
  function InsertDesc(x: Devotional, l: seq<Devotional>): seq<Devotional>
    decreases |l|
  {
    if l == [] then [x]
    else if LexLe(l[0].date, x.date) then [x] + l
    else [l[0]] + InsertDesc(x, l[1..])
  }

  lemma {:induction false} InsertDescSorted(x: Devotional, l: seq<Devotional>)
    requires SortedDesc(l)
    ensures SortedDesc(InsertDesc(x, l))
    ensures multiset(InsertDesc(x, l)) == multiset(l) + multiset{x}
    decreases |l|
  {
    if l == [] {
    } else if LexLe(l[0].date, x.date) {
      forall j | 0 <= j < |l| ensures LexLe(l[j].date, x.date) {
        if j > 0 {
          LexLeTransitive(l[j].date, l[0].date, x.date);
        }
      }
    } else {
      var rest := InsertDesc(x, l[1..]);
      InsertDescSorted(x, l[1..]);
      LexLeTotal(l[0].date, x.date);
      var r := [l[0]] + rest;
      forall j | 0 <= j < |rest| ensures LexLe(rest[j].date, l[0].date) {
        assert rest[j] in multiset(l[1..]) + multiset{x};
        if rest[j] == x {
        } else {
          assert rest[j] in l[1..];
          var k :| 0 <= k < |l[1..]| && l[1..][k] == rest[j];
          assert l[k + 1] == rest[j];
        }
      }
      assert l == [l[0]] + l[1..];
    }
  }

  lemma {:induction false} InsertDescStable(x: Devotional, l: seq<Devotional>, key: string)
    ensures WithDate(InsertDesc(x, l), key)
            == (if x.date == key then [x] else []) + WithDate(l, key)
    decreases |l|
  {
    if l == [] {
    } else if LexLe(l[0].date, x.date) {
      assert ([x] + l)[1..] == l;
    } else {
      InsertDescStable(x, l[1..], key);
      var r := [l[0]] + InsertDesc(x, l[1..]);
      assert r[1..] == InsertDesc(x, l[1..]);
      if x.date == key {
        assert LexLe(x.date, x.date) by { LexLeReflexive(x.date); }
      }
    }
  }

  lemma {:induction false} LexLeReflexive(a: string)
    ensures LexLe(a, a)
    decreases |a|
  {
    if |a| > 0 {
      LexLeReflexive(a[1..]);
    }
  }

  /**
   * `sortedByDescending { it.date }`: newest first, the same entries, and
   * entries sharing a date keep their order.
   */
  function SortByDateDesc(s: seq<Devotional>): (r: seq<Devotional>)
    ensures SortedDesc(r)
    ensures multiset(r) == multiset(s)
    ensures forall key :: WithDate(r, key) == WithDate(s, key)
    decreases |s|
  {
    if s == [] then []
    else
      var tail := SortByDateDesc(s[1..]);
      InsertHead(s, tail);
      InsertDesc(s[0], tail)
  }

  lemma InsertHead(s: seq<Devotional>, tail: seq<Devotional>)
    requires s != []
    requires SortedDesc(tail) && multiset(tail) == multiset(s[1..])
    requires forall key :: WithDate(tail, key) == WithDate(s[1..], key)
    ensures SortedDesc(InsertDesc(s[0], tail))
    ensures multiset(InsertDesc(s[0], tail)) == multiset(s)
    ensures forall key :: WithDate(InsertDesc(s[0], tail), key) == WithDate(s, key)
  {
    InsertDescSorted(s[0], tail);
    assert s == [s[0]] + s[1..];
    forall key ensures WithDate(InsertDesc(s[0], tail), key) == WithDate(s, key) {
      InsertDescStable(s[0], tail, key);
    }
  }

  /** Sorting a list that is already newest first changes nothing. */
  lemma {:induction false} SortSortedIsIdentity(s: seq<Devotional>)
    requires SortedDesc(s)
    ensures SortByDateDesc(s) == s
    decreases |s|
  {
    if s != [] {
      assert SortedDesc(s[1..]);
      SortSortedIsIdentity(s[1..]);
      if |s| > 1 {
        assert LexLe(s[1].date, s[0].date);
      } else {
        assert s[1..] == [];
      }
    }
  }
}

=== FILE: startup.dfy ===
/**
 * Rescheduling after a reboot (`BootReceiver`) and at every app start
 * (`BreadAndWineApp.initializeNotificationsWithAlarmManager`), in the current
 * app and in the older one.
 */
module Startup {
  import opened Wrappers
  import opened Platform
  import opened Cache
  import opened NotificationScheduler
  import opened NotificationWorker
  import opened Registrations
  import DevotionalWorker

  const ActionBootCompleted := "android.intent.action.BOOT_COMPLETED"

  /**
   * The calls both current paths make: the stale nugget alarm is cancelled
   * first, then each kind whose switch is on (under the master switch) is
   * scheduled, the morning one by alarm and work, the nugget one by work only.
   */
  function RescheduleSteps(s: NotificationSettings, d: Device): seq<Os -> Os> {
    [(os: Os) => CancelNugget(os)]
    + (if s.enabled && s.morningEnabled then [(os: Os) => ScheduleMorning(os, d), (os: Os) => ScheduleMorningWork(os, d)] else [])
    + (if s.enabled && s.nuggetEnabled then [(os: Os) => ScheduleNuggetWork(os, d)] else [])
  }

  /** The rescheduling calls, when none throws. */
  function RescheduleEffect(os: Os, s: NotificationSettings, d: Device): Os {
    var c := CancelNugget(os);
    var m := if s.enabled && s.morningEnabled then ScheduleMorningWork(ScheduleMorning(c, d), d) else c;
    if s.enabled && s.nuggetEnabled then ScheduleNuggetWork(m, d) else m
  }

  lemma RescheduleStepsEffect(os: Os, s: NotificationSettings, d: Device)
    ensures RunSteps(os, RescheduleSteps(s, d), None) == RescheduleEffect(os, s, d)
  {
    var c: seq<Os -> Os> := [(os: Os) => CancelNugget(os)];
    var m: seq<Os -> Os> := if s.enabled && s.morningEnabled then [(os: Os) => ScheduleMorning(os, d), (os: Os) => ScheduleMorningWork(os, d)] else [];
    var n: seq<Os -> Os> := if s.enabled && s.nuggetEnabled then [(os: Os) => ScheduleNuggetWork(os, d)] else [];
    RunStepsAppend(os, c + m, n);
    RunStepsAppend(os, c, m);
    RunStepsPair(os, c[0], c[0]);
    var afterC := CancelNugget(os);
    if m != [] {
      RunStepsPair(afterC, m[0], m[1]);
    }
    var afterM := RunSteps(afterC, m, None);
    if n != [] {
      RunStepsPair(afterM, n[0], n[0]);
    }
  }

  /** What the rescheduling calls leave behind, when none throws. */
  lemma RescheduleEffectFacts(os: Os, s: NotificationSettings, d: Device)
    ensures var r := RescheduleEffect(os, s, d);
            && NuggetRequestCode !in r.alarms && NuggetNotificationId !in r.tray
            && (!s.enabled ==> r == CancelNugget(os))
            && (s.enabled && s.morningEnabled ==>
                  MorningWorkName in r.work && (HasNotificationPermission(d) ==> MorningRequestCode in r.alarms))
            && (!(s.enabled && s.morningEnabled) ==> ViewOf(r, MorningKind) == ViewOf(os, MorningKind))
            && (s.enabled && s.nuggetEnabled ==> NuggetWorkName in r.work)
            && (!(s.enabled && s.nuggetEnabled) ==> (NuggetWorkName in r.work) == (NuggetWorkName in os.work))
  {
  }

  /**
   * The shared body of both current paths: the switches are read from the
   * store (`readThrows`: the read threw, and nothing happens); `throwsAt` says
   * which call, if any, threw and ended the run. Nothing propagates.
   */
  function Reschedule(os: Os, d: Device, store: Store, readThrows: bool, throwsAt: Option<nat>): (r: Os)
    ensures readThrows ==> r == os
    ensures (DevotionalWorker.WorkName in r.work) == (DevotionalWorker.WorkName in os.work)
    ensures !readThrows && throwsAt.None? ==> r == RescheduleEffect(os, GetNotificationSettings(store), d)
    ensures !readThrows && throwsAt.None? ==>
              var s := GetNotificationSettings(store);
              && NuggetRequestCode !in r.alarms && NuggetNotificationId !in r.tray
              && (!s.enabled ==> r == CancelNugget(os))
              && (s.enabled && s.morningEnabled ==>
                    MorningWorkName in r.work && (HasNotificationPermission(d) ==> MorningRequestCode in r.alarms))
              && (!(s.enabled && s.morningEnabled) ==> ViewOf(r, MorningKind) == ViewOf(os, MorningKind))
              && (s.enabled && s.nuggetEnabled ==> NuggetWorkName in r.work)
              && (!(s.enabled && s.nuggetEnabled) ==> (NuggetWorkName in r.work) == (NuggetWorkName in os.work))
  {
    if readThrows then os
    else
      var s := GetNotificationSettings(store);
      RescheduleStepsEffect(os, s, d);
      RescheduleEffectFacts(os, s, d);
      var steps := RescheduleSteps(s, d);
      RunStepsKeeps(os, steps, throwsAt, (o: Os) => DevotionalWorker.WorkName in o.work);
      RunSteps(os, steps, throwsAt)
  }

  /** `BootReceiver.onReceive`: only the boot-completed broadcast reschedules. */
  function OnBoot(os: Os, d: Device, store: Store, action: Option<string>, readThrows: bool,
                  throwsAt: Option<nat>): (r: Os)
    ensures action != Some(ActionBootCompleted) ==> r == os
    ensures action == Some(ActionBootCompleted) ==> r == Reschedule(os, d, store, readThrows, throwsAt)
  {
    if action == Some(ActionBootCompleted) then Reschedule(os, d, store, readThrows, throwsAt) else os
  }

  /**
   * `initializeNotificationsWithAlarmManager`, run at every app start. The
   * daily devotional fetch is not scheduled here.
   */
  function InitializeNotifications(os: Os, d: Device, store: Store, readThrows: bool,
                                   throwsAt: Option<nat>): (r: Os)
    ensures (DevotionalWorker.WorkName in r.work) == (DevotionalWorker.WorkName in os.work)
    ensures readThrows ==> r == os
    ensures !readThrows && throwsAt.None? && !GetNotificationSettings(store).enabled ==> r == CancelNugget(os)
  {
    Reschedule(os, d, store, readThrows, throwsAt)
  }

  /** With no switches saved yet, every switch reads as on, so both kinds of work are scheduled. */
  lemma FreshInstallSchedulesBoth(os: Os, d: Device)
    ensures var r := InitializeNotifications(os, d, map[], false, None);
            MorningWorkName in r.work && NuggetWorkName in r.work && NuggetRequestCode !in r.alarms
  {
  }

  /** Rebooting and starting the app do the same rescheduling. */
  lemma BootAndStartAgree(os: Os, d: Device, store: Store, readThrows: bool, throwsAt: Option<nat>)
    ensures OnBoot(os, d, store, Some(ActionBootCompleted), readThrows, throwsAt)
            == InitializeNotifications(os, d, store, readThrows, throwsAt)
  {
  }

  /** Rescheduling a second time, with the same switches and clock, changes nothing more. */
  lemma RescheduleIdempotent(os: Os, d: Device, store: Store)
    ensures var once := Reschedule(os, d, store, false, None);
            Reschedule(once, d, store, false, None) == once
  {
    var s := GetNotificationSettings(store);
    var once := Reschedule(os, d, store, false, None);
    assert CancelNugget(once) == once by {
      assert once.alarms - {NuggetRequestCode} == once.alarms;
      assert once.tray - {NuggetNotificationId} == once.tray;
    }
    if s.enabled && s.morningEnabled {
      var c := CancelNugget(os);
      ScheduleMorningIdempotent(c, d);
      assert ScheduleMorning(once, d) == once;
    }
  }

  /**
   * The older `BootReceiver.onReceive`: on boot, both alarms (the nugget one
   * with no content, so carrying the fallback) and the daily devotional fetch
   * are scheduled, whatever the saved switches say.
   */
  function LegacyOnBoot(os: Os, d: Device, action: Option<string>): (r: Os)
    ensures action != Some(ActionBootCompleted) ==> r == os
    ensures action == Some(ActionBootCompleted) ==>
              && DevotionalWorker.WorkName in r.work
              && (HasNotificationPermission(d) ==>
                    && MorningRequestCode in r.alarms && NuggetRequestCode in r.alarms
                    && r.alarms[NuggetRequestCode].message == NuggetFallbackMessage)
  {
    if action == Some(ActionBootCompleted) then
      DevotionalWorker.Schedule(ScheduleNugget(ScheduleMorning(os, d), d, None), d)
    else os
  }

  /**
   * With the master switch off, the current receiver leaves no nugget alarm
   * and schedules nothing, while the older one arms both alarms.
   */
  lemma LegacyBootIgnoresSwitches(os: Os, d: Device, store: Store)
    requires !GetNotificationSettings(store).enabled && HasNotificationPermission(d)
    requires MorningRequestCode !in os.alarms
    ensures var r := OnBoot(os, d, store, Some(ActionBootCompleted), false, None);
            MorningRequestCode !in r.alarms && NuggetRequestCode !in r.alarms
    ensures var r := LegacyOnBoot(os, d, Some(ActionBootCompleted));
            MorningRequestCode in r.alarms && NuggetRequestCode in r.alarms
  {
  }
}

=== FILE: strings.dfy ===
/**
 * The Kotlin and Swift string operations the app relies on: `trim`, `contains`,
 * `startsWith`, literal `replace`, `lastIndexOf`, `split(...).size - 1` and decimal
 * rendering of integers. Strings are sequences of Unicode scalar values.
 */
module Strings {

  /** Kotlin `Char.isWhitespace`: Java whitespace plus the Unicode space separators. */
  predicate IsWhitespace(c: char) {
    || c == ' '
    || ('\t' <= c <= '\r')
    || ('\U{1C}' <= c <= '\U{1F}')
    || c == '\U{A0}'
    || c == '\U{1680}'
    || ('\U{2000}' <= c <= '\U{200A}')
    || c == '\U{2028}'
    || c == '\U{2029}'
    || c == '\U{202F}'
    || c == '\U{205F}'
    || c == '\U{3000}'
  }

  predicate AllWhitespace(s: string) {
    forall k :: 0 <= k < |s| ==> IsWhitespace(s[k])
  }

  /** The two line breaks that close a share-text section are whitespace. */
  lemma LineBreaksAreWhitespace(w: string)
    requires w == "\n\n"
    ensures AllWhitespace(w)
  {
    assert IsWhitespace(w[0]) && IsWhitespace(w[1]);
  }

  /** Every character of `s` before index `n` is whitespace. */
  predicate BlankBefore(s: string, n: int) {
    forall k :: 0 <= k < n && k < |s| ==> IsWhitespace(s[k])
  }

  /** Every character of `s` from index `n` on is whitespace. */
  predicate BlankFrom(s: string, n: int) {
    forall k :: 0 <= n <= k < |s| ==> IsWhitespace(s[k])
  }

  /** Neither end is whitespace: what `trim` produces. */
  predicate IsTrimmed(s: string) {
    s == [] || (!IsWhitespace(s[0]) && !IsWhitespace(s[|s| - 1]))
  }

  /** Number of whitespace characters at the start of `s`. */
  function LeadingWhitespace(s: string): (n: nat)
    ensures n <= |s|
    ensures BlankBefore(s, n)
    ensures n == |s| || !IsWhitespace(s[n])
    decreases |s|
  {
    if |s| > 0 && IsWhitespace(s[0]) then
      var m := LeadingWhitespace(s[1..]);
      assert forall k :: 1 <= k < |s| ==> s[k] == s[1..][k - 1];
      1 + m
    else 0
  }

  /** Number of whitespace characters at the end of `s`. */
  function TrailingWhitespace(s: string): (n: nat)
    ensures n <= |s|
    ensures BlankFrom(s, |s| - n)
    ensures n == |s| || !IsWhitespace(s[|s| - n - 1])
    decreases |s|
  {
    if |s| > 0 && IsWhitespace(s[|s| - 1]) then
      var m := TrailingWhitespace(s[..|s| - 1]);
      assert forall k :: 0 <= k < |s| - 1 ==> s[k] == s[..|s| - 1][k];
      1 + m
    else 0
  }

  /**
   * Kotlin `String.trim()`: the longest slice of `s` that neither starts nor
   * ends with whitespace, obtained by dropping whitespace only.
   */
  function Trim(s: string): (r: string)
    ensures |r| <= |s|
    ensures var i := LeadingWhitespace(s);
            i + |r| <= |s| && r == s[i..i + |r|] && BlankBefore(s, i) && BlankFrom(s, i + |r|)
    ensures r == [] || (!IsWhitespace(r[0]) && !IsWhitespace(r[|r| - 1]))
  {
    var a := LeadingWhitespace(s);
    var t := s[a..];
    var b := TrailingWhitespace(t);
    var r := s[a..|s| - b];
    assert BlankFrom(s, a + |r|) by {
      forall k | a + |r| <= k < |s|
        ensures IsWhitespace(s[k])
      {
        assert s[k] == t[k - a];
      }
    }
    assert |r| > 0 ==> r[|r| - 1] == t[|t| - b - 1];
    r
  }

  /** Where the trimmed string sits in the original. */
  lemma TrimSlice(s: string) returns (i: nat)
    ensures i + |Trim(s)| <= |s| && Trim(s) == s[i..i + |Trim(s)|]
  {
    var r := Trim(s);
    i := LeadingWhitespace(s);
  }

  /** A string that starts with a non-whitespace character keeps it first when trimmed. */
  lemma TrimKeepsNonBlankStart(s: string)
    requires |s| > 0 && !IsWhitespace(s[0])
    ensures |Trim(s)| > 0 && Trim(s)[0] == s[0]
  {
    var r := Trim(s);
    var i := LeadingWhitespace(s);
  }

  /** Trimming a string with no whitespace at either end changes nothing. */
  lemma TrimOfTrimmed(s: string)
    requires s == [] || (!IsWhitespace(s[0]) && !IsWhitespace(s[|s| - 1]))
    ensures Trim(s) == s
  {
    var r := Trim(s);
    var i := LeadingWhitespace(s);
  }

  /** A string that opens with a non-whitespace character only loses a whitespace tail when trimmed. */
  lemma TrimCutsOnlyTail(s: string)
    requires |s| > 0 && !IsWhitespace(s[0])
    ensures |Trim(s)| <= |s| && s[..|Trim(s)|] == Trim(s) && BlankFrom(s, |Trim(s)|)
  {
    var r := Trim(s);
    var i := LeadingWhitespace(s);
  }

  /** Whitespace appended to a trimmed string is trimmed away again. */
  lemma TrimDropsAppendedWhitespace(m: string, w: string)
    requires IsTrimmed(m) && AllWhitespace(w)
    ensures Trim(m + w) == m
  {
    var s := m + w;
    var r := Trim(s);
    var i := LeadingWhitespace(s);
    assert forall k :: |m| <= k < |s| ==> s[k] == w[k - |m|];
    assert r == s[..|m|];
  }

  predicate StartsWith(s: string, prefix: string) {
    |prefix| <= |s| && s[..|prefix|] == prefix
  }

  predicate EndsWith(s: string, suffix: string) {
    |suffix| <= |s| && s[|s| - |suffix|..] == suffix
  }

  /** Trimming keeps a prefix that neither starts nor ends with whitespace. */
  lemma TrimKeepsPrefix(s: string, p: string)
    requires StartsWith(s, p) && |p| > 0 && !IsWhitespace(p[0]) && !IsWhitespace(p[|p| - 1])
    ensures StartsWith(Trim(s), p)
  {
    var r := Trim(s);
    var i := LeadingWhitespace(s);
    assert r[..|p|] == s[..|p|];
  }

  /** A slice of `s` cut between whitespace runs keeps such a suffix of `s`. */
  lemma SliceKeepsSuffix(s: string, r: string, i: int, p: string)
    requires 0 <= i <= |s| - |r| && r == s[i..i + |r|]
    requires BlankBefore(s, i) && BlankFrom(s, i + |r|)
    requires EndsWith(s, p) && |p| > 0 && !IsWhitespace(p[0]) && !IsWhitespace(p[|p| - 1])
    ensures EndsWith(r, p)
  {
    assert !IsWhitespace(s[|s| - 1]);
    assert i + |r| == |s|;
    assert !IsWhitespace(s[|s| - |p|]);
    assert i <= |s| - |p|;
    assert r[|r| - |p|..] == s[|s| - |p|..];
  }

  /** Trimming keeps a suffix that neither starts nor ends with whitespace. */
  lemma TrimKeepsSuffix(s: string, p: string)
    requires EndsWith(s, p) && |p| > 0 && !IsWhitespace(p[0]) && !IsWhitespace(p[|p| - 1])
    ensures EndsWith(Trim(s), p)
  {
    var r := Trim(s);
    var i := LeadingWhitespace(s);
    SliceKeepsSuffix(s, r, i, p);
  }

  /** `p` occurs in `s` starting at index `i`. */
  predicate OccursAt(s: string, p: string, i: int) {
    0 <= i && i + |p| <= |s| && s[i..i + |p|] == p
  }

  /** Kotlin `contains` / Swift `contains` on a literal substring. */
  predicate Contains(s: string, p: string) {
    exists i :: 0 <= i <= |s| && OccursAt(s, p, i)
  }

  /** What occurs inside an occurrence occurs in the whole. */
  lemma OccursWithin(s: string, p: string, i: int, t: string, j: nat)
    requires OccursAt(s, p, i) && j + |t| <= |p| && t == p[j..j + |t|]
    ensures OccursAt(s, t, i + j)
  {
    var a := s[i + j..i + j + |t|];
    assert forall k :: 0 <= k < |t| ==> a[k] == p[j + k];
  }

  /** A text contains the trimmed form of anything it contains. */
  lemma ContainsTrimmed(s: string, p: string)
    requires Contains(s, p)
    ensures Contains(s, Trim(p))
  {
    var i :| 0 <= i <= |s| && OccursAt(s, p, i);
    var j := TrimSlice(p);
    OccursWithin(s, p, i, Trim(p), j);
  }

  /**
   * Cutting off a whitespace tail keeps every occurrence of a text that does
   * not end in whitespace.
   */
  lemma ContainsBeforeWhitespaceTail(s: string, b: nat, t: string)
    requires b <= |s| && BlankFrom(s, b) && Contains(s, t)
    requires t == [] || !IsWhitespace(t[|t| - 1])
    ensures Contains(s[..b], t)
  {
    if t == [] {
      assert OccursAt(s[..b], t, 0);
    } else {
      var i :| 0 <= i <= |s| && OccursAt(s, t, i);
      var e := i + |t| - 1;
      assert s[e] == t[|t| - 1];
      assert s[..b][i..i + |t|] == s[i..i + |t|];
      assert OccursAt(s[..b], t, i);
    }
  }

  lemma OccursInTail(s: string, p: string, i: int)
    requires |s| > 0 && 0 <= i
    ensures OccursAt(s[1..], p, i) <==> OccursAt(s, p, i + 1)
  {
    if 0 <= i && i + |p| <= |s| - 1 {
      assert s[1..][i..i + |p|] == s[i + 1..i + 1 + |p|];
    }
  }

  lemma OccursInSuffix(s: string, p: string, k: nat, i: int)
    requires k <= |s| && 0 <= i
    ensures OccursAt(s[k..], p, i) <==> OccursAt(s, p, i + k)
  {
    if 0 <= i && i + |p| <= |s| - k {
      assert s[k..][i..i + |p|] == s[i + k..i + k + |p|];
    }
  }

  /**
   * Kotlin `String.replace(old, new)` for a non-empty literal `old`: every
   * occurrence found by a left-to-right scan that resumes after each match is
   * replaced.
   */
  function ReplaceAll(s: string, p: string, r: string): string
    requires |p| > 0
    decreases |s|
  {
    if |s| < |p| then s
    else if s[..|p|] == p then r + ReplaceAll(s[|p|..], p, r)
    else [s[0]] + ReplaceAll(s[1..], p, r)
  }

  /**
   * Number of non-overlapping occurrences of `p` found by the same left-to-right
   * scan; this is Kotlin's `s.split(p).size - 1`.
   */
  function CountOccurrences(s: string, p: string): nat
    requires |p| > 0
    decreases |s|
  {
    if |s| < |p| then 0
    else if s[..|p|] == p then 1 + CountOccurrences(s[|p|..], p)
    else CountOccurrences(s[1..], p)
  }

  /** Replacing a pattern that does not occur leaves the string as it was. */
  lemma {:induction false} ReplaceAllAbsent(s: string, p: string, r: string)
    requires |p| > 0
    requires !Contains(s, p)
    ensures ReplaceAll(s, p, r) == s
    decreases |s|
  {
    if |s| >= |p| {
      assert !OccursAt(s, p, 0);
      forall i | OccursAt(s[1..], p, i) ensures false {
        OccursInTail(s, p, i);
      }
      ReplaceAllAbsent(s[1..], p, r);
    }
  }

  /** The scan counts zero occurrences exactly when the pattern does not occur. */
  lemma {:induction false} CountZeroIffAbsent(s: string, p: string)
    requires |p| > 0
    ensures CountOccurrences(s, p) == 0 <==> !Contains(s, p)
    decreases |s|
  {
    if |s| < |p| {
    } else if s[..|p|] == p {
      assert OccursAt(s, p, 0);
    } else {
      CountZeroIffAbsent(s[1..], p);
      if Contains(s, p) {
        var i :| 0 <= i <= |s| && OccursAt(s, p, i);
        assert i != 0;
        OccursInTail(s, p, i - 1);
      }
      if Contains(s[1..], p) {
        var i :| 0 <= i <= |s| - 1 && OccursAt(s[1..], p, i);
        OccursInTail(s, p, i);
      }
    }
  }

  /**
   * Replace and count are driven by the same scan: every counted occurrence
   * trades `|p|` characters for `|r|`.
   */
  lemma {:induction false} ReplaceAllLength(s: string, p: string, r: string)
    requires |p| > 0
    ensures |ReplaceAll(s, p, r)| == |s| + CountOccurrences(s, p) * (|r| - |p|)
    decreases |s|
  {
    var d := |r| - |p|;
    if |s| < |p| {
    } else if s[..|p|] == p {
      var t := s[|p|..];
      var c := CountOccurrences(t, p);
      ReplaceAllLength(t, p, r);
      assert |ReplaceAll(s, p, r)| == |r| + |ReplaceAll(t, p, r)|;
      assert CountOccurrences(s, p) == 1 + c;
      MulStep(c, d);
    } else {
      ReplaceAllLength(s[1..], p, r);
    }
  }

  lemma MulStep(c: int, d: int)
    ensures (1 + c) * d == c * d + d
  {
  }

  /** Searches downwards from index `k` for the last occurrence of `p`. */
  function LastOccurrenceAtOrBefore(s: string, p: string, k: int): (r: Option<nat>)
    ensures r.Some? ==> r.value <= k && OccursAt(s, p, r.value)
                        && forall j :: r.value < j <= k ==> !OccursAt(s, p, j)
    ensures r.None? ==> forall j :: j <= k ==> !OccursAt(s, p, j)
    decreases k + 1
  {
    if k < 0 then None
    else if OccursAt(s, p, k) then Some(k)
    else LastOccurrenceAtOrBefore(s, p, k - 1)
  }

  /** Kotlin `lastIndexOf(p)`: the greatest index at which `p` occurs. */
  function LastIndexOf(s: string, p: string): (r: Option<nat>)
    ensures r.Some? ==> OccursAt(s, p, r.value) && forall j :: r.value < j ==> !OccursAt(s, p, j)
    ensures r.None? <==> !Contains(s, p)
  {
    LastOccurrenceAtOrBefore(s, p, |s| - |p|)
  }

  /** Two non-overlapping occurrences exist whenever the scan counts more than one. */
  lemma {:induction false} CountAboveOneHasTwoOccurrences(s: string, p: string)
    requires |p| > 0
    requires CountOccurrences(s, p) > 1
    ensures exists i, j :: OccursAt(s, p, i) && OccursAt(s, p, j) && i + |p| <= j
    decreases |s|
  {
    if s[..|p|] == p {
      var t := s[|p|..];
      CountZeroIffAbsent(t, p);
      var j :| 0 <= j <= |t| && OccursAt(t, p, j);
      OccursInSuffix(s, p, |p|, j);
      assert OccursAt(s, p, 0) && OccursAt(s, p, j + |p|);
    } else {
      CountAboveOneHasTwoOccurrences(s[1..], p);
      var i, j :| OccursAt(s[1..], p, i) && OccursAt(s[1..], p, j) && i + |p| <= j;
      OccursInTail(s, p, i);
      OccursInTail(s, p, j);
    }
  }

  import opened Wrappers

  function DigitChar(d: nat): char
    requires d < 10
  {
    "0123456789"[d]
  }

  predicate IsDigit(c: char) {
    '0' <= c <= '9'
  }

  predicate AllDigits(s: string) {
    forall k :: 0 <= k < |s| ==> IsDigit(s[k])
  }

  /** The value of a run of decimal digits. */
  function DecimalValue(s: string): nat
    requires AllDigits(s)
    decreases |s|
  {
    if s == [] then 0
    else DecimalValue(s[..|s| - 1]) * 10 + (s[|s| - 1] as int - '0' as int)
  }

  /** Kotlin/Swift decimal rendering of a natural number: no sign, no leading zero. */
  function NatToString(n: nat): (r: string)
    ensures |r| > 0 && AllDigits(r)
    ensures |r| > 1 ==> r[0] != '0'
    decreases n
  {
    if n < 10 then [DigitChar(n)]
    else NatToString(n / 10) + [DigitChar(n % 10)]
  }

  /** Rendering and reading decimal digits are inverse. */
  lemma {:induction false} NatToStringRoundTrip(n: nat)
    ensures DecimalValue(NatToString(n)) == n
    decreases n
  {
    if n >= 10 {
      NatToStringRoundTrip(n / 10);
      var s := NatToString(n);
      assert s[..|s| - 1] == NatToString(n / 10);
    }
  }

  /** String template rendering of an `Int`. */
  function IntToString(i: int): (r: string)
    ensures |r| > 0
    ensures i < 0 <==> r[0] == '-'
  {
    if i < 0 then "-" + NatToString(-i) else NatToString(i)
  }
}

=== FILE: wrappers.dfy ===
/** Optional values: Kotlin's nullable types and Swift's optionals. */
module Wrappers {

  datatype Option<+T> = None | Some(value: T) {

    /** The value, or `default` when absent: Kotlin's `?:` and Swift's `??`. */
    function GetOr(default: T): T {
      match this
      case Some(v) => v
      case None => default
    }
  }
}
